=== FILE: README.md ===
# Order and pricing logic of a multi-tenant Django shop, delivery menu and bar

The system is a Django project. Merchants ("tenants") use it to run three things:

- a storefront, where guest buyers keep a cart under their phone number and pay through a payment gateway;
- a delivery menu, where the cart lives in the browser session as a dictionary from cart keys to counts;
- a bar, where staff keep one tab ("comanda") per table.

A management command copies one tenant's menus to another tenant.

This project models that logic as pure functions over immutable values and proves what the code promises about it. The model replaces:

- database tables, by sequences indexed by primary key (`Tables`);
- the session cart, by an insertion-ordered list of entries (`DeliveryCart`);
- the payment gateway, by a function from a payment id to its reply (`ShopPayment`).

Money is kept in integer cents. A bar tab's total is kept in tenths of a cent, so that the 10% service charge is exact.

Modules, in dependency order:

- `Wrappers`, `Tables` and `Text` are helpers. They cover `Option`, tables as values, and the Python string operations the views use (`split`, `strip`, `lower`, `isalpha`, `startswith`, and reading a key out of text).
- `ShopModels`: tenants and the tenant slug rule, products, guest carts and their total, orders and their bought lines.
- `ShopCart`: the guest-cart views. These are add a product, change a line's quantity and remove a line.
- `ShopPayment`: turning a paid cart into an order, the redirect after payment, and the gateway notification (including where it finds the payment id).
- `Storefront`: the storefront's product list under the default ordering and the category filter.
- `DeliveryModels`: the delivery records, their status and payment-method codes, and the per-tenant uniqueness of category names and zone neighbourhoods.
- `DeliveryCart`: the session cart with its keys. It covers add, remove and the unit count shown on the cart icon.
- `DeliveryCheckout`: checkout and `repeat_order`.
  - Checkout parses and prices each key, computes the totals and writes the order and its bought lines.
  - `repeat_order` rebuilds the cart from the bought lines.
- `DeliveryMenu`: the public menu's combo ordering, as written and as intended.
- `Bar`: the tab state machine.
  - Opening a table, adding, removing and updating lines, closing and deleting a tab.
  - The table overview and the print preview with the service charge.
  - `calcular_total` and the line save rule.
- `Copying` and `CopyMenu`: the `copy_menu_data` command.
  - `Copying` holds the shared pieces: `get_or_create` on whole rows, and bulk copies.
  - `CopyMenu` holds the delivery and bar steps, `--clear` and `handle`.

## Model

| member | source | states |
|---|---|---|
| ShopModels.SaveTenant | shop/models.py:43-49 | a slug that is already set is kept; a slug is generated only when blank; no other field changes |
| ShopModels.Total | shop/models.py:102-122 | `Cart.total` sums each line's `CartItem.subtotal`, the product price times the quantity: an empty cart totals 0, and non-negative subtotals give a non-negative total (additivity in TotalConcat) |
| ShopModels.TotalConcat | shop/models.py:102-105 | the cart total is additive over lines, and an empty cart totals 0 |
| ShopModels.TotalExample | shop/models.py:102-105 | a line's subtotal is price times quantity (2 x 10.00 + 1 x 5.50 = 25.50) |
| ShopModels.Snapshot | shop/views.py:454-460 | one bought line per cart line, in order, with the product's name and price of the moment and the line's quantity; the bought lines add up to the cart total |
| ShopModels.SnapshotTotal | shop/models.py:102-105 | the bought lines alone add up to the cart total they were copied from |
| ShopModels.CartByPhone | shop/models.py:98 | the cart found for a phone has that phone; when none is found, no cart has it |
| ShopModels.CartByPhoneAfterDelete | shop/models.py:98 | deleting one cart does not change which cart any other phone finds |
| ShopModels.QtySumOfLine | shop/models.py:114-122 | with one line per product, the quantity of a product in a cart is that line's quantity |
| ShopCart.GetOrCreateCart | shop/views.py:592 | afterwards the phone finds its cart; an existing cart is reused unchanged, otherwise an empty cart is created; other phones find the same carts as before |
| ShopCart.EnsureLine | shop/views.py:602 | the product gets a line, created at quantity 0 when missing, so no product quantity changes |
| ShopCart.AddToCart | shop/views.py:578-609 | a blank phone is sent to the phone form with nothing changed; an unknown product answers not-found; the catalogue, orders and tenants are untouched |
| ShopCart.AddToCartQuantities | shop/views.py:596-606 | the added amount is the submitted integer, or 1 when missing or unreadable; it is added to the product's quantity exactly when the result is not negative, otherwise the view fails and the quantity stays; no other product or phone changes |
| ShopCart.AddToCartKeepsValid | shop/views.py:592-606 | adding keeps one cart per phone and one line per product in a cart |
| ShopCart.RemoveFromCart | shop/views.py:670-687 | a blank phone is sent to the phone form; otherwise the buyer goes back to the cart (what changes is in RemoveFromCartEffect) |
| ShopCart.RemoveFromCartEffect | shop/views.py:678-685 | exactly the line with that id leaves the buyer's own cart and nothing else changes; an id not in that cart, or no cart, changes nothing |
| ShopCart.RemoveFromCartKeepsValid | shop/views.py:670-687 | removing keeps the store invariant |
| ShopCart.UpdateCartItem | shop/views.py:689-710 | only a POST acts; a blank phone is sent to the phone form with nothing changed |
| ShopCart.UpdateCartItemEffect | shop/views.py:698-708 | a positive quantity (1 when missing) becomes that line's quantity and nothing else changes; zero, a negative number or text that is not an integer changes nothing |
| ShopCart.UpdateCartItemKeepsValid | shop/views.py:689-710 | updating keeps the store invariant |
| ShopPayment.Materialise | shop/views.py:438-464 | a missing cart is reported gone; an empty cart fails before writing; otherwise exactly one order is appended, the cart is deleted and nothing else changes |
| ShopPayment.MaterialiseSnapshot | shop/views.py:443-463 | the order is paid and carries the buyer's phone, the first product's tenant and the cart total; this total equals the sum over its bought lines, one per cart line with name, quantity and price |
| ShopPayment.OrderIndependentOfCatalogue | shop/models.py:145-149 | bought lines are stored by value, so a later catalogue change leaves the order as it was |
| ShopPayment.MaterialiseTwice | shop/views.py:421-431 | materialising the same cart again finds no cart and changes nothing |
| ShopPayment.PaymentSuccess | shop/views.py:407-436 | the success page is shown exactly when a cart reference is present and the status (`collection_status`, else `status`) is `approved`; the store changes only then, and only for a reference naming an existing cart |
| ShopPayment.PaymentSuccessCreates | shop/views.py:421-426 | an approved redirect for an existing non-empty cart creates its order |
| ShopPayment.RawPaymentId | shop/views.py:480-495 | the id comes from `data.id` for `type == payment`; otherwise from `resource`, then the query `id`, for `topic == payment`; the query `topic` is the last resort; it is blank exactly when none applies |
| ShopPayment.LastSegmentOfUrl | shop/views.py:497-500 | a URL ending in `/<id>` is cut down to the id |
| ShopPayment.PaymentId | shop/views.py:497-500 | a blank id stays blank; an id starting with `http` is cut to a text with no `/` in it; any other id is passed on unchanged |
| ShopPayment.PaymentIdTrailingSlash | shop/views.py:486-500 | a resource URL ending in `/` is a present id that cuts down to the empty text |
| ShopPayment.PaymentIdFromResourceUrl | shop/views.py:486-500 | an old-style notification whose resource is the payment's URL yields the payment id |
| ShopPayment.Webhook | shop/views.py:466-521 | an unknown tenant answers 500 and a tenant without a gateway key answers 400; a body that is not JSON answers 500; without a payment id nothing changes and the answer is 200; otherwise the gateway is asked about the cut id: a failing lookup answers 500, a reply that is not an approved payment with a reference answers 200 with nothing changed, a reference that is not a key answers 500, and a reference to a cart materialises it (200) unless the cart is empty (500); only a change answers 200 |
| ShopPayment.WebhookTrailingSlash | shop/views.py:497-503 | a resource URL ending in `/` still reaches the gateway with the empty id: a failing lookup answers 500, and an approved reply for a cart materialises it |
| ShopPayment.ReconcileOnce | shop/views.py:415-431 | with the redirect and the notification in either order, or the same callback twice, a paid cart becomes exactly one order; the second callback changes nothing |
| ShopPayment.DeliverKeepsValid | shop/views.py:407-521 | both callbacks keep the store invariant |
| Storefront.Listings | shop/views.py:206-215 | exactly the tenant's products, filtered by category when the filter is an integer (ignored otherwise), in id order |
| Storefront.CatMax | shop/views.py:242-246 | the newest product id of a category among the listed products |
| Storefront.SortListings | shop/views.py:249 | the result is sorted by the key and is a permutation of the input |
| Storefront.SalesView | shop/views.py:235-250 | the default ordering rearranges the filtered listings without adding or dropping any (order in SalesViewOrder) |
| Storefront.SalesViewContents | shop/views.py:206-250 | the list holds each filtered product of the tenant exactly once, and nothing else |
| Storefront.SalesViewOrder | shop/views.py:235-249 | promotion products come first; then categories with a newer newest product; then newer products first |
| DeliveryModels.ParsePaymentMethod | delivery/models.py:49-53 | a stored payment code stands for the method whose code it is |
| DeliveryModels.PaymentCodeRoundTrip | delivery/models.py:49-53 | every payment method is stored under a code of its own |
| DeliveryModels.StatusCodeRoundTrip | delivery/models.py:54-75 | every order status is stored under a code of its own, and new orders are pending |
| DeliveryModels.CategoryNamedUnique | delivery/models.py:12 | under the per-tenant unique name, the category found by name is the only one |
| DeliveryModels.ZoneFeeDetermined | delivery/models.py:42 | under the per-tenant unique neighbourhood, a neighbourhood determines one zone and so one fee |
| DeliveryModels.FeeFor | delivery/views.py:337 | the fee is the chosen zone's fee, or 0 without a zone |
| DeliveryCart.Bump | delivery/views.py:246 | an existing key keeps its place and a new key goes last at count 1; keys stay distinct |
| DeliveryCart.BumpCounts | delivery/views.py:246 | the key's count grows by one and every other count stays |
| DeliveryCart.RemoveCounts | delivery/views.py:257-258 | the removed key's count drops to zero and every other count stays |
| DeliveryCart.ItemCountBump | delivery/views.py:249 | the unit count reported after an add is one more than before |
| DeliveryCart.ItemCountRemove | delivery/views.py:257-258 | removing a key takes its whole count off the unit count |
| DeliveryCart.RequestedKey | delivery/views.py:229-239 | a ready-made key is used; otherwise `item_<id>` or `combo_<id>` is built; otherwise the key is blank |
| DeliveryCart.AddToDeliveryCart | delivery/views.py:220-252 | a closed store refuses; every refusal leaves the cart as it was; an accepted add reports the cart's unit count |
| DeliveryCart.AddToDeliveryCartEffect | delivery/views.py:241-251 | an accepted add raises the named key's count by one, keeps the other counts and the key order, and reports the old unit count plus one |
| DeliveryCart.RemoveFromDeliveryCart | delivery/views.py:254-262 | removing a key that is not in the cart leaves the cart identical |
| DeliveryCart.SplitKey | delivery/views.py:275-282 | splitting a well-formed key at `_` gives back its type, its id and its extra ids |
| DeliveryCart.RequestedItemKey | delivery/views.py:235-239 | the key built from an item or combo id is the key of that item or combo without extras |
| DeliveryCheckout.ParseIds | delivery/views.py:280-284 | all pieces are read as keys, or the lookup fails |
| DeliveryCheckout.SelectedOptionalsMembers | delivery/views.py:289-290 | the optionals selected are exactly the tenant's optionals named in the key, each once, in id order |
| DeliveryCheckout.CostAddOne | delivery/views.py:289-291 | naming an optional a second time, or one that is not the tenant's, adds nothing to the cost |
| DeliveryCheckout.PriceEntry | delivery/views.py:274-329 | a priced key keeps its key and count, and a blank key is never priced (prices in PriceItemKey and PriceComboKey, skips in PriceEntrySkips) |
| DeliveryCheckout.PriceItemKey | delivery/views.py:278-302 | an item key is priced at the item price plus the named optionals, times the count |
| DeliveryCheckout.PriceComboKey | delivery/views.py:305-327 | a combo key is priced at the combo price times the count, whatever the choices; unknown choices are dropped |
| DeliveryCheckout.PriceEntrySkips | delivery/views.py:274-329 | keys of another type, without an id, or naming another tenant's or a missing record are skipped |
| DeliveryCheckout.PriceCart | delivery/views.py:272-329 | the checkout fails exactly when some key fails; otherwise the priced lines are the pricable entries, in cart order |
| DeliveryCheckout.SaveItems | delivery/views.py:342-367 | one bought line is written per priced line, in order; a zero count stops the writing, since its unit price divides by the count |
| DeliveryCheckout.Checkout | delivery/views.py:264-384 | an empty cart creates nothing; a shown form changes nothing; a placed order gets the next id and empties the cart |
| DeliveryCheckout.CheckoutTotals | delivery/views.py:334-339 | the placed order is pending and the tenant's; it carries the items total, the chosen zone's fee (0 without a zone), and a final total that is their sum |
| DeliveryCheckout.RebuildCart | delivery/views.py:489-492 | only lines that remember a non-blank key are rebuilt; the cart is empty exactly when no line does, and its keys are distinct, each one a line remembers |
| DeliveryCheckout.RepeatOrder | delivery/views.py:485-500 | another tenant's or a missing order is not found; the repeat is refused exactly when no line of the order remembers a non-blank key, and then the cart stays as it was; otherwise a non-empty cart with distinct keys takes its place |
| DeliveryCheckout.RepeatOrderWithoutKeys | delivery/views.py:490-496 | an order whose lines remember no key, or only blank ones, cannot be repeated and leaves the cart as it was |
| DeliveryCheckout.RepeatAfterCheckout | delivery/views.py:342-367 | repeating a just-placed order rebuilds the checkout cart: the priced keys, in order, with their counts; with no priced key, the repeat is refused |
| DeliveryMenu.SortKeyOf | delivery/views.py:177-187 | the key is the blank marker exactly for a name that strips to nothing; otherwise it records whether the first character is a letter, and the lower-cased name |
| DeliveryMenu.AsWrittenFailsIffMixed | delivery/views.py:177-189 | sorting as written fails exactly when blank and non-blank names are both present; otherwise it is a permutation |
| DeliveryMenu.AsWrittenCounterexample | delivery/views.py:177-189 | a blank-named combo next to one named `Pizza` makes the sort as written fail |
| DeliveryMenu.SortCombos | delivery/views.py:176-189 | the intended order is sorted and is a permutation of the combos |
| DeliveryMenu.SortCombosOrder | delivery/views.py:176-187 | blank names come last; among the others, names not starting with a letter come first, then by lower-cased name |
| DeliveryMenu.SortCombosAgrees | delivery/views.py:177-189 | wherever the code as written works, it produces the intended order |
| DeliveryMenu.CustomerMenu | delivery/views.py:166-218 | the menu shows the tenant's available combos in intended order and the cart's unit count |
| DeliveryMenu.MenuCountAfterAdd | delivery/views.py:205-207 | the unit count on the menu page after an add is the count that add reported |
| Bar.ComandaStatusRoundTrip | bar/models.py:41-49 | every tab status is stored under a code of its own, and new tabs are open |
| Bar.CalcularTotalMeaning | bar/models.py:63-67 | the total is the sum of the line subtotals, times 1.10 with the service charge; it never depends on the previous total, so setting and then clearing the charge gives the plain sum |
| Bar.SaveLine | bar/models.py:84-85 | saving a line sets its subtotal to quantity times unit price and changes nothing else |
| Bar.Refresh | bar/models.py:87-89 | the stored total becomes the recomputed total and nothing else changes |
| Bar.SaveNewItem | bar/models.py:84-89 | the new line's subtotal is added to the base sum, and the tab's total is refreshed |
| Bar.RemoveLine | bar/views.py:252-256 | the line's subtotal leaves the base sum, and the tab's total is refreshed |
| Bar.NewComanda | bar/models.py:47-53 | a new tab is open, with total 0 and no service charge |
| Bar.OpenComanda | bar/views.py:203-209 | the open tab of the table is reused when one exists, otherwise one is created |
| Bar.OpenComandaKeepsValid | bar/views.py:203-209 | opening keeps one open tab per table |
| Bar.AddToTab | bar/views.py:217-245 | adding changes only the tab's lines and total, never its table, tenant, status or charge (effects in AddToTabNewLine and AddToTabExistingLine) |
| Bar.AddToTabNewLine | bar/views.py:226-234 | an item not yet on the tab gets a line at the menu price, the quantity and the note; a negative quantity fails the positive-integer column |
| Bar.AddToTabExistingLine | bar/views.py:236-240 | an item already on the tab adds to its quantity, keeps its unit price and replaces its note |
| Bar.AddItem | bar/views.py:217-245 | only the tab changes; an item that is not the tenant's is an error with nothing changed |
| Bar.AddItemKeepsValid | bar/views.py:217-245 | after an add the tab's stored total equals its recomputed total |
| Bar.RemoveFromTab | bar/views.py:247-260 | removing changes only the tab's lines and total, and an id on no line of the tab changes nothing (effect in RemoveFromTabEffect) |
| Bar.RemoveFromTabEffect | bar/views.py:247-256 | exactly the line with that id leaves the tab, and the total is recomputed |
| Bar.RemoveItem | bar/views.py:247-260 | only the tab changes; an id that is not a number is an error |
| Bar.UpdateInTab | bar/views.py:262-287 | updating changes only the tab's lines and total (effect in UpdateInTabEffect) |
| Bar.UpdateInTabEffect | bar/views.py:281-284 | the line's quantity is set exactly, and the subtotal and total are recomputed |
| Bar.UpdateQuantidade | bar/views.py:262-287 | a quantity of 0 or less removes the line as remove does; a positive one sets it |
| Bar.ComandaViewKeepsValid | bar/views.py:192-297 | every tab action keeps one open tab per table, with each stored total equal to its recomputed total |
| Bar.ComandaView | bar/views.py:198-201 | a closed bar changes nothing; no action touches closed tabs or the menu |
| Bar.Fechar | bar/views.py:484-513 | nothing changes unless an open tab exists; without one the reply says so |
| Bar.FecharEffect | bar/views.py:497-506 | closing takes the service charge from the form, recomputes the total and marks the tab closed |
| Bar.FecharTwice | bar/views.py:490-495 | a closed tab cannot be closed again |
| Bar.Excluir | bar/views.py:445-481 | only a POST with a non-empty, correct password deletes, and only a closed tab of the tenant; every refusal changes nothing |
| Bar.ExcluirKeepsOpenTabs | bar/views.py:463-468 | deleting never removes an open tab |
| Bar.MesaRow | bar/views.py:163-183 | a table is occupied exactly when it has an open tab, showing that tab's total and line count; a free table shows 0 and 0 |
| Bar.Mesas | bar/views.py:151-189 | a closed bar shows no tables; otherwise tables 1 to the tenant's number of tables, in order |
| Bar.MesasShowOpenTab | bar/views.py:163-176 | an open tab shows on its table's row, with a total equal to its recomputed total and its line count |
| Bar.PrintPreview | bar/views.py:360-394 | without an open tab nothing is printed; the preview totals are base and base times 1.1 with the charge, or base twice without it |
| Bar.SalvarComanda | bar/views.py:306-319 | nothing to print exactly without an open tab; the preview charges the 10% exactly when the query or the form says `on`, and its plain total is the tab's sum of subtotals |
| Bar.ImprimirComanda | bar/views.py:360-372 | nothing to print exactly without an open tab; the preview charges the 10% exactly when the query says `on`, and its plain total is the tab's sum of subtotals |
| Bar.ImprimirIgnoresForm | bar/views.py:314-368 | `imprimir_comanda` shows what `salvar_comanda` shows without a form; when only the form asks for the charge, `salvar_comanda` charges it and `imprimir_comanda` does not |
| Bar.SalvarEitherPlace | bar/views.py:314 | in `salvar_comanda` asking for the charge in the query or in the form gives the same preview |
| Bar.PreviewMatchesFechar | bar/views.py:497-501 | the preview total with the same choice of charge is the total closing stores |
| Copying.GetOrCreateEachMaps | shop/management/commands/copy_menu_data.py:61-66 | each source id maps to a live row equal to the row requested for it |
| Copying.GetOrCreateEachGrows | shop/management/commands/copy_menu_data.py:61-66 | existing rows are kept, and a row is created only for a request no existing row met |
| Copying.GetOrCreateEachPresent | shop/management/commands/copy_menu_data.py:61-66 | when every requested row already exists, nothing is created |
| Copying.CopiesSound | shop/management/commands/copy_menu_data.py:72-83 | every copy is the copy of an accepted source row |
| Copying.CopiesComplete | shop/management/commands/copy_menu_data.py:72-83 | every accepted source row has its copy |
| CopyMenu.ClearDelivery | shop/management/commands/copy_menu_data.py:47-54 | the target's delivery menu rows are deleted, with their cascades; other tenants' rows stay |
| CopyMenu.CopyDeliveryData | shop/management/commands/copy_menu_data.py:43-129 | the delivery copy never touches bought lines; without `--clear` it leaves orders as they were, and with it orders keep every field but a deleted zone (steps in the CopyDelivery* lemmas) |
| CopyMenu.CopyDeliveryCategoriesMapsByName | shop/management/commands/copy_menu_data.py:61-66 | each source category maps to the target's category of the same name |
| CopyMenu.CopyDeliveryCategoriesCreates | shop/management/commands/copy_menu_data.py:61-66 | existing categories are kept, and one is created only for a name the target lacked |
| CopyMenu.CopyDeliveryCategoriesUnique | delivery/models.py:12 | the copy keeps category names unique per tenant |
| CopyMenu.CopyDeliveryItemsSound | shop/management/commands/copy_menu_data.py:72-83 | every item created is the target's copy of a source item, with the same name, price and availability, in the mapped category |
| CopyMenu.CopyDeliveryItemsComplete | shop/management/commands/copy_menu_data.py:72-83 | every source item in a source category gets its copy |
| CopyMenu.CopyDeliveryOptionalsSound | shop/management/commands/copy_menu_data.py:90-98 | every optional created is the target's copy of a source optional in the mapped category |
| CopyMenu.CopyDeliveryOptionalsComplete | shop/management/commands/copy_menu_data.py:90-98 | every source optional in a source category gets its copy |
| CopyMenu.CopyDeliveryCombos | shop/management/commands/copy_menu_data.py:104-112 | each source combo is created again under the target with the same name, price and availability, one new combo per source combo (in source id order, see Left out) |
| CopyMenu.CopyDeliverySlots | shop/management/commands/copy_menu_data.py:113-119 | each new combo gets the slots of its source combo whose category was copied |
| CopyMenu.SlotCopiesSound | shop/management/commands/copy_menu_data.py:114-119 | each copied slot points at the new combo and at the target category named like the source slot's category |
| CopyMenu.SlotCopiesComplete | shop/management/commands/copy_menu_data.py:114-119 | every slot of a source combo in a source category gets its copy |
| CopyMenu.CopyZonesGrows | shop/management/commands/copy_menu_data.py:124-129 | existing zones keep their fee; each new zone carries a source zone's neighbourhood and fee |
| CopyMenu.CopyZonesOnlyNew | shop/management/commands/copy_menu_data.py:124-129 | a zone is created only for a neighbourhood the target lacked |
| CopyMenu.CopyZonesCovers | shop/management/commands/copy_menu_data.py:124-129 | afterwards the target has a zone for every source neighbourhood |
| CopyMenu.CopyZonesUnique | delivery/models.py:42 | the copy keeps neighbourhoods unique per tenant |
| CopyMenu.RerunKeepsCategories | shop/management/commands/copy_menu_data.py:62 | a second run without `--clear` creates no category |
| CopyMenu.RerunKeepsZones | shop/management/commands/copy_menu_data.py:125 | a second run without `--clear` creates no zone and changes no fee |
| CopyMenu.RerunDuplicatesItems | shop/management/commands/copy_menu_data.py:74 | a second run without `--clear` creates the items again |
| CopyMenu.ClearThenCopyCategories | shop/management/commands/copy_menu_data.py:47-66 | with `--clear` the target ends with only categories named like the source's |
| CopyMenu.ClearThenCopyZones | shop/management/commands/copy_menu_data.py:43-129 | with `--clear` every target zone is a copy of a source zone with the source's fee |
| CopyMenu.ClearBar | shop/management/commands/copy_menu_data.py:134-137 | the target's bar items and categories are deleted, and tab lines on deleted items go with them |
| CopyMenu.CopyBarData | shop/management/commands/copy_menu_data.py:131-163 | the bar copy never recomputes a tab's stored total; without `--clear` it leaves the tabs as they were (steps in the CopyBar* lemmas) |
| CopyMenu.ClearBarKeepsTotals | shop/management/commands/copy_menu_data.py:134-137 | clearing leaves every tab's stored total as it was |
| CopyMenu.ClearBarStaleExample | shop/management/commands/copy_menu_data.py:136 | a tab can keep a total of 10.00 after clearing has removed all its lines |
| CopyMenu.CopyBarCategoriesMapsByName | shop/management/commands/copy_menu_data.py:143-148 | each source bar category maps to the target's category of the same name |
| CopyMenu.CopyBarCategoriesCreates | shop/management/commands/copy_menu_data.py:143-148 | existing bar categories are kept, and one is created only for a name the target lacked |
| CopyMenu.CopyBarCategoriesUnique | bar/models.py:12 | the copy keeps bar category names unique per tenant |
| CopyMenu.CopyBarItemsSound | shop/management/commands/copy_menu_data.py:154-163 | every bar item created is the target's copy of a source item in the mapped category |
| CopyMenu.CopyBarItemsComplete | shop/management/commands/copy_menu_data.py:154-163 | every source bar item in a source category gets its copy |
| CopyMenu.RerunKeepsBarCategories | shop/management/commands/copy_menu_data.py:144 | a second bar run creates no category |
| CopyMenu.RerunDuplicatesBarItems | shop/management/commands/copy_menu_data.py:156 | a second bar run copies each item again |
| CopyMenu.ParseApp | shop/management/commands/copy_menu_data.py:12 | `--app` defaults to `all`; `delivery`, `bar` and `all` are the only accepted words |
| CopyMenu.TenantWithSlug | shop/management/commands/copy_menu_data.py:21-31 | the tenant found has the slug; when none is found, no tenant has it |
| CopyMenu.Handle | shop/management/commands/copy_menu_data.py:15-41 | a missing source, then a missing target, stops the command; `delivery` copies only delivery data, `bar` only bar data, `all` both |

## Left out

- Rendering, messages and redirect targets are left out. Views return a small reply value instead of HTML, and messages are not modelled.
- Authentication, `login_required` and `request.user.tenant` are left out. The tenant is a parameter, and the password check is a boolean input.
- The redirect-versus-notification race and concurrent tab edits are left out. Calls are sequential, so the model proves idempotence only.
- The gateway SDK is a parameter. The preference creation in `create_payment_view` and `create_cart_payment_view` is left out, because it only calls the SDK.
- Rounding to two decimal places on save is left out. Totals stay exact: cents for the shop and delivery, tenths of a cent for bar tabs.
- `reimprimir_comanda` is left out. Its `total / 1.1` divides a value already rounded to two places, so it is not an exact inverse.
- `delivery_pos_view`, the bar reports and the sales charts are left out. They use `float`, database aggregation and dates.
- Admin and settings views are left out: menu, combo and product CRUD, storefront settings, `configuracoes_view`, and the open/available toggles. Form validation is left out too. A valid delivery order form is an input.
- `slugify`, image fields, descriptions, timestamps (`data_abertura`, `data_fechamento`) and WhatsApp message text are left out.
- Text.ParseNat accepts only non-empty ASCII digit strings. Python's `int()` also accepts a sign, surrounding whitespace and underscores. The primary-key lookups the model covers all go through this reader.
- Text.Lower and Text.IsAlpha cover the Latin-1 range only, and not the rest of Unicode.
- Storefront.SalesView models only the default ordering. The `price_asc` and `price_desc` orderings sort by category name and price in the database's collation, so they are left out.
- DeliveryMenu.AvailableCombos starts from the combos in id order, where the query returns them in `Combo`'s declared order by name (delivery/models.py:102). The sort is stable, so combos with equal sort keys, such as "Pizza" and "pizza", may come out in another order than in the source.
- CopyMenu.CopyDeliveryCombos creates the copies in source id order, and so do the item step (CopyMenu.CopyItems), the zone step (CopyMenu.CopyZones) and the bar item step (CopyMenu.CopyBarItemsTable). The command walks those querysets in their declared orderings: combos by name, zones by neighbourhood, and delivery and bar items by category name and then name (delivery/models.py:29, delivery/models.py:43, delivery/models.py:102, bar/models.py:27). The same rows are created with the same fields and mapped categories; only the ids they receive, and the order of the slot rows, differ. The model does not promise the source's id assignment.
- CopyMenu.Handle leaves out the argument parser and the progress messages. Tenant slugs are taken as unique.
- Bar.SalvarComanda returns the print preview it computes and persists nothing. The source also persists nothing and sends nothing to a printer.
- ShopCart.AddToCartQuantities: does not model the upper bound of the `quantity` column (a `PositiveIntegerField`, shop/models.py:117). The column has an upper bound on every database: 2147483647 on PostgreSQL and MySQL, 2^63-1 on SQLite. Past it, `save()` raises a database error and the view answers 500. The model's integers are unbounded, so it reports the write as successful.
- ShopCart.UpdateCartItemEffect: does not model the upper bound of the `quantity` column (a `PositiveIntegerField`, shop/models.py:117). The column has an upper bound on every database: 2147483647 on PostgreSQL and MySQL, 2^63-1 on SQLite. Past it, `save()` raises a database error and the view answers 500. The model's integers are unbounded, so it reports the write as successful.
- Bar.AddToTabNewLine: does not model the upper bound of the `quantidade` column (a `PositiveIntegerField`, bar/models.py:72). The column has an upper bound on every database: 2147483647 on PostgreSQL and MySQL, 2^63-1 on SQLite. Past it, `save()` raises a database error and the view answers 500. The model's integers are unbounded, so it reports the write as successful.
- Bar.AddToTabExistingLine: does not model the upper bound of the `quantidade` column (a `PositiveIntegerField`, bar/models.py:72). The column has an upper bound on every database: 2147483647 on PostgreSQL and MySQL, 2^63-1 on SQLite. Past it, `save()` raises a database error and the view answers 500. The model's integers are unbounded, so it reports the write as successful.
- Bar.UpdateInTabEffect: does not model the upper bound of the `quantidade` column (a `PositiveIntegerField`, bar/models.py:72). The column has an upper bound on every database: 2147483647 on PostgreSQL and MySQL, 2^63-1 on SQLite. Past it, `save()` raises a database error and the view answers 500. The model's integers are unbounded, so it reports the write as successful.
- Bar.UpdateQuantidade: does not model the upper bound of the `quantidade` column (a `PositiveIntegerField`, bar/models.py:72). The column has an upper bound on every database: 2147483647 on PostgreSQL and MySQL, 2^63-1 on SQLite. Past it, `save()` raises a database error and the view answers 500. The model's integers are unbounded, so it reports the write as successful.
- ShopPayment.MaterialiseSnapshot: does not model the upper bound of the `DecimalField(max_digits=10, decimal_places=2)` amounts it stores. On a database that enforces `numeric(10,2)`, an amount of 100000000.00 or more makes `save()` raise a database error and the view answer 500. The model reports the write as successful. The columns are `Order.total_amount` and `OrderItem.price` (shop/models.py:137, shop/models.py:149).
- DeliveryCheckout.CheckoutTotals: does not model the upper bound of the `DecimalField(max_digits=10, decimal_places=2)` amounts it stores. On a database that enforces `numeric(10,2)`, an amount of 100000000.00 or more makes `save()` raise a database error and the view answer 500. The model reports the write as successful. The columns are `items_total`, `delivery_fee` and `final_total` (delivery/models.py:71-73).
- DeliveryCheckout.SaveItems: does not model the upper bound of the `DecimalField(max_digits=10, decimal_places=2)` amounts it stores. On a database that enforces `numeric(10,2)`, an amount of 100000000.00 or more makes `save()` raise a database error and the view answer 500. The model reports the write as successful. The column is `OrderItem.price` (delivery/models.py:85).
- Bar.SaveLine: does not model the upper bound of the `DecimalField(max_digits=10, decimal_places=2)` amounts it stores. On a database that enforces `numeric(10,2)`, an amount of 100000000.00 or more makes `save()` raise a database error and the view answer 500. The model reports the write as successful. The column is `subtotal` (bar/models.py:74).
- Bar.Refresh: does not model the upper bound of the `DecimalField(max_digits=10, decimal_places=2)` amounts it stores. On a database that enforces `numeric(10,2)`, an amount of 100000000.00 or more makes `save()` raise a database error and the view answer 500. The model reports the write as successful. The column is `BarComanda.total` (bar/models.py:52).
- Bar.SaveNewItem: does not model the upper bound of the `DecimalField(max_digits=10, decimal_places=2)` amounts it stores. On a database that enforces `numeric(10,2)`, an amount of 100000000.00 or more makes `save()` raise a database error and the view answer 500. The model reports the write as successful. The columns are `subtotal` and `total` (bar/models.py:52, bar/models.py:74).
- Bar.FecharEffect: does not model the upper bound of the `DecimalField(max_digits=10, decimal_places=2)` amounts it stores. On a database that enforces `numeric(10,2)`, an amount of 100000000.00 or more makes `save()` raise a database error and the view answer 500. The model reports the write as successful. The column is `BarComanda.total` (bar/models.py:52).

## Findings

| source | as written | input that shows it | evidently intended | confidence | as-written member | corrected member |
|---|---|---|---|---|---|---|
| delivery/views.py:177-189 | `sort_key` returns `('z', '')` for a blank name and `(bool, str)` otherwise. Python 3 cannot order `'z'` against a bool, so `sorted` raises `TypeError` and the menu page fails. | two available combos, one named `" "` and one named `"Pizza"` | blank names sort last, after all the others | not executed | DeliveryMenu.AsWrittenCounterexample | DeliveryMenu.SortCombosAgrees |

=== FILE: bar.dfy ===
/** The bar: each table's tab ("comanda"), its lines, and the actions the staff take on
    it (add, remove, change a quantity, close, delete, print), plus the table overview.

    Menu prices, unit prices and line subtotals are in integer cents. A tab's total is
    kept exactly in tenths of a cent, so that the optional 10% service charge
    ("gorjeta") is exact: a plain total of `b` cents is `10 * b`, and with the charge it
    is `11 * b`. Rounding to two decimal places when the database stores it is not part
    of this model. */
module Bar {
  import opened Wrappers
  import opened Text
  import opened Tables
  import ShopModels

  datatype BarCategory = BarCategory(tenant: nat, name: string)

  datatype BarMenuItem = BarMenuItem(tenant: nat, category: nat, name: string, price: int, isAvailable: bool)

  /** A tab is open ("aberta") while the table consumes, then closed ("fechada"); "paga"
      (paid) exists as a status but no action sets it. */
  datatype ComandaStatus = Aberta | Fechada | Paga

  /** The status of a new tab. */
  const DefaultComandaStatus: ComandaStatus := Aberta

  function ComandaStatusCode(st: ComandaStatus): string {
    match st
    case Aberta => "aberta"
    case Fechada => "fechada"
    case Paga => "paga"
  }

  function ParseComandaStatus(code: string): (r: Option<ComandaStatus>)
    ensures r.Some? ==> ComandaStatusCode(r.value) == code
  {
    if code == "aberta" then Some(Aberta)
    else if code == "fechada" then Some(Fechada)
    else if code == "paga" then Some(Paga)
    else None
  }

  /** Every status is stored under a code of its own, and a new tab is `aberta`. */
  lemma ComandaStatusRoundTrip(st: ComandaStatus)
    ensures ParseComandaStatus(ComandaStatusCode(st)) == Some(st)
    ensures ComandaStatusCode(DefaultComandaStatus) == "aberta"
  {
  }

  /** A line of a tab: `id` is its primary key, `item` the menu item, `precoUnitario`
      the unit price taken when the line was created. */
  datatype ComandaItem = ComandaItem(id: nat, item: nat, quantidade: nat, precoUnitario: int,
                                     subtotal: int, observacao: string)

  /** A tab; `total` is in tenths of a cent. */
  datatype Comanda = Comanda(tenant: nat, mesa: nat, status: ComandaStatus, total: int,
                             gorjeta10: bool, itens: seq<ComandaItem>)

  /** The bar's tables; `nextItem` is the next primary key of a tab line. */
  datatype BarDb = BarDb(categories: Table<BarCategory>, menu: Table<BarMenuItem>,
                         comandas: Table<Comanda>, nextItem: nat)

  /** Bar category names are unique per tenant (a unique constraint on tenant and name). */
  ghost predicate BarCategoryNamesUnique(cats: Table<BarCategory>) {
    forall i: nat, j: nat | Has(cats, i) && Has(cats, j) && i != j :: cats[i].value != cats[j].value
  }

  /** The sum of the line subtotals, in cents. */
  function Base(itens: seq<ComandaItem>): int
    decreases |itens|
  {
    if |itens| == 0 then 0 else Base(itens[..|itens| - 1]) + itens[|itens| - 1].subtotal
  }

  /** `calcular_total()`: the sum of the line subtotals, with 10% on top when the service
      charge is on, in tenths of a cent. */
  function CalcularTotal(c: Comanda): int {
    Base(c.itens) * (if c.gorjeta10 then 11 else 10)
  }

  /** What the total means: without the service charge it is the sum of the subtotals;
      with it, exactly 1.1 times that; it depends on the lines and the flag only, never
      on the total stored before, so switching the charge on and off again gives back
      the plain sum. */
  lemma CalcularTotalMeaning(c: Comanda, previous: int)
    ensures !c.gorjeta10 ==> CalcularTotal(c) == 10 * Base(c.itens)
    ensures c.gorjeta10 ==> 10 * CalcularTotal(c) == 11 * CalcularTotal(c.(gorjeta10 := false))
    ensures CalcularTotal(c.(total := previous)) == CalcularTotal(c)
    ensures CalcularTotal(c.(gorjeta10 := true).(gorjeta10 := false)) == 10 * Base(c.itens)
  {
  }

  /** A tab of R$ 30.00 and R$ 10.00 in lines closes at R$ 44.00 with the service charge. */
  lemma CalcularTotalExample()
    ensures CalcularTotal(Comanda(1, 4, Fechada, 0, true,
      [ComandaItem(1, 7, 2, 1500, 3000, ""), ComandaItem(2, 9, 1, 1000, 1000, "")])) == 44000
  {
    var itens := [ComandaItem(1, 7, 2, 1500, 3000, ""), ComandaItem(2, 9, 1, 1000, 1000, "")];
    assert itens[..1] == [itens[0]];
    assert itens[..1][..0] == [];
    assert Base(itens[..1]) == 3000;
    assert Base(itens) == 4000;
  }

  lemma {:induction false} BaseConcat(a: seq<ComandaItem>, b: seq<ComandaItem>)
    ensures Base(a + b) == Base(a) + Base(b)
    decreases |b|
  {
    if |b| == 0 {
      assert a + b == a;
    } else {
      var n := |b| - 1;
      assert (a + b)[..|a + b| - 1] == a + b[..n];
      BaseConcat(a, b[..n]);
    }
  }

  /** Replacing one line changes the sum by the difference of the two subtotals. */
  lemma BaseUpdate(s: seq<ComandaItem>, i: nat, x: ComandaItem)
    requires i < |s|
    ensures Base(s[i := x]) == Base(s) - s[i].subtotal + x.subtotal
  {
    assert s == s[..i] + [s[i]] + s[i + 1..];
    assert s[i := x] == s[..i] + [x] + s[i + 1..];
    BaseConcat(s[..i] + [s[i]], s[i + 1..]);
    BaseConcat(s[..i] + [x], s[i + 1..]);
    BaseConcat(s[..i], [s[i]]);
    BaseConcat(s[..i], [x]);
    assert [x][..0] == [] && [s[i]][..0] == [];
  }

  /** Dropping one line lowers the sum by its subtotal. */
  lemma BaseRemove(s: seq<ComandaItem>, i: nat)
    requires i < |s|
    ensures Base(s[..i] + s[i + 1..]) == Base(s) - s[i].subtotal
  {
    var front := s[..i + 1];
    assert front[..i] == s[..i];
    assert Base(front) == Base(s[..i]) + s[i].subtotal;
    assert s == front + s[i + 1..];
    BaseConcat(front, s[i + 1..]);
    BaseConcat(s[..i], s[i + 1..]);
  }

  /** `BarComandaItem.save`, first half: the subtotal is recomputed as quantity times
      unit price, and nothing else about the line changes. */
  function SaveLine(l: ComandaItem): (r: ComandaItem)
    ensures r.subtotal == r.quantidade * r.precoUnitario
    ensures r.(subtotal := l.subtotal) == l
  {
    l.(subtotal := l.quantidade * l.precoUnitario)
  }

  /** `comanda.total = comanda.calcular_total()`: the stored total is reset from the
      lines; nothing else about the tab changes. */
  function Refresh(c: Comanda): (r: Comanda)
    ensures r.total == CalcularTotal(r)
    ensures r.(total := c.total) == c
  {
    c.(total := CalcularTotal(c))
  }

  /** Saving line `i` of a tab with new contents `l` (`BarComandaItem.save`): the line's
      subtotal is recomputed and then the tab's total. */
  function SaveItemAt(c: Comanda, i: nat, l: ComandaItem): (r: Comanda)
    requires i < |c.itens|
    ensures r.itens == c.itens[i := SaveLine(l)]
    ensures r.total == CalcularTotal(r)
    ensures Base(r.itens) == Base(c.itens) - c.itens[i].subtotal + l.quantidade * l.precoUnitario
    ensures r.(total := c.total, itens := c.itens) == c
  {
    BaseUpdate(c.itens, i, SaveLine(l));
    Refresh(c.(itens := c.itens[i := SaveLine(l)]))
  }

  /** Creating line `l` on a tab (`BarComandaItem.save` of a new line). */
  function SaveNewItem(c: Comanda, l: ComandaItem): (r: Comanda)
    ensures r.itens == c.itens + [SaveLine(l)]
    ensures r.total == CalcularTotal(r)
    ensures Base(r.itens) == Base(c.itens) + l.quantidade * l.precoUnitario
    ensures r.(total := c.total, itens := c.itens) == c
  {
    assert (c.itens + [SaveLine(l)])[..|c.itens|] == c.itens;
    Refresh(c.(itens := c.itens + [SaveLine(l)]))
  }

  /** Deleting line `i` and then resetting the total from the remaining lines. */
  function RemoveLine(c: Comanda, i: nat): (r: Comanda)
    requires i < |c.itens|
    ensures r.itens == c.itens[..i] + c.itens[i + 1..]
    ensures r.total == CalcularTotal(r)
    ensures Base(r.itens) == Base(c.itens) - c.itens[i].subtotal
    ensures r.(total := c.total, itens := c.itens) == c
  {
    BaseRemove(c.itens, i);
    Refresh(c.(itens := c.itens[..i] + c.itens[i + 1..]))
  }

  /** The positions of the tab's lines satisfying `p`, in order. */
  function LinesWhere(itens: seq<ComandaItem>, p: ComandaItem -> bool): (r: seq<nat>)
    ensures forall i | 0 <= i < |r| :: r[i] < |itens| && p(itens[r[i]])
    ensures forall i | 0 <= i < |itens| && p(itens[i]) :: i in r
    ensures forall a, b | 0 <= a < b < |r| :: r[a] < r[b]
    decreases |itens|
  {
    if |itens| == 0 then []
    else
      var n := |itens| - 1;
      LinesWhere(itens[..n], p) + (if p(itens[n]) then [n] else [])
  }

  lemma {:induction false} LinesWhereNone(itens: seq<ComandaItem>, p: ComandaItem -> bool)
    requires forall i | 0 <= i < |itens| :: !p(itens[i])
    ensures LinesWhere(itens, p) == []
    decreases |itens|
  {
    if |itens| > 0 {
      LinesWhereNone(itens[..|itens| - 1], p);
    }
  }

  /** When no two lines satisfy `p`, at most one position is found. */
  lemma {:induction false} LinesWhereAtMostOne(itens: seq<ComandaItem>, p: ComandaItem -> bool)
    requires forall a, b | 0 <= a < b < |itens| :: !(p(itens[a]) && p(itens[b]))
    ensures |LinesWhere(itens, p)| <= 1
    decreases |itens|
  {
    if |itens| > 0 {
      var n := |itens| - 1;
      if p(itens[n]) {
        LinesWhereNone(itens[..n], p);
      } else {
        LinesWhereAtMostOne(itens[..n], p);
      }
    }
  }

  /** Only which lines match matters. */
  lemma {:induction false} LinesWhereSame(s: seq<ComandaItem>, t: seq<ComandaItem>, p: ComandaItem -> bool)
    requires |s| == |t| && forall i | 0 <= i < |s| :: p(s[i]) == p(t[i])
    ensures LinesWhere(s, p) == LinesWhere(t, p)
    decreases |s|
  {
    if |s| > 0 {
      LinesWhereSame(s[..|s| - 1], t[..|t| - 1], p);
    }
  }

  lemma LinesWhereAppend(s: seq<ComandaItem>, x: ComandaItem, p: ComandaItem -> bool)
    ensures LinesWhere(s + [x], p) == LinesWhere(s, p) + (if p(x) then [|s|] else [])
  {
    assert (s + [x])[..|s|] == s;
  }

  function ForItem(k: nat): ComandaItem -> bool {
    (l: ComandaItem) => l.item == k
  }

  function WithId(n: nat): ComandaItem -> bool {
    (l: ComandaItem) => l.id == n
  }

  /** The tab's line for menu item `k`, if any. */
  function LineOf(itens: seq<ComandaItem>, k: nat): (r: Option<ComandaItem>)
    ensures r.Some? ==> r.value in itens && r.value.item == k
    ensures r.None? ==> forall i | 0 <= i < |itens| :: itens[i].item != k
  {
    var ps := LinesWhere(itens, ForItem(k));
    if |ps| == 0 then None else Some(itens[ps[0]])
  }

  /** A line's subtotal is quantity times unit price. */
  predicate LineSaved(l: ComandaItem) {
    l.subtotal == l.quantidade * l.precoUnitario
  }

  /** The invariant of a tab: its total is `calcular_total()`, every line was saved, line
      ids are below the next key and distinct, and no menu item has two lines. */
  predicate ComandaValid(c: Comanda, nextItem: nat) {
    && c.total == CalcularTotal(c)
    && (forall i | 0 <= i < |c.itens| :: LineSaved(c.itens[i]) && c.itens[i].id < nextItem)
    && (forall a, b | 0 <= a < b < |c.itens| ::
          c.itens[a].id != c.itens[b].id && c.itens[a].item != c.itens[b].item)
  }

  function OpenAt(tenant: nat, mesa: nat): Comanda -> bool {
    (c: Comanda) => c.tenant == tenant && c.mesa == mesa && c.status == Aberta
  }

  /** At most one open tab per table of a tenant. */
  ghost predicate OneOpenPerTable(comandas: Table<Comanda>) {
    forall a: nat, b: nat | Has(comandas, a) && Has(comandas, b) && comandas[a].value.status == Aberta
                            && comandas[b].value.status == Aberta
                            && comandas[a].value.tenant == comandas[b].value.tenant
                            && comandas[a].value.mesa == comandas[b].value.mesa :: a == b
  }

  ghost predicate Valid(db: BarDb) {
    && (forall k: nat | Has(db.comandas, k) :: ComandaValid(db.comandas[k].value, db.nextItem))
    && OneOpenPerTable(db.comandas)
  }

  /** A new tab: open, without lines, total zero and no service charge. */
  function NewComanda(tenant: nat, mesa: nat): (c: Comanda)
    ensures c.status == DefaultComandaStatus && c.total == 0 && !c.gorjeta10 && c.itens == []
    ensures c.tenant == tenant && c.mesa == mesa
    ensures forall next: nat :: ComandaValid(c, next)
  {
    Comanda(tenant, mesa, DefaultComandaStatus, 0, false, [])
  }

  datatype Opened = Opened(db: BarDb, id: nat) | TooManyOpen

  /** `get_or_create` of the open tab of a table: the existing one, or a new one; a
      `get` that finds several raises. */
  function OpenComanda(db: BarDb, tenant: nat, mesa: nat): (r: Opened)
    ensures r.Opened? ==> Matches(r.db.comandas, r.id, OpenAt(tenant, mesa))
    ensures (forall k: nat | k < |db.comandas| :: !Matches(db.comandas, k, OpenAt(tenant, mesa))) ==>
      r == Opened(db.(comandas := Insert(db.comandas, NewComanda(tenant, mesa))), |db.comandas|)
    ensures (exists k: nat :: Matches(db.comandas, k, OpenAt(tenant, mesa))) ==>
      r.TooManyOpen? || (r.db == db && Matches(db.comandas, r.id, OpenAt(tenant, mesa)))
  {
    var ids := Where(db.comandas, OpenAt(tenant, mesa));
    if |ids| == 0 then Opened(db.(comandas := Insert(db.comandas, NewComanda(tenant, mesa))), |db.comandas|)
    else
      assert Matches(db.comandas, ids[0], OpenAt(tenant, mesa));
      if |ids| == 1 then Opened(db, ids[0]) else TooManyOpen
  }

  /** Under the invariant the table's tab is found or created, and the invariant holds
      afterwards. */
  lemma OpenComandaKeepsValid(db: BarDb, tenant: nat, mesa: nat)
    requires Valid(db)
    ensures OpenComanda(db, tenant, mesa).Opened?
    ensures Valid(OpenComanda(db, tenant, mesa).db)
    ensures OpenComanda(db, tenant, mesa).db.nextItem == db.nextItem
  {
    var p := OpenAt(tenant, mesa);
    WhereAtMostOne(db.comandas, p);
    var ids := Where(db.comandas, p);
    if |ids| == 0 {
      var d := OpenComanda(db, tenant, mesa).db;
      var n := |db.comandas|;
      assert forall k: nat | k < n :: !Matches(db.comandas, k, p);
      assert forall k: nat | k < n :: d.comandas[k] == db.comandas[k];
      assert d.comandas[n] == Some(NewComanda(tenant, mesa));
      assert OneOpenPerTable(d.comandas);
    }
  }

  /** The request on a tab's page: showing it, or a posted action with its fields. */
  datatype ComandaRequest =
    | ShowComanda
    | Action(action: Option<string>, itemId: Option<string>, quantidade: FormInt, observacao: Option<string>)

  datatype ComandaReply = ToDashboard | ComandaPage(id: nat) | BackToComanda(id: nat) | ComandaError

  /** A posted primary key: missing (a lookup with it finds nothing), not a number (the
      lookup raises), or a number. */
  datatype IdField = NoId | BadId | IdOf(n: nat)

  function ParseIdField(v: Option<string>): (r: IdField)
    ensures r.NoId? <==> v.None?
    ensures r.IdOf? <==> v.Some? && ParseNat(v.value).Some?
    ensures r.IdOf? ==> ParseNat(v.value) == Some(r.n)
  {
    match v
    case None => NoId
    case Some(text) =>
      match ParseNat(text)
      case Some(n) => IdOf(n)
      case None => BadId
  }

  /** `int(request.POST.get('quantidade', 1))`: `None` where `int` raises. */
  function QuantidadeOf(q: FormInt): (r: Option<int>)
    ensures r.None? <==> q.Garbage?
  {
    match q
    case Absent => Some(1)
    case Int(n) => Some(n)
    case Garbage => None
  }

  predicate SameTab(a: Comanda, b: Comanda) {
    a.tenant == b.tenant && a.mesa == b.mesa && a.status == b.status && a.gorjeta10 == b.gorjeta10
  }

  /** `d` differs from `db` at most in the lines and total of tab `cid` and in the next
      line key. */
  predicate OnlyTab(db: BarDb, d: BarDb, cid: nat) {
    && d.categories == db.categories && d.menu == db.menu && d.nextItem >= db.nextItem
    && |d.comandas| == |db.comandas|
    && (forall k | 0 <= k < |db.comandas| && k != cid :: d.comandas[k] == db.comandas[k])
    && (Has(db.comandas, cid) ==> Has(d.comandas, cid) && SameTab(db.comandas[cid].value, d.comandas[cid].value))
  }

  lemma ValidFrame(db: BarDb, d: BarDb, cid: nat)
    requires Valid(db) && OnlyTab(db, d, cid) && Has(db.comandas, cid)
    requires ComandaValid(d.comandas[cid].value, d.nextItem)
    ensures Valid(d)
  {
    forall k: nat | Has(d.comandas, k) ensures ComandaValid(d.comandas[k].value, d.nextItem) {
      if k != cid {
        assert ComandaValid(db.comandas[k].value, db.nextItem);
      }
    }
  }

  /** Adding `qty` of menu item `k` to a tab (`get_or_create` of the line, then
      `BarComandaItem.save`): a new line gets key `newId`, the given current `price` and
      the observation; an existing line gets `qty` more, keeps its unit price and takes
      the new observation. `None` where the database refuses: a quantity that would end
      below zero, or several lines for the item. */
  function AddToTab(c: Comanda, k: nat, qty: int, price: int, obs: string, newId: nat): (r: Option<Comanda>)
    ensures r.Some? ==> SameTab(c, r.value)
  {
    var ps := LinesWhere(c.itens, ForItem(k));
    if |ps| == 0 then
      if qty < 0 then None else Some(SaveNewItem(c, ComandaItem(newId, k, qty, price, 0, obs)))
    else if |ps| == 1 then
      var before := c.itens[ps[0]];
      if before.quantidade + qty < 0 then None
      else Some(SaveItemAt(c, ps[0], before.(quantidade := before.quantidade + qty, observacao := obs)))
    else None
  }

  /** The lines of a valid tab with one more line whose key is fresh and whose menu item
      has no line yet. */
  lemma LinesAppendValid(s: seq<ComandaItem>, x: ComandaItem, next: nat)
    requires forall i | 0 <= i < |s| :: LineSaved(s[i]) && s[i].id < next
    requires forall a, b | 0 <= a < b < |s| :: s[a].id != s[b].id && s[a].item != s[b].item
    requires forall i | 0 <= i < |s| :: s[i].item != x.item
    requires LineSaved(x) && x.id == next
    ensures var t := s + [x];
      && (forall i | 0 <= i < |t| :: LineSaved(t[i]) && t[i].id < next + 1)
      && (forall a, b | 0 <= a < b < |t| :: t[a].id != t[b].id && t[a].item != t[b].item)
  {
  }

  /** The lines of a valid tab with one line replaced by a saved line of the same key and
      menu item. */
  lemma LinesReplaceValid(s: seq<ComandaItem>, i: nat, x: ComandaItem, next: nat)
    requires i < |s|
    requires forall j | 0 <= j < |s| :: LineSaved(s[j]) && s[j].id < next
    requires forall a, b | 0 <= a < b < |s| :: s[a].id != s[b].id && s[a].item != s[b].item
    requires LineSaved(x) && x.id == s[i].id && x.item == s[i].item
    ensures var t := s[i := x];
      && (forall j | 0 <= j < |t| :: LineSaved(t[j]) && t[j].id < next)
      && (forall a, b | 0 <= a < b < |t| :: t[a].id != t[b].id && t[a].item != t[b].item)
  {
  }

  lemma Distribute(a: int, b: int, p: int)
    ensures (a + b) * p == a * p + b * p
  {
  }

  lemma AddToTabKeepsValid(c: Comanda, k: nat, qty: int, price: int, obs: string, next: nat)
    requires ComandaValid(c, next)
    ensures AddToTab(c, k, qty, price, obs, next).Some? ==> ComandaValid(AddToTab(c, k, qty, price, obs, next).value, next + 1)
  {
    var ps := LinesWhere(c.itens, ForItem(k));
    LinesWhereAtMostOne(c.itens, ForItem(k));
    if |ps| == 0 {
      if qty >= 0 {
        AddNewKeepsValid(c, k, qty, price, obs, next);
      }
    } else if AddToTab(c, k, qty, price, obs, next).Some? {
      AddExistingKeepsValid(c, k, qty, price, obs, next);
    }
  }

  /** A new line with a fresh key for a menu item without a line keeps a tab valid. */
  lemma SaveNewItemKeepsValid(c: Comanda, l: ComandaItem, next: nat)
    requires ComandaValid(c, next)
    requires l.id == next && forall i | 0 <= i < |c.itens| :: c.itens[i].item != l.item
    ensures ComandaValid(SaveNewItem(c, l), next + 1)
  {
    LinesAppendValid(c.itens, SaveLine(l), next);
  }

  /** Saving a line under its own key and menu item keeps a tab valid. */
  lemma SaveItemAtKeepsValid(c: Comanda, i: nat, l: ComandaItem, next: nat)
    requires ComandaValid(c, next) && i < |c.itens|
    requires l.id == c.itens[i].id && l.item == c.itens[i].item
    ensures ComandaValid(SaveItemAt(c, i, l), next)
  {
    LinesReplaceValid(c.itens, i, SaveLine(l), next);
  }

  lemma AddNewKeepsValid(c: Comanda, k: nat, qty: int, price: int, obs: string, next: nat)
    requires ComandaValid(c, next)
    requires LinesWhere(c.itens, ForItem(k)) == [] && qty >= 0
    ensures ComandaValid(AddToTab(c, k, qty, price, obs, next).value, next + 1)
  {
    SaveNewItemKeepsValid(c, ComandaItem(next, k, qty, price, 0, obs), next);
  }

  lemma AddExistingKeepsValid(c: Comanda, k: nat, qty: int, price: int, obs: string, next: nat)
    requires ComandaValid(c, next)
    requires |LinesWhere(c.itens, ForItem(k))| == 1
    requires AddToTab(c, k, qty, price, obs, next).Some?
    ensures ComandaValid(AddToTab(c, k, qty, price, obs, next).value, next + 1)
  {
    var i := LinesWhere(c.itens, ForItem(k))[0];
    var before := c.itens[i];
    SaveItemAtKeepsValid(c, i, before.(quantidade := before.quantidade + qty, observacao := obs), next);
    assert forall j | 0 <= j < |c.itens| :: c.itens[j].id < next + 1;
  }

  /** Adding to a tab that has no line for the item: refused exactly for a negative
      quantity; otherwise the item gets a line with the fresh key, the quantity, the
      current price and the observation, every other item's line is as it was, and the
      sum grows by quantity times price. */
  lemma AddToTabNewLine(c: Comanda, k: nat, qty: int, price: int, obs: string, next: nat)
    requires ComandaValid(c, next)
    requires LineOf(c.itens, k).None?
    ensures AddToTab(c, k, qty, price, obs, next).None? <==> qty < 0
    ensures qty >= 0 ==>
      && LineOf(AddToTab(c, k, qty, price, obs, next).value.itens, k) == Some(ComandaItem(next, k, qty, price, qty * price, obs))
      && (forall m: nat | m != k :: LineOf(AddToTab(c, k, qty, price, obs, next).value.itens, m) == LineOf(c.itens, m))
      && AddToTab(c, k, qty, price, obs, next).value.total == CalcularTotal(AddToTab(c, k, qty, price, obs, next).value)
      && Base(AddToTab(c, k, qty, price, obs, next).value.itens) == Base(c.itens) + qty * price
  {
    assert LinesWhere(c.itens, ForItem(k)) == [];
    if qty >= 0 {
      AddNewLineEffect(c, k, qty, price, obs, next);
    }
  }

  /** Adding to a tab whose line for the item is `before`: refused exactly when the
      quantity would end below zero; otherwise that line keeps its key and unit price
      and gets the summed quantity and the new observation, every other item's line is
      as it was, and the sum grows by the added quantity times the line's unit price. */
  lemma AddToTabExistingLine(c: Comanda, k: nat, qty: int, price: int, obs: string, next: nat, before: ComandaItem)
    requires ComandaValid(c, next)
    requires LineOf(c.itens, k) == Some(before)
    ensures AddToTab(c, k, qty, price, obs, next).None? <==> before.quantidade + qty < 0
    ensures before.quantidade + qty >= 0 ==>
      var d := AddToTab(c, k, qty, price, obs, next).value;
      && LineOf(d.itens, k)
         == Some(ComandaItem(before.id, k, before.quantidade + qty, before.precoUnitario,
                             (before.quantidade + qty) * before.precoUnitario, obs))
      && (forall m: nat | m != k :: LineOf(d.itens, m) == LineOf(c.itens, m))
      && d.total == CalcularTotal(d)
      && Base(d.itens) == Base(c.itens) + qty * before.precoUnitario
  {
    LinesWhereAtMostOne(c.itens, ForItem(k));
    var ps := LinesWhere(c.itens, ForItem(k));
    var i := ps[0];
    assert |ps| == 1 && c.itens[i] == before;
    assert LineSaved(before);
    var q := before.quantidade + qty;
    if q >= 0 {
      var after := before.(quantidade := q, observacao := obs);
      var c2 := SaveItemAt(c, i, after);
      assert AddToTab(c, k, qty, price, obs, next) == Some(c2);
      SaveItemAtLines(c, i, after, k);
      assert c2.itens[i] == SaveLine(after) == ComandaItem(before.id, k, q, before.precoUnitario, q * before.precoUnitario, obs);
      forall m: nat | m != k ensures LineOf(c2.itens, m) == LineOf(c.itens, m) {
        SaveItemAtOtherLine(c, i, after, m);
      }
      Distribute(before.quantidade, qty, before.precoUnitario);
    } else {
      assert AddToTab(c, k, qty, price, obs, next).None?;
    }
  }

  lemma AddNewLineEffect(c: Comanda, k: nat, qty: int, price: int, obs: string, next: nat)
    requires LinesWhere(c.itens, ForItem(k)) == [] && qty >= 0
    ensures var c2 := AddToTab(c, k, qty, price, obs, next).value;
      && LineOf(c2.itens, k) == Some(ComandaItem(next, k, qty, price, qty * price, obs))
      && forall m: nat | m != k :: LineOf(c2.itens, m) == LineOf(c.itens, m)
  {
    var c2 := AddToTab(c, k, qty, price, obs, next).value;
    var x := c2.itens[|c.itens|];
    assert c2.itens == c.itens + [x];
    forall m: nat | m != k ensures LineOf(c2.itens, m) == LineOf(c.itens, m) {
      LinesWhereAppend(c.itens, x, ForItem(m));
    }
    LinesWhereAppend(c.itens, x, ForItem(k));
  }

  /** Saving a line in place, under the same menu item, leaves every item's line at the
      same position. */
  lemma SaveItemAtLines(c: Comanda, i: nat, l: ComandaItem, m: nat)
    requires i < |c.itens| && l.item == c.itens[i].item
    ensures LinesWhere(SaveItemAt(c, i, l).itens, ForItem(m)) == LinesWhere(c.itens, ForItem(m))
  {
    var t := SaveItemAt(c, i, l).itens;
    assert forall j | 0 <= j < |t| :: ForItem(m)(t[j]) == ForItem(m)(c.itens[j]);
    LinesWhereSame(t, c.itens, ForItem(m));
  }

  /** ... so every other item's line is as it was. */
  lemma SaveItemAtOtherLine(c: Comanda, i: nat, l: ComandaItem, m: nat)
    requires i < |c.itens| && l.item == c.itens[i].item && m != l.item
    ensures LineOf(SaveItemAt(c, i, l).itens, m) == LineOf(c.itens, m)
  {
    var t := SaveItemAt(c, i, l).itens;
    SaveItemAtLines(c, i, l, m);
    var ps := LinesWhere(c.itens, ForItem(m));
    if |ps| > 0 {
      assert c.itens[ps[0]].item == m;
      assert t[ps[0]] == c.itens[ps[0]];
    }
  }


  /** `add_item`: the posted menu item of this tenant is added to tab `cid` with quantity
      `qty` at its current price. A missing key or an item of no such tenant changes
      nothing; a key that is not a number, or a refused quantity, makes the request
      fail. `nextItem` advances on every accepted add, also when an existing line is
      updated, where the database would keep its sequence; keys only need to be fresh. */
  function AddItem(db: BarDb, cid: nat, tenant: nat, itemId: IdField, qty: int, obs: string): (r: (BarDb, ComandaReply))
    requires Has(db.comandas, cid)
    ensures OnlyTab(db, r.0, cid)
    ensures r.1 == BackToComanda(cid) || (r.1 == ComandaError && r.0 == db)
    ensures !(itemId.IdOf? && Has(db.menu, itemId.n) && db.menu[itemId.n].value.tenant == tenant) ==>
      r.0 == db && (r.1 == ComandaError <==> itemId.BadId?)
    ensures itemId.IdOf? && Has(db.menu, itemId.n) && db.menu[itemId.n].value.tenant == tenant ==>
      var added := AddToTab(db.comandas[cid].value, itemId.n, qty, db.menu[itemId.n].value.price, obs, db.nextItem);
      && (r.1 == ComandaError <==> added.None?)
      && (added.Some? ==> r.0.comandas[cid] == added)
  {
    match itemId
    case NoId => (db, BackToComanda(cid))
    case BadId => (db, ComandaError)
    case IdOf(k) =>
      if !(Has(db.menu, k) && db.menu[k].value.tenant == tenant) then (db, BackToComanda(cid))
      else
        var c := db.comandas[cid].value;
        match AddToTab(c, k, qty, db.menu[k].value.price, obs, db.nextItem)
        case None => (db, ComandaError)
        case Some(c2) => (db.(comandas := Put(db.comandas, cid, c2), nextItem := db.nextItem + 1), BackToComanda(cid))
  }

  lemma AddItemKeepsValid(db: BarDb, cid: nat, tenant: nat, itemId: IdField, qty: int, obs: string)
    requires Has(db.comandas, cid) && ComandaValid(db.comandas[cid].value, db.nextItem)
    ensures ComandaValid(AddItem(db, cid, tenant, itemId, qty, obs).0.comandas[cid].value,
                         AddItem(db, cid, tenant, itemId, qty, obs).0.nextItem)
  {
    if itemId.IdOf? && Has(db.menu, itemId.n) && db.menu[itemId.n].value.tenant == tenant {
      AddToTabKeepsValid(db.comandas[cid].value, itemId.n, qty, db.menu[itemId.n].value.price, obs, db.nextItem);
    }
  }

  /** Deleting the tab's line with key `n`, if it has one, then resetting the total. */
  function RemoveFromTab(c: Comanda, n: nat): (r: Comanda)
    ensures SameTab(c, r)
    ensures (forall i | 0 <= i < |c.itens| :: c.itens[i].id != n) ==> r == c
  {
    var ps := LinesWhere(c.itens, WithId(n));
    if |ps| == 0 then c else RemoveLine(c, ps[0])
  }

  /** Removing the line with key `n` leaves exactly the other lines, lowers the sum by its
      subtotal and resets the total. */
  lemma RemoveFromTabEffect(c: Comanda, n: nat, next: nat)
    requires ComandaValid(c, next)
    ensures var c2 := RemoveFromTab(c, n);
      && (forall l :: l in c2.itens <==> l in c.itens && l.id != n)
      && (forall i | 0 <= i < |c.itens| && c.itens[i].id == n :: Base(c2.itens) == Base(c.itens) - c.itens[i].subtotal)
      && c2.total == CalcularTotal(c2)
  {
    var ps := LinesWhere(c.itens, WithId(n));
    if |ps| > 0 {
      var i := ps[0];
      var c2 := RemoveFromTab(c, n);
      CutLines(c.itens, i);
      assert forall j | 0 <= j < |c.itens| && c.itens[j].id == n :: j == i;
    }
  }

  /** The lines left after cutting out line `i`, when line keys are distinct. */
  lemma CutLines(s: seq<ComandaItem>, i: nat)
    requires i < |s|
    requires forall a, b | 0 <= a < b < |s| :: s[a].id != s[b].id
    ensures forall l :: l in s[..i] + s[i + 1..] <==> l in s && l.id != s[i].id
  {
    var t := s[..i] + s[i + 1..];
    forall l ensures l in t <==> l in s && l.id != s[i].id {
      if l in t {
        var j :| 0 <= j < |t| && t[j] == l;
        if j < i { assert l == s[j]; } else { assert l == s[j + 1]; }
      }
      if l in s && l.id != s[i].id {
        var j :| 0 <= j < |s| && s[j] == l;
        if j < i { assert t[j] == l; } else { assert t[j - 1] == l; }
      }
    }
  }

  lemma RemoveFromTabKeepsValid(c: Comanda, n: nat, next: nat)
    requires ComandaValid(c, next)
    ensures ComandaValid(RemoveFromTab(c, n), next)
  {
    var ps := LinesWhere(c.itens, WithId(n));
    if |ps| > 0 {
      LinesRemoveValid(c.itens, ps[0], next);
    }
  }

  /** The lines of a valid tab with one line dropped. */
  lemma LinesRemoveValid(s: seq<ComandaItem>, i: nat, next: nat)
    requires i < |s|
    requires forall j | 0 <= j < |s| :: LineSaved(s[j]) && s[j].id < next
    requires forall a, b | 0 <= a < b < |s| :: s[a].id != s[b].id && s[a].item != s[b].item
    ensures var t := s[..i] + s[i + 1..];
      && (forall j | 0 <= j < |t| :: LineSaved(t[j]) && t[j].id < next)
      && (forall a, b | 0 <= a < b < |t| :: t[a].id != t[b].id && t[a].item != t[b].item)
  {
    var t := s[..i] + s[i + 1..];
    assert forall j | 0 <= j < |t| :: t[j] == s[if j < i then j else j + 1];
  }

  /** `remove_item`: the tab's line with the posted key is deleted and the total reset; a
      missing key changes nothing; a key that is not a number makes the request fail. */
  function RemoveItem(db: BarDb, cid: nat, itemId: IdField): (r: (BarDb, ComandaReply))
    requires Has(db.comandas, cid)
    ensures OnlyTab(db, r.0, cid) && r.0.nextItem == db.nextItem
    ensures r.1 == ComandaError <==> itemId.BadId?
    ensures r.1 != ComandaError ==> r.1 == BackToComanda(cid)
    ensures !itemId.IdOf? ==> r.0 == db
    ensures itemId.IdOf? ==> r.0.comandas[cid] == Some(RemoveFromTab(db.comandas[cid].value, itemId.n))
  {
    match itemId
    case NoId => (db, BackToComanda(cid))
    case BadId => (db, ComandaError)
    case IdOf(n) => (db.(comandas := Put(db.comandas, cid, RemoveFromTab(db.comandas[cid].value, n))), BackToComanda(cid))
  }

  /** Setting the quantity of the tab's line with key `n` and saving it. */
  function UpdateInTab(c: Comanda, n: nat, qty: nat): (r: Comanda)
    ensures SameTab(c, r)
  {
    var ps := LinesWhere(c.itens, WithId(n));
    if |ps| == 0 then c else SaveItemAt(c, ps[0], c.itens[ps[0]].(quantidade := qty))
  }

  /** Exactly the line with key `n` changes: its quantity becomes `qty` and its subtotal
      `qty` times its unit price; every other line stays and the total is reset. */
  lemma UpdateInTabEffect(c: Comanda, n: nat, qty: nat, next: nat)
    requires ComandaValid(c, next)
    ensures var c2 := UpdateInTab(c, n, qty);
      && |c2.itens| == |c.itens|
      && (forall j | 0 <= j < |c.itens| :: c2.itens[j] ==
            if c.itens[j].id == n then c.itens[j].(quantidade := qty, subtotal := qty * c.itens[j].precoUnitario)
            else c.itens[j])
      && c2.total == CalcularTotal(c2)
  {
    var ps := LinesWhere(c.itens, WithId(n));
    if |ps| > 0 {
      assert forall j | 0 <= j < |c.itens| && c.itens[j].id == n :: j == ps[0];
    }
  }

  lemma UpdateInTabKeepsValid(c: Comanda, n: nat, qty: nat, next: nat)
    requires ComandaValid(c, next)
    ensures ComandaValid(UpdateInTab(c, n, qty), next)
  {
    UpdateInTabEffect(c, n, qty, next);
  }

  /** `update_quantidade`: a quantity of zero or less removes the line as `remove_item`
      does; a positive one replaces the line's quantity. */
  function UpdateQuantidade(db: BarDb, cid: nat, itemId: IdField, qty: int): (r: (BarDb, ComandaReply))
    requires Has(db.comandas, cid)
    ensures OnlyTab(db, r.0, cid) && r.0.nextItem == db.nextItem
    ensures r.1 == ComandaError <==> itemId.BadId?
    ensures r.1 != ComandaError ==> r.1 == BackToComanda(cid)
    ensures qty <= 0 ==> r == RemoveItem(db, cid, itemId)
    ensures !itemId.IdOf? ==> r.0 == db
    ensures qty > 0 && itemId.IdOf? ==> r.0.comandas[cid] == Some(UpdateInTab(db.comandas[cid].value, itemId.n, qty))
  {
    if qty <= 0 then RemoveItem(db, cid, itemId)
    else
      match itemId
      case NoId => (db, BackToComanda(cid))
      case BadId => (db, ComandaError)
      case IdOf(n) => (db.(comandas := Put(db.comandas, cid, UpdateInTab(db.comandas[cid].value, n, qty))), BackToComanda(cid))
  }

  /** Every tab that is not open is left exactly as it was, so no action reopens one. */
  predicate ClosedUntouched(db: BarDb, d: BarDb) {
    && |d.comandas| >= |db.comandas|
    && forall k | 0 <= k < |db.comandas| && db.comandas[k].Some? && db.comandas[k].value.status != Aberta ::
         d.comandas[k] == db.comandas[k]
  }

  /** `comanda_view`: the tenant is the logged-in user's, row `tenantId` of the tenant
      table. When its bar is closed nothing happens; otherwise the table's tab is found or
      created, then the posted action is applied to it. */
  function ComandaView(db: BarDb, tenants: Table<ShopModels.Tenant>, tenantId: nat, mesa: nat, req: ComandaRequest): (r: (BarDb, ComandaReply))
    requires Has(tenants, tenantId)
    ensures !tenants[tenantId].value.isOpen ==> r == (db, ToDashboard)
    ensures ClosedUntouched(db, r.0)
    ensures r.0.menu == db.menu && r.0.categories == db.categories
  {
    if !tenants[tenantId].value.isOpen then (db, ToDashboard)
    else TabAction(db, tenantId, mesa, req)
  }

  /** The open bar's part of `comanda_view`: the table's tab is found or created, then
      the posted action is applied to it. */
  function TabAction(db: BarDb, tenantId: nat, mesa: nat, req: ComandaRequest): (r: (BarDb, ComandaReply))
    ensures ClosedUntouched(db, r.0)
    ensures r.0.menu == db.menu && r.0.categories == db.categories
  {
    match OpenComanda(db, tenantId, mesa)
    case TooManyOpen => (db, ComandaError)
    case Opened(d, cid) =>
      match req
      case ShowComanda => (d, ComandaPage(cid))
      case Action(action, itemId, q, obs) =>
        if action == Some("add_item") then
          match QuantidadeOf(q)
          case None => (d, ComandaError)
          case Some(n) => AddItem(d, cid, tenantId, ParseIdField(itemId), n, obs.GetOr(""))
        else if action == Some("remove_item") then RemoveItem(d, cid, ParseIdField(itemId))
        else if action == Some("update_quantidade") then
          match QuantidadeOf(q)
          case None => (d, ComandaError)
          case Some(n) => UpdateQuantidade(d, cid, ParseIdField(itemId), n)
        else (d, BackToComanda(cid))
  }

  /** Every action on a tab keeps the invariant: totals equal `calcular_total()`, lines
      saved, one line per menu item, one open tab per table. */
  lemma ComandaViewKeepsValid(db: BarDb, tenants: Table<ShopModels.Tenant>, tenantId: nat, mesa: nat, req: ComandaRequest)
    requires Valid(db) && Has(tenants, tenantId)
    ensures Valid(ComandaView(db, tenants, tenantId, mesa, req).0)
  {
    if tenants[tenantId].value.isOpen {
      TabActionKeepsValid(db, tenantId, mesa, req);
    }
  }

  /** The same invariant for the open bar's action, case by case. */
  lemma TabActionKeepsValid(db: BarDb, tenantId: nat, mesa: nat, req: ComandaRequest)
    requires Valid(db)
    ensures Valid(TabAction(db, tenantId, mesa, req).0)
  {
    OpenComandaKeepsValid(db, tenantId, mesa);
    var o := OpenComanda(db, tenantId, mesa);
    var d, cid := o.db, o.id;
    assert ComandaValid(d.comandas[cid].value, d.nextItem);
    if req.Action? {
      var id := ParseIdField(req.itemId);
      if req.action == Some("add_item") {
        if QuantidadeOf(req.quantidade).Some? {
          var n := QuantidadeOf(req.quantidade).value;
          AddItemKeepsValid(d, cid, tenantId, id, n, req.observacao.GetOr(""));
          ValidFrame(d, AddItem(d, cid, tenantId, id, n, req.observacao.GetOr("")).0, cid);
        }
      } else if req.action == Some("remove_item") {
        if id.IdOf? {
          RemoveFromTabKeepsValid(d.comandas[cid].value, id.n, d.nextItem);
        }
        ValidFrame(d, RemoveItem(d, cid, id).0, cid);
      } else if req.action == Some("update_quantidade") {
        if QuantidadeOf(req.quantidade).Some? {
          var n := QuantidadeOf(req.quantidade).value;
          if id.IdOf? {
            if n <= 0 {
              RemoveFromTabKeepsValid(d.comandas[cid].value, id.n, d.nextItem);
            } else {
              UpdateInTabKeepsValid(d.comandas[cid].value, id.n, n, d.nextItem);
            }
          }
          ValidFrame(d, UpdateQuantidade(d, cid, id, n).0, cid);
        }
      }
    }
  }

  /** A tab closed with or without the service charge: the flag is set first, then the
      total is recomputed from the lines, then the status becomes `fechada`. */
  function Closed(c: Comanda, gorjeta: bool): (r: Comanda)
    ensures r.status == Fechada && r.gorjeta10 == gorjeta
    ensures r.tenant == c.tenant && r.mesa == c.mesa && r.itens == c.itens
    ensures r.total == CalcularTotal(r)
  {
    Refresh(c.(gorjeta10 := gorjeta, status := Fechada))
  }

  /** Closing the open tab `k`; every other tab stays as it was. */
  function CloseAt(db: BarDb, k: nat, gorjeta: bool): (d: BarDb)
    requires Has(db.comandas, k) && db.comandas[k].value.status == Aberta
    ensures ClosedUntouched(db, d) && |d.comandas| == |db.comandas|
    ensures d.(comandas := db.comandas) == db
    ensures d.comandas == db.comandas[k := Some(Closed(db.comandas[k].value, gorjeta))]
  {
    db.(comandas := db.comandas[k := Some(Closed(db.comandas[k].value, gorjeta))])
  }

  datatype FecharReply = ToReports | NoOpenTab | FecharError

  /** `fechar_comanda`: the table's open tab is closed, with the service charge when the
      posted `gorjeta_10` is `"on"`. Without an open tab nothing changes. */
  function Fechar(db: BarDb, tenant: nat, mesa: nat, gorjetaField: Option<string>): (r: (BarDb, FecharReply))
    ensures ClosedUntouched(db, r.0) && |r.0.comandas| == |db.comandas|
    ensures r.0.menu == db.menu && r.0.categories == db.categories && r.0.nextItem == db.nextItem
    ensures r.1 != ToReports ==> r.0 == db
    ensures r.1 == NoOpenTab <==> forall k: nat | k < |db.comandas| :: !Matches(db.comandas, k, OpenAt(tenant, mesa))
  {
    var ids := Where(db.comandas, OpenAt(tenant, mesa));
    if |ids| == 0 then (db, NoOpenTab)
    else
      assert Matches(db.comandas, ids[0], OpenAt(tenant, mesa));
      if |ids| == 1 then (CloseAt(db, ids[0], gorjetaField == Some("on")), ToReports)
      else (db, FecharError)
  }

  /** Closing under the invariant: the open tab `k` of the table becomes `fechada` with the
      posted flag and a total of exactly the sum of its lines, times 1.1 with the service
      charge; every other tab is unchanged; the table has no open tab any more; and the
      invariant still holds. */
  lemma FecharEffect(db: BarDb, tenant: nat, mesa: nat, gorjetaField: Option<string>, k: nat)
    requires Valid(db) && Matches(db.comandas, k, OpenAt(tenant, mesa))
    ensures var (d, reply) := Fechar(db, tenant, mesa, gorjetaField);
      var c := db.comandas[k].value;
      var g := gorjetaField == Some("on");
      && reply == ToReports
      && Has(d.comandas, k)
      && d.comandas[k].value == c.(status := Fechada, gorjeta10 := g, total := Base(c.itens) * (if g then 11 else 10))
      && (forall j | 0 <= j < |db.comandas| && j != k :: d.comandas[j] == db.comandas[j])
      && Where(d.comandas, OpenAt(tenant, mesa)) == []
      && Valid(d)
  {
    FecharCloses(db, tenant, mesa, gorjetaField, k);
    CloseAtKeepsValid(db, k, gorjetaField == Some("on"));
  }

  /** Under one open tab per table, closing the table closes tab `k`. */
  lemma FecharCloses(db: BarDb, tenant: nat, mesa: nat, gorjetaField: Option<string>, k: nat)
    requires OneOpenPerTable(db.comandas) && Matches(db.comandas, k, OpenAt(tenant, mesa))
    ensures Fechar(db, tenant, mesa, gorjetaField) == (CloseAt(db, k, gorjetaField == Some("on")), ToReports)
  {
    WhereAtMostOne(db.comandas, OpenAt(tenant, mesa));
  }

  /** Closing an open tab keeps the invariant and leaves its table without an open tab. */
  lemma CloseAtKeepsValid(db: BarDb, k: nat, gorjeta: bool)
    requires Valid(db) && Has(db.comandas, k) && db.comandas[k].value.status == Aberta
    ensures Valid(CloseAt(db, k, gorjeta))
    ensures Where(CloseAt(db, k, gorjeta).comandas, OpenAt(db.comandas[k].value.tenant, db.comandas[k].value.mesa)) == []
  {
    var c := db.comandas[k].value;
    var d := CloseAt(db, k, gorjeta);
    var p := OpenAt(c.tenant, c.mesa);
    assert forall j: nat | j < |d.comandas| :: !Matches(d.comandas, j, p);
    WhereNone(d.comandas, p);
    assert ComandaValid(c, db.nextItem);
  }

  /** Closing is one-way: a second close of the same table finds no open tab and changes
      nothing. */
  lemma FecharTwice(db: BarDb, tenant: nat, mesa: nat, g1: Option<string>, g2: Option<string>, k: nat)
    requires Valid(db) && Matches(db.comandas, k, OpenAt(tenant, mesa))
    ensures var d := Fechar(db, tenant, mesa, g1).0;
      Fechar(d, tenant, mesa, g2) == (d, NoOpenTab)
  {
    FecharEffect(db, tenant, mesa, g1, k);
  }

  datatype ExcluirReply = Excluded(mesa: nat) | MethodNotAllowed | PasswordRequired | WrongPassword | ComandaNotFound

  /** `excluir_comanda`: only a POST with a non-blank, correct password deletes, and only a
      closed tab of this tenant; an open or paid tab is answered as not found.
      `passwordOk` is whether the password checks out for the signed-in user. */
  function Excluir(db: BarDb, tenant: nat, id: nat, isPost: bool, senha: Option<string>, passwordOk: bool): (r: (BarDb, ExcluirReply))
    ensures !isPost ==> r.1 == MethodNotAllowed
    ensures isPost && (senha == None || senha == Some("")) ==> r.1 == PasswordRequired
    ensures isPost && senha.Some? && senha.value != "" && !passwordOk ==> r.1 == WrongPassword
    ensures r.1.Excluded? <==>
      isPost && senha.Some? && senha.value != "" && passwordOk
      && Has(db.comandas, id) && db.comandas[id].value.tenant == tenant && db.comandas[id].value.status == Fechada
    ensures r.1.Excluded? ==>
      r.0 == db.(comandas := Delete(db.comandas, id)) && r.1.mesa == db.comandas[id].value.mesa
    ensures !r.1.Excluded? ==> r.0 == db
  {
    if !isPost then (db, MethodNotAllowed)
    else if senha == None || senha == Some("") then (db, PasswordRequired)
    else if !passwordOk then (db, WrongPassword)
    else if Has(db.comandas, id) && db.comandas[id].value.tenant == tenant && db.comandas[id].value.status == Fechada then
      (db.(comandas := Delete(db.comandas, id)), Excluded(db.comandas[id].value.mesa))
    else (db, ComandaNotFound)
  }

  /** Deleting never touches an open tab, and keeps the invariant. */
  lemma ExcluirKeepsOpenTabs(db: BarDb, tenant: nat, id: nat, isPost: bool, senha: Option<string>, passwordOk: bool)
    requires Valid(db)
    ensures var d := Excluir(db, tenant, id, isPost, senha, passwordOk).0;
      && Valid(d)
      && forall k | 0 <= k < |db.comandas| && db.comandas[k].Some? && db.comandas[k].value.status == Aberta ::
           d.comandas[k] == db.comandas[k]
  {
  }

  /** A row of the table overview. `total` is in tenths of a cent. */
  datatype Mesa = Mesa(numero: nat, ocupada: bool, total: int, itensCount: nat)

  /** Table `numero`: occupied with the total and line count of its open tab, or free
      with zero and zero. When several open tabs share a table, the overview shows the
      one opened first. */
  function MesaRow(db: BarDb, tenant: nat, numero: nat): (m: Mesa)
    ensures m.numero == numero
    ensures m.ocupada <==> exists k: nat :: Matches(db.comandas, k, OpenAt(tenant, numero))
    ensures !m.ocupada ==> m.total == 0 && m.itensCount == 0
    ensures m.ocupada ==> exists k: nat :: (Matches(db.comandas, k, OpenAt(tenant, numero))
      && m.total == db.comandas[k].value.total && m.itensCount == |db.comandas[k].value.itens|)
  {
    var ids := Where(db.comandas, OpenAt(tenant, numero));
    if |ids| == 0 then Mesa(numero, false, 0, 0)
    else
      var c := db.comandas[ids[0]].value;
      assert Matches(db.comandas, ids[0], OpenAt(tenant, numero));
      Mesa(numero, true, c.total, |c.itens|)
  }

  /** `mesas_view` for the logged-in user's tenant, row `tenant` of the tenant table:
      nothing while its bar is closed; otherwise one row per table, numbered 1 to the
      tenant's number of tables, in order. */
  function Mesas(db: BarDb, tenants: Table<ShopModels.Tenant>, tenant: nat): (r: Option<seq<Mesa>>)
    requires Has(tenants, tenant)
    ensures r.None? <==> !tenants[tenant].value.isOpen
    ensures r.Some? ==> |r.value| == tenants[tenant].value.numeroMesas
    ensures r.Some? ==> forall i | 0 <= i < |r.value| :: r.value[i].numero == i + 1 && r.value[i] == MesaRow(db, tenant, i + 1)
  {
    var t := tenants[tenant].value;
    if !t.isOpen then None
    else Some(seq(t.numeroMesas, i requires 0 <= i < t.numeroMesas => MesaRow(db, tenant, i + 1)))
  }

  /** Under the invariant an occupied table shows its open tab, whose total is
      `calcular_total()` of its lines. */
  lemma MesasShowOpenTab(db: BarDb, tenants: Table<ShopModels.Tenant>, tenant: nat, numero: nat, k: nat)
    requires Valid(db) && Has(tenants, tenant)
    requires tenants[tenant].value.isOpen && 1 <= numero <= tenants[tenant].value.numeroMesas
    requires Matches(db.comandas, k, OpenAt(tenant, numero))
    ensures var c := db.comandas[k].value;
      Mesas(db, tenants, tenant).value[numero - 1] == Mesa(numero, true, CalcularTotal(c), |c.itens|)
  {
    WhereAtMostOne(db.comandas, OpenAt(tenant, numero));
    assert ComandaValid(db.comandas[k].value, db.nextItem);
  }

  /** A printed line of a tab. */
  datatype PrintLine = PrintLine(nome: string, quantidade: nat, precoUnitario: int, subtotal: int, observacao: string)

  /** What is sent to the printer; totals in tenths of a cent. */
  datatype PrintData = PrintData(mesa: nat, itens: seq<PrintLine>, totalSemGorjeta: int, gorjeta10: bool,
                                 totalComGorjeta: int)

  datatype PreviewReply = Preview(data: PrintData) | NoTabToPrint | PreviewError

  function MenuName(menu: Table<BarMenuItem>, k: nat): string {
    if Has(menu, k) then menu[k].value.name else ""
  }

  function PrintLines(menu: Table<BarMenuItem>, itens: seq<ComandaItem>): (r: seq<PrintLine>)
    ensures |r| == |itens|
    ensures forall i | 0 <= i < |r| ::
      r[i] == PrintLine(MenuName(menu, itens[i].item), itens[i].quantidade, itens[i].precoUnitario,
                        itens[i].subtotal, itens[i].observacao)
  {
    seq(|itens|, i requires 0 <= i < |itens| =>
      PrintLine(MenuName(menu, itens[i].item), itens[i].quantidade, itens[i].precoUnitario, itens[i].subtotal, itens[i].observacao))
  }

  /** The print preview of the table's open tab: the sum of the lines, and that times 1.1
      when the service charge is asked for. The tab itself is not changed. */
  function PrintPreview(db: BarDb, tenant: nat, mesa: nat, gorjeta: bool): (r: PreviewReply)
    ensures r.NoTabToPrint? <==> forall k: nat | k < |db.comandas| :: !Matches(db.comandas, k, OpenAt(tenant, mesa))
    ensures r.Preview? ==> exists k: nat :: (Matches(db.comandas, k, OpenAt(tenant, mesa))
      && r.data.itens == PrintLines(db.menu, db.comandas[k].value.itens)
      && r.data.totalSemGorjeta == 10 * Base(db.comandas[k].value.itens))
    ensures r.Preview? ==> r.data.mesa == mesa && r.data.gorjeta10 == gorjeta
    ensures r.Preview? && gorjeta ==> 10 * r.data.totalComGorjeta == 11 * r.data.totalSemGorjeta
    ensures r.Preview? && !gorjeta ==> r.data.totalComGorjeta == r.data.totalSemGorjeta
  {
    var ids := Where(db.comandas, OpenAt(tenant, mesa));
    if |ids| == 0 then NoTabToPrint
    else
      assert Matches(db.comandas, ids[0], OpenAt(tenant, mesa));
      if |ids| == 1 then
        var k := ids[0];
        var c := db.comandas[k].value;
        var base := Base(c.itens);
        var r := Preview(PrintData(mesa, PrintLines(db.menu, c.itens), 10 * base, gorjeta,
                                   if gorjeta then 11 * base else 10 * base));
        assert Matches(db.comandas, k, OpenAt(tenant, mesa))
          && r.data.itens == PrintLines(db.menu, db.comandas[k].value.itens)
          && r.data.totalSemGorjeta == 10 * Base(db.comandas[k].value.itens);
        r
      else PreviewError
  }

  /** `salvar_comanda`: the preview of the table's open tab, with the service charge
      exactly when `"on"` is given in the query or in the form. Nothing is stored. */
  function SalvarComanda(db: BarDb, tenant: nat, mesa: nat, query: Option<string>, form: Option<string>): (r: PreviewReply)
    ensures r.NoTabToPrint? <==> forall k: nat | k < |db.comandas| :: !Matches(db.comandas, k, OpenAt(tenant, mesa))
    ensures r.Preview? ==> r.data.mesa == mesa && r.data.gorjeta10 == (query == Some("on") || form == Some("on"))
    ensures r.Preview? ==> exists k: nat :: (Matches(db.comandas, k, OpenAt(tenant, mesa))
      && r.data.totalSemGorjeta == 10 * Base(db.comandas[k].value.itens))
    ensures r.Preview? && r.data.gorjeta10 ==> 10 * r.data.totalComGorjeta == 11 * r.data.totalSemGorjeta
    ensures r.Preview? && !r.data.gorjeta10 ==> r.data.totalComGorjeta == r.data.totalSemGorjeta
  {
    PrintPreview(db, tenant, mesa, query == Some("on") || form == Some("on"))
  }

  /** `imprimir_comanda`: the preview of the table's open tab, with the service charge
      exactly when `"on"` is given in the query. Nothing is stored. */
  function ImprimirComanda(db: BarDb, tenant: nat, mesa: nat, query: Option<string>): (r: PreviewReply)
    ensures r.NoTabToPrint? <==> forall k: nat | k < |db.comandas| :: !Matches(db.comandas, k, OpenAt(tenant, mesa))
    ensures r.Preview? ==> r.data.mesa == mesa && r.data.gorjeta10 == (query == Some("on"))
    ensures r.Preview? ==> exists k: nat :: (Matches(db.comandas, k, OpenAt(tenant, mesa))
      && r.data.totalSemGorjeta == 10 * Base(db.comandas[k].value.itens))
    ensures r.Preview? && r.data.gorjeta10 ==> 10 * r.data.totalComGorjeta == 11 * r.data.totalSemGorjeta
    ensures r.Preview? && !r.data.gorjeta10 ==> r.data.totalComGorjeta == r.data.totalSemGorjeta
  {
    PrintPreview(db, tenant, mesa, query == Some("on"))
  }

  /** `imprimir_comanda` reads the query only: it shows what `salvar_comanda` shows when no
      form is posted, and a form asking for the charge is ignored by it. */
  lemma ImprimirIgnoresForm(db: BarDb, tenant: nat, mesa: nat, query: Option<string>, form: Option<string>)
    ensures ImprimirComanda(db, tenant, mesa, query) == SalvarComanda(db, tenant, mesa, query, None)
    ensures form == Some("on") && query != Some("on") && SalvarComanda(db, tenant, mesa, query, form).Preview?
      ==> ImprimirComanda(db, tenant, mesa, query) != SalvarComanda(db, tenant, mesa, query, form)
  {
  }

  /** In `salvar_comanda` the query and the form count alike: asking in either place gives
      the same preview. */
  lemma SalvarEitherPlace(db: BarDb, tenant: nat, mesa: nat, query: Option<string>, form: Option<string>)
    ensures SalvarComanda(db, tenant, mesa, query, form) == SalvarComanda(db, tenant, mesa, form, query)
    ensures SalvarComanda(db, tenant, mesa, Some("on"), form) == SalvarComanda(db, tenant, mesa, query, Some("on"))
  {
  }

  /** The preview announces what closing charges: the previewed total with the flag is
      the total the tab gets when closed with the same flag. */
  lemma PreviewMatchesFechar(db: BarDb, tenant: nat, mesa: nat, gorjetaField: Option<string>, k: nat)
    requires Valid(db) && Matches(db.comandas, k, OpenAt(tenant, mesa))
    ensures var g := gorjetaField == Some("on");
      && PrintPreview(db, tenant, mesa, g).Preview?
      && PrintPreview(db, tenant, mesa, g).data.totalComGorjeta == Fechar(db, tenant, mesa, gorjetaField).0.comandas[k].value.total
  {
    WhereAtMostOne(db.comandas, OpenAt(tenant, mesa));
    FecharEffect(db, tenant, mesa, gorjetaField, k);
  }
}

=== FILE: copy_menu.dfy ===
/** The `copy_menu_data` management command: copies one tenant's delivery menu (categories,
    items, optionals, combos with their slots, delivery zones) and bar menu (categories,
    items) to another tenant, optionally deleting the target's menu first. */
module CopyMenu {
  import opened Wrappers
  import opened Tables
  import opened Copying
  import opened DeliveryModels
  import Bar
  import ShopModels

  // ----- the delivery app -----

  function CategoryOfTenant(tenant: nat): DeliveryCategory -> bool {
    (c: DeliveryCategory) => c.tenant == tenant
  }

  function ItemOfTenant(tenant: nat): MenuItem -> bool {
    (i: MenuItem) => i.tenant == tenant
  }

  function OptionalOfTenant(tenant: nat): DeliveryOptional -> bool {
    (o: DeliveryOptional) => o.tenant == tenant
  }

  function ComboOfTenant(tenant: nat): Combo -> bool {
    (c: Combo) => c.tenant == tenant
  }

  function ZoneOfTenant(tenant: nat): DeliveryZone -> bool {
    (z: DeliveryZone) => z.tenant == tenant
  }

  /** The order with its zone cleared when that zone is one of `gone` (`SET_NULL`). */
  function DropZone(o: DeliveryOrder, zones: Table<DeliveryZone>, target: nat): DeliveryOrder {
    if o.zone.Some? && Matches(zones, o.zone.value, ZoneOfTenant(target)) then o.(zone := None) else o
  }

  /** `--clear` for the delivery app. The target's combos, items, optionals, categories
      and zones are deleted, in that order; the deletes cascade to the slots of a deleted
      combo, and to the items, optionals and slots that point at a deleted category;
      orders keep their rows but lose a zone that was deleted. */
  function ClearDelivery(d: DeliveryDb, target: nat): (r: DeliveryDb)
    ensures |r.categories| == |d.categories| && |r.items| == |d.items| && |r.optionals| == |d.optionals|
    ensures |r.zones| == |d.zones| && |r.combos| == |d.combos| && |r.slots| == |d.slots|
    ensures forall k: nat | Has(r.categories, k) :: r.categories[k].value.tenant != target
    ensures forall k: nat | Has(r.items, k) :: r.items[k].value.tenant != target
    ensures forall k: nat | Has(r.optionals, k) :: r.optionals[k].value.tenant != target
    ensures forall k: nat | Has(r.zones, k) :: r.zones[k].value.tenant != target
    ensures forall k: nat | Has(r.combos, k) :: r.combos[k].value.tenant != target
    ensures forall k | 0 <= k < |d.categories| && d.categories[k].Some? && d.categories[k].value.tenant != target ::
      r.categories[k] == d.categories[k]
    ensures forall k | 0 <= k < |d.items| ::
      && (r.items[k].None? <==> d.items[k].None? || d.items[k].value.tenant == target
                                || Matches(d.categories, d.items[k].value.category, CategoryOfTenant(target)))
      && (r.items[k].Some? ==> r.items[k] == d.items[k])
    ensures forall k | 0 <= k < |d.optionals| ::
      && (r.optionals[k].None? <==> d.optionals[k].None? || d.optionals[k].value.tenant == target
                                    || Matches(d.categories, d.optionals[k].value.category, CategoryOfTenant(target)))
      && (r.optionals[k].Some? ==> r.optionals[k] == d.optionals[k])
    ensures forall k | 0 <= k < |d.zones| && d.zones[k].Some? && d.zones[k].value.tenant != target ::
      r.zones[k] == d.zones[k]
    ensures forall k | 0 <= k < |d.combos| && d.combos[k].Some? && d.combos[k].value.tenant != target ::
      r.combos[k] == d.combos[k]
    ensures forall k | 0 <= k < |d.slots| ::
      && (r.slots[k].None? <==> d.slots[k].None? || Matches(d.combos, d.slots[k].value.combo, ComboOfTenant(target))
                                || Matches(d.categories, d.slots[k].value.allowedCategory, CategoryOfTenant(target)))
      && (r.slots[k].Some? ==> r.slots[k] == d.slots[k])
    ensures |r.orders| == |d.orders|
    ensures forall k | 0 <= k < |d.orders| :: r.orders[k].Some? == d.orders[k].Some?
    ensures forall k | 0 <= k < |d.orders| && d.orders[k].Some? ::
      && r.orders[k].value.(zone := d.orders[k].value.zone) == d.orders[k].value
      && (r.orders[k].value.zone.None? <==>
            d.orders[k].value.zone.None? || Matches(d.zones, d.orders[k].value.zone.value, ZoneOfTenant(target)))
      && (r.orders[k].value.zone.Some? ==> r.orders[k].value.zone == d.orders[k].value.zone)
    ensures r.orderItems == d.orderItems
  {
    var goneCategory := (k: nat) => Matches(d.categories, k, CategoryOfTenant(target));
    var goneCombo := (k: nat) => Matches(d.combos, k, ComboOfTenant(target));
    DeliveryDb(
      DeleteWhere(d.categories, CategoryOfTenant(target)),
      DeleteWhere(d.items, (i: MenuItem) => i.tenant == target || goneCategory(i.category)),
      DeleteWhere(d.optionals, (o: DeliveryOptional) => o.tenant == target || goneCategory(o.category)),
      DeleteWhere(d.zones, ZoneOfTenant(target)),
      DeleteWhere(d.combos, ComboOfTenant(target)),
      DeleteWhere(d.slots, (s: ComboSlot) => goneCombo(s.combo) || goneCategory(s.allowedCategory)),
      seq(|d.orders|, k requires 0 <= k < |d.orders| =>
        if d.orders[k].Some? then Some(DropZone(d.orders[k].value, d.zones, target)) else None),
      d.orderItems)
  }

  /** A source id's new id, when it has one. */
  function Remap(m: map<nat, nat>, k: nat): nat {
    if k in m then m[k] else k
  }

  /** The categories asked of `get_or_create` for the source categories `src`: same name,
      under the target tenant. */
  function CategoryRequests(cats: Table<DeliveryCategory>, src: seq<nat>, target: nat): (r: seq<DeliveryCategory>)
    requires AllLive(cats, src)
    ensures |r| == |src|
    ensures forall i | 0 <= i < |src| :: Has(cats, src[i]) && r[i] == DeliveryCategory(target, cats[src[i]].value.name)
  {
    seq(|src|, i requires 0 <= i < |src| => assert src[i] in src; DeliveryCategory(target, cats[src[i]].value.name))
  }

  /** Step 1: the target's category of the same name for each source category, created
      when missing; the map takes each source category id to it. */
  function CopyDeliveryCategories(d: DeliveryDb, source: nat, target: nat): (r: (Table<DeliveryCategory>, map<nat, nat>))
  {
    var src := Where(d.categories, CategoryOfTenant(source));
    GetOrCreateEach(d.categories, src, CategoryRequests(d.categories, src, target), map[])
  }

  function ItemMapped(m: map<nat, nat>): MenuItem -> bool {
    (i: MenuItem) => i.category in m
  }

  function CopiedItem(m: map<nat, nat>, target: nat): MenuItem -> MenuItem {
    (i: MenuItem) => MenuItem(target, Remap(m, i.category), i.name, i.price, i.isAvailable)
  }

  function OptionalMapped(m: map<nat, nat>): DeliveryOptional -> bool {
    (o: DeliveryOptional) => o.category in m
  }

  function CopiedOptional(m: map<nat, nat>, target: nat): DeliveryOptional -> DeliveryOptional {
    (o: DeliveryOptional) => DeliveryOptional(target, Remap(m, o.category), o.name, o.price)
  }

  function CopiedCombo(c: Combo, target: nat): Combo {
    Combo(target, c.name, c.price, c.isAvailable)
  }

  function SlotOf(combo: nat): ComboSlot -> bool {
    (s: ComboSlot) => s.combo == combo
  }

  function SlotMapped(m: map<nat, nat>): ComboSlot -> bool {
    (s: ComboSlot) => s.allowedCategory in m
  }

  function CopiedSlot(m: map<nat, nat>, newCombo: nat): ComboSlot -> ComboSlot {
    (s: ComboSlot) => ComboSlot(newCombo, Remap(m, s.allowedCategory))
  }

  /** The slots created for the copy `newCombo` of `combo`: one per slot of `combo`
      whose category was copied, pointing at the copied category. */
  function SlotCopies(slots: Table<ComboSlot>, combo: nat, newCombo: nat, m: map<nat, nat>): seq<ComboSlot> {
    Copies(RowsWhere(slots, SlotOf(combo)), SlotMapped(m), CopiedSlot(m, newCombo))
  }

  /** Step 4: each source combo is created again under the target, followed by its slots
      (read from the slot table as it is at that moment). */
  function CopyCombos(combos: Table<Combo>, slots: Table<ComboSlot>, from: Table<Combo>, src: seq<nat>,
                      target: nat, m: map<nat, nat>): (r: (Table<Combo>, Table<ComboSlot>))
    requires AllLive(from, src)
    decreases |src|
  {
    if |src| == 0 then (combos, slots)
    else
      assert src[0] in src;
      CopyCombos(Insert(combos, CopiedCombo(from[src[0]].value, target)),
                 InsertAll(slots, SlotCopies(slots, src[0], |combos|, m)),
                 from, src[1..], target, m)
  }

  /** Step 2: a copy of each source item whose category was copied. */
  function CopyItems(d: DeliveryDb, m: map<nat, nat>, source: nat, target: nat): Table<MenuItem> {
    InsertAll(d.items, Copies(RowsWhere(d.items, ItemOfTenant(source)), ItemMapped(m), CopiedItem(m, target)))
  }

  /** Step 3: a copy of each source optional whose category was copied. */
  function CopyOptionals(d: DeliveryDb, m: map<nat, nat>, source: nat, target: nat): Table<DeliveryOptional> {
    InsertAll(d.optionals, Copies(RowsWhere(d.optionals, OptionalOfTenant(source)), OptionalMapped(m), CopiedOptional(m, target)))
  }

  /** `get_or_create` of a zone by tenant and neighbourhood; the fee is used only when
      the zone is created. */
  function GetOrCreateZone(zones: Table<DeliveryZone>, target: nat, z: DeliveryZone): (r: Table<DeliveryZone>)
    ensures ZoneNamed(zones, target, z.neighborhood).Some? ==> r == zones
    ensures ZoneNamed(zones, target, z.neighborhood).None? ==>
      r == Insert(zones, DeliveryZone(target, z.neighborhood, z.fee))
  {
    match ZoneNamed(zones, target, z.neighborhood)
    case Some(_) => zones
    case None => Insert(zones, DeliveryZone(target, z.neighborhood, z.fee))
  }

  /** Step 5: the source zones, one after the other. */
  function CopyZones(zones: Table<DeliveryZone>, src: seq<DeliveryZone>, target: nat): Table<DeliveryZone>
    decreases |src|
  {
    if |src| == 0 then zones else CopyZones(GetOrCreateZone(zones, target, src[0]), src[1..], target)
  }

  /** `_copy_delivery_data` without `--clear`: each step reads the source rows as they are
      when the step starts (a queryset is evaluated once, when its loop begins). */
  function CopyDelivery(d: DeliveryDb, source: nat, target: nat): (r: DeliveryDb)
  {
    var (cats, m) := CopyDeliveryCategories(d, source, target);
    var (combos, slots) := CopyCombos(d.combos, d.slots, d.combos, Where(d.combos, ComboOfTenant(source)), target, m);
    var zones := CopyZones(d.zones, RowsWhere(d.zones, ZoneOfTenant(source)), target);
    d.(categories := cats, items := CopyItems(d, m, source, target), optionals := CopyOptionals(d, m, source, target),
       combos := combos, slots := slots, zones := zones)
  }

  /** The tables the copy writes, one step each. */
  lemma CopyDeliveryParts(d: DeliveryDb, source: nat, target: nat)
    ensures var (cats, m) := CopyDeliveryCategories(d, source, target);
      var r := CopyDelivery(d, source, target);
      var src := Where(d.combos, ComboOfTenant(source));
      && r.categories == cats && r.items == CopyItems(d, m, source, target)
      && r.optionals == CopyOptionals(d, m, source, target)
      && AllLive(d.combos, src)
      && r.combos == CopyCombos(d.combos, d.slots, d.combos, src, target, m).0
      && r.slots == CopyCombos(d.combos, d.slots, d.combos, src, target, m).1
      && r.zones == CopyZones(d.zones, RowsWhere(d.zones, ZoneOfTenant(source)), target)
  {
  }

  /** `_copy_delivery_data`. */
  function CopyDeliveryData(d: DeliveryDb, source: nat, target: nat, clear: bool): (r: DeliveryDb)
    ensures r.orderItems == d.orderItems
    ensures !clear ==> r.orders == d.orders
    ensures clear ==> |r.orders| == |d.orders| && forall k | 0 <= k < |d.orders| && d.orders[k].Some? ::
      r.orders[k].Some? && r.orders[k].value.(zone := d.orders[k].value.zone) == d.orders[k].value
  {
    CopyDelivery(if clear then ClearDelivery(d, target) else d, source, target)
  }

  /** A live category of `tenant`. */
  predicate IsCategoryOf(cats: Table<DeliveryCategory>, k: nat, tenant: nat) {
    Matches(cats, k, CategoryOfTenant(tenant))
  }

  /** Category step: every source category is mapped. */
  lemma CopyDeliveryCategoriesMapsAll(d: DeliveryDb, source: nat, target: nat)
    ensures var m := CopyDeliveryCategories(d, source, target).1;
      forall k: nat | IsCategoryOf(d.categories, k, source) :: k in m
  {
    var src := Where(d.categories, CategoryOfTenant(source));
    var rows := CategoryRequests(d.categories, src, target);
    GetOrCreateEachMaps(d.categories, src, rows, map[]);
    forall k: nat | IsCategoryOf(d.categories, k, source) ensures k in src {
    }
  }

  /** Category step: only source categories are mapped, each to the target's category of
      the same name. */
  lemma CopyDeliveryCategoriesMapsByName(d: DeliveryDb, source: nat, target: nat)
    ensures var (cats, m) := CopyDeliveryCategories(d, source, target);
      forall k | k in m :: IsCategoryOf(d.categories, k, source) && Has(cats, m[k])
                           && cats[m[k]].value == DeliveryCategory(target, d.categories[k].value.name)
  {
    var src := Where(d.categories, CategoryOfTenant(source));
    var rows := CategoryRequests(d.categories, src, target);
    var (cats, m) := CopyDeliveryCategories(d, source, target);
    forall k | k in m
      ensures IsCategoryOf(d.categories, k, source) && Has(cats, m[k])
      ensures cats[m[k]].value == DeliveryCategory(target, d.categories[k].value.name)
    {
      GetOrCreateEachKey(d.categories, src, rows, k);
      var i :| 0 <= i < |src| && src[i] == k && Has(cats, m[k]) && cats[m[k]].value == rows[i];
    }
  }

  /** A category found by name is a present row. */
  lemma NamedIsPresent(cats: Table<DeliveryCategory>, c: DeliveryCategory)
    ensures CategoryNamed(cats, c.tenant, c.name).Some? ==> Present(cats, c)
  {
    var r := CategoryNamed(cats, c.tenant, c.name);
    if r.Some? {
      assert Has(cats, r.value) && cats[r.value].value == c;
    }
  }

  /** Category step: existing categories are kept, and a category is created only for a
      source name the target did not have. */
  lemma CopyDeliveryCategoriesCreates(d: DeliveryDb, source: nat, target: nat)
    ensures var cats := CopyDeliveryCategories(d, source, target).0;
      && Extends(d.categories, cats)
      && forall k | |d.categories| <= k < |cats| ::
            && cats[k].Some? && cats[k].value.tenant == target
            && CategoryNamed(d.categories, target, cats[k].value.name).None?
            && exists j: nat :: IsCategoryOf(d.categories, j, source) && d.categories[j].value.name == cats[k].value.name
  {
    var src := Where(d.categories, CategoryOfTenant(source));
    var rows := CategoryRequests(d.categories, src, target);
    var cats := CopyDeliveryCategories(d, source, target).0;
    GetOrCreateEachGrows(d.categories, src, rows, map[]);
    forall k | |d.categories| <= k < |cats|
      ensures cats[k].Some? && cats[k].value.tenant == target && CategoryNamed(d.categories, target, cats[k].value.name).None?
      ensures exists j: nat :: IsCategoryOf(d.categories, j, source) && d.categories[j].value.name == cats[k].value.name
    {
      GetOrCreateEachNew(d.categories, src, rows, map[], k);
      var i :| 0 <= i < |rows| && rows[i] == cats[k].value;
      assert IsCategoryOf(d.categories, src[i], source);
      NamedIsPresent(d.categories, cats[k].value);
    }
  }

  /** Category step: category names stay unique per tenant. */
  lemma CopyDeliveryCategoriesUnique(d: DeliveryDb, source: nat, target: nat)
    requires CategoryNamesUnique(d.categories)
    ensures CategoryNamesUnique(CopyDeliveryCategories(d, source, target).0)
  {
    var src := Where(d.categories, CategoryOfTenant(source));
    GetOrCreateEachDistinct(d.categories, src, CategoryRequests(d.categories, src, target), map[]);
  }

  /** `copy` is the target's copy of the source item `x`: same name, price and
      availability, in the target's category named like the item's category. */
  predicate ItemCopyOf(copy: MenuItem, x: MenuItem, srcCats: Table<DeliveryCategory>, cats: Table<DeliveryCategory>, target: nat) {
    && copy.tenant == target && copy.name == x.name && copy.price == x.price && copy.isAvailable == x.isAvailable
    && Has(srcCats, x.category) && Has(cats, copy.category)
    && cats[copy.category].value == DeliveryCategory(target, srcCats[x.category].value.name)
  }

  /** Item step, soundness: existing items are kept, and every one created is the target's
      copy of a source item whose category is one of the source's categories. */
  lemma CopyDeliveryItemsSound(d: DeliveryDb, source: nat, target: nat)
    ensures var r := CopyDelivery(d, source, target);
      && Extends(d.items, r.items)
      && forall k | |d.items| <= k < |r.items| :: r.items[k].Some? &&
            exists j: nat :: Matches(d.items, j, ItemOfTenant(source)) && IsCategoryOf(d.categories, d.items[j].value.category, source)
                             && ItemCopyOf(r.items[k].value, d.items[j].value, d.categories, r.categories, target)
  {
    var (cats, m) := CopyDeliveryCategories(d, source, target);
    var rows := CopyItems(d, m, source, target);
    CopyDeliveryParts(d, source, target);
    CopyDeliveryCategoriesMapsByName(d, source, target);
    forall k | |d.items| <= k < |rows|
      ensures rows[k].Some?
      ensures exists j: nat :: Matches(d.items, j, ItemOfTenant(source)) && IsCategoryOf(d.categories, d.items[j].value.category, source)
                               && ItemCopyOf(rows[k].value, d.items[j].value, d.categories, cats, target)
    {
      CopyRowsAt(d.items, ItemOfTenant(source), ItemMapped(m), CopiedItem(m, target), k);
      var j: nat :| Matches(d.items, j, ItemOfTenant(source)) && ItemMapped(m)(d.items[j].value)
                    && rows[k].value == CopiedItem(m, target)(d.items[j].value);
      assert ItemCopyOf(rows[k].value, d.items[j].value, d.categories, cats, target);
    }
  }

  /** Item step, completeness: every source item whose category is one of the source's
      categories has its copy among the items created. */
  lemma CopyDeliveryItemsComplete(d: DeliveryDb, source: nat, target: nat)
    ensures var r := CopyDelivery(d, source, target);
      forall j: nat | Matches(d.items, j, ItemOfTenant(source)) && IsCategoryOf(d.categories, d.items[j].value.category, source) ::
        exists k | |d.items| <= k < |r.items| :: r.items[k].Some? && ItemCopyOf(r.items[k].value, d.items[j].value, d.categories, r.categories, target)
  {
    var (cats, m) := CopyDeliveryCategories(d, source, target);
    var rows := CopyItems(d, m, source, target);
    CopyDeliveryParts(d, source, target);
    CopyDeliveryCategoriesMapsAll(d, source, target);
    CopyDeliveryCategoriesMapsByName(d, source, target);
    forall j: nat | Matches(d.items, j, ItemOfTenant(source)) && IsCategoryOf(d.categories, d.items[j].value.category, source)
      ensures exists k | |d.items| <= k < |rows| :: rows[k].Some? && ItemCopyOf(rows[k].value, d.items[j].value, d.categories, cats, target)
    {
      assert ItemMapped(m)(d.items[j].value);
      CopyRowsOf(d.items, ItemOfTenant(source), ItemMapped(m), CopiedItem(m, target), j);
      var k :| |d.items| <= k < |rows| && rows[k] == Some(CopiedItem(m, target)(d.items[j].value));
      assert ItemCopyOf(rows[k].value, d.items[j].value, d.categories, cats, target);
    }
  }

  /** `copy` is the target's copy of the source optional `x`. */
  predicate OptionalCopyOf(copy: DeliveryOptional, x: DeliveryOptional, srcCats: Table<DeliveryCategory>,
                           cats: Table<DeliveryCategory>, target: nat) {
    && copy.tenant == target && copy.name == x.name && copy.price == x.price
    && Has(srcCats, x.category) && Has(cats, copy.category)
    && cats[copy.category].value == DeliveryCategory(target, srcCats[x.category].value.name)
  }

  /** Optional step, soundness: existing optionals are kept, and every one created is the target's
      copy of a source optional whose category is one of the source's categories. */
  lemma CopyDeliveryOptionalsSound(d: DeliveryDb, source: nat, target: nat)
    ensures var r := CopyDelivery(d, source, target);
      && Extends(d.optionals, r.optionals)
      && forall k | |d.optionals| <= k < |r.optionals| :: r.optionals[k].Some? &&
            exists j: nat :: Matches(d.optionals, j, OptionalOfTenant(source)) && IsCategoryOf(d.categories, d.optionals[j].value.category, source)
                             && OptionalCopyOf(r.optionals[k].value, d.optionals[j].value, d.categories, r.categories, target)
  {
    var (cats, m) := CopyDeliveryCategories(d, source, target);
    var rows := CopyOptionals(d, m, source, target);
    CopyDeliveryParts(d, source, target);
    CopyDeliveryCategoriesMapsByName(d, source, target);
    forall k | |d.optionals| <= k < |rows|
      ensures rows[k].Some?
      ensures exists j: nat :: Matches(d.optionals, j, OptionalOfTenant(source)) && IsCategoryOf(d.categories, d.optionals[j].value.category, source)
                               && OptionalCopyOf(rows[k].value, d.optionals[j].value, d.categories, cats, target)
    {
      CopyRowsAt(d.optionals, OptionalOfTenant(source), OptionalMapped(m), CopiedOptional(m, target), k);
      var j: nat :| Matches(d.optionals, j, OptionalOfTenant(source)) && OptionalMapped(m)(d.optionals[j].value)
                    && rows[k].value == CopiedOptional(m, target)(d.optionals[j].value);
      assert OptionalCopyOf(rows[k].value, d.optionals[j].value, d.categories, cats, target);
    }
  }

  /** Optional step, completeness: every source optional whose category is one of the source's
      categories has its copy among the optionals created. */
  lemma CopyDeliveryOptionalsComplete(d: DeliveryDb, source: nat, target: nat)
    ensures var r := CopyDelivery(d, source, target);
      forall j: nat | Matches(d.optionals, j, OptionalOfTenant(source)) && IsCategoryOf(d.categories, d.optionals[j].value.category, source) ::
        exists k | |d.optionals| <= k < |r.optionals| :: r.optionals[k].Some? && OptionalCopyOf(r.optionals[k].value, d.optionals[j].value, d.categories, r.categories, target)
  {
    var (cats, m) := CopyDeliveryCategories(d, source, target);
    var rows := CopyOptionals(d, m, source, target);
    CopyDeliveryParts(d, source, target);
    CopyDeliveryCategoriesMapsAll(d, source, target);
    CopyDeliveryCategoriesMapsByName(d, source, target);
    forall j: nat | Matches(d.optionals, j, OptionalOfTenant(source)) && IsCategoryOf(d.categories, d.optionals[j].value.category, source)
      ensures exists k | |d.optionals| <= k < |rows| :: rows[k].Some? && OptionalCopyOf(rows[k].value, d.optionals[j].value, d.categories, cats, target)
    {
      assert OptionalMapped(m)(d.optionals[j].value);
      CopyRowsOf(d.optionals, OptionalOfTenant(source), OptionalMapped(m), CopiedOptional(m, target), j);
      var k :| |d.optionals| <= k < |rows| && rows[k] == Some(CopiedOptional(m, target)(d.optionals[j].value));
      assert OptionalCopyOf(rows[k].value, d.optionals[j].value, d.categories, cats, target);
    }
  }

  /** The slots created for a copy point at that copy. */
  lemma SlotCopiesPoint(slots: Table<ComboSlot>, combo: nat, newCombo: nat, m: map<nat, nat>)
    ensures forall s | s in SlotCopies(slots, combo, newCombo, m) :: s.combo == newCombo
  {
    var r := SlotCopies(slots, combo, newCombo, m);
    forall s | s in r ensures s.combo == newCombo {
      var j :| 0 <= j < |r| && r[j] == s;
      CopiesAt(RowsWhere(slots, SlotOf(combo)), SlotMapped(m), CopiedSlot(m, newCombo), j);
      var x :| x in RowsWhere(slots, SlotOf(combo)) && SlotMapped(m)(x) && r[j] == CopiedSlot(m, newCombo)(x);
    }
  }

  /** Combo step: the `j`-th source combo is created again, with the same name, price and
      availability, as combo `|combos| + j`; existing combos are kept. */
  lemma {:induction false} CopyCombosCreates(combos: Table<Combo>, slots: Table<ComboSlot>, from: Table<Combo>,
                                             src: seq<nat>, target: nat, m: map<nat, nat>)
    requires AllLive(from, src)
    ensures var cs := CopyCombos(combos, slots, from, src, target, m).0;
      && |cs| == |combos| + |src| && Extends(combos, cs)
      && forall j | 0 <= j < |src| :: src[j] in src && cs[|combos| + j] == Some(CopiedCombo(from[src[j]].value, target))
    decreases |src|
  {
    if |src| > 0 {
      assert src[0] in src;
      var c1 := Insert(combos, CopiedCombo(from[src[0]].value, target));
      var s1 := InsertAll(slots, SlotCopies(slots, src[0], |combos|, m));
      assert AllLive(from, src[1..]) by {
        assert forall x | x in src[1..] :: x in src;
      }
      var cs := CopyCombos(c1, s1, from, src[1..], target, m).0;
      assert CopyCombos(combos, slots, from, src, target, m).0 == cs;
      CopyCombosCreates(c1, s1, from, src[1..], target, m);
      forall j | 0 <= j < |src| ensures cs[|combos| + j] == Some(CopiedCombo(from[src[j]].value, target)) {
        if j == 0 {
          assert cs[|combos|] == c1[|combos|];
        } else {
          assert src[j] == src[1..][j - 1];
          assert cs[|c1| + (j - 1)] == Some(CopiedCombo(from[src[1..][j - 1]].value, target));
        }
      }
    }
  }

  /** The slots created for the copies `n`, `n + 1`, ... of the combos `src`, combo by
      combo. */
  function AllSlotCopies(slots: Table<ComboSlot>, src: seq<nat>, n: nat, m: map<nat, nat>): seq<ComboSlot>
    decreases |src|
  {
    if |src| == 0 then [] else SlotCopies(slots, src[0], n, m) + AllSlotCopies(slots, src[1..], n + 1, m)
  }

  /** Slots created for combo `c` are not slots of another combo. */
  lemma OtherComboSlots(slots: Table<ComboSlot>, chunk: seq<ComboSlot>, c: nat, other: nat)
    requires forall s | s in chunk :: s.combo == c
    requires other != c
    ensures RowsWhere(InsertAll(slots, chunk), SlotOf(other)) == RowsWhere(slots, SlotOf(other))
  {
    RowsWhereConcat(slots, Fresh(chunk), SlotOf(other));
    RowsWhereFreshNone(chunk, SlotOf(other));
  }

  /** Slots created for combo `c` do not change which slots the combos `src` have. */
  lemma {:induction false} AllSlotCopiesSame(slots: Table<ComboSlot>, chunk: seq<ComboSlot>, c: nat,
                                             src: seq<nat>, n: nat, m: map<nat, nat>)
    requires forall s | s in chunk :: s.combo == c
    requires forall x | x in src :: x != c
    ensures AllSlotCopies(InsertAll(slots, chunk), src, n, m) == AllSlotCopies(slots, src, n, m)
    decreases |src|
  {
    if |src| > 0 {
      assert src[0] in src;
      OtherComboSlots(slots, chunk, c, src[0]);
      assert forall x | x in src[1..] :: x in src;
      AllSlotCopiesSame(slots, chunk, c, src[1..], n + 1, m);
    }
  }

  /** Combo step: the slot table gets, combo by combo, the copies of each source combo's
      slots whose category was copied, pointing at the new combo (though each combo's
      slots are read after the previous combos' slots were created, those never belong
      to a source combo). */
  lemma {:induction false} CopyCombosSlots(combos: Table<Combo>, slots: Table<ComboSlot>, from: Table<Combo>,
                                           src: seq<nat>, target: nat, m: map<nat, nat>)
    requires AllLive(from, src)
    requires forall x | x in src :: x < |combos|
    ensures CopyCombos(combos, slots, from, src, target, m).1 == InsertAll(slots, AllSlotCopies(slots, src, |combos|, m))
    decreases |src|
  {
    if |src| > 0 {
      assert src[0] in src;
      var n := |combos|;
      var c1 := Insert(combos, CopiedCombo(from[src[0]].value, target));
      var chunk := SlotCopies(slots, src[0], n, m);
      var s1 := InsertAll(slots, chunk);
      assert AllLive(from, src[1..]) && forall x | x in src[1..] :: x in src && x < |c1| && x != n by {
        assert forall x | x in src[1..] :: x in src;
      }
      assert CopyCombos(combos, slots, from, src, target, m) == CopyCombos(c1, s1, from, src[1..], target, m);
      CopyCombosSlots(c1, s1, from, src[1..], target, m);
      assert |c1| == n + 1;
      AllSlotCopiesStep(slots, src, n, m);
    }
  }

  /** The slots of the first combo, then those of the rest read from the grown table, are
      the slots of all the combos read from the table as it was. */
  lemma AllSlotCopiesStep(slots: Table<ComboSlot>, src: seq<nat>, n: nat, m: map<nat, nat>)
    requires |src| > 0
    requires forall x | x in src[1..] :: x != n
    ensures var s1 := InsertAll(slots, SlotCopies(slots, src[0], n, m));
      InsertAll(s1, AllSlotCopies(s1, src[1..], n + 1, m)) == InsertAll(slots, AllSlotCopies(slots, src, n, m))
  {
    var chunk := SlotCopies(slots, src[0], n, m);
    SlotCopiesPoint(slots, src[0], n, m);
    AllSlotCopiesSame(slots, chunk, n, src[1..], n + 1, m);
    var rest := AllSlotCopies(slots, src[1..], n + 1, m);
    assert AllSlotCopies(slots, src, n, m) == chunk + rest;
    InsertAllConcat(slots, chunk, rest);
  }

  /** Combo step, on the database: each source combo, in id order, is created again under
      the target with the same name, price and availability. */
  lemma CopyDeliveryCombos(d: DeliveryDb, source: nat, target: nat)
    ensures var r := CopyDelivery(d, source, target);
      var src := Where(d.combos, ComboOfTenant(source));
      && |r.combos| == |d.combos| + |src| && Extends(d.combos, r.combos)
      && (forall j | 0 <= j < |src| ::
            Matches(d.combos, src[j], ComboOfTenant(source))
            && r.combos[|d.combos| + j] == Some(CopiedCombo(d.combos[src[j]].value, target)))
  {
    var m := CopyDeliveryCategories(d, source, target).1;
    CopyDeliveryParts(d, source, target);
    CopyCombosOfTenant(d.combos, d.slots, source, target, m);
  }

  /** Each combo of the source, in id order, is created again under the target. */
  lemma CopyCombosOfTenant(combos: Table<Combo>, slots: Table<ComboSlot>, source: nat, target: nat, m: map<nat, nat>)
    ensures var src := Where(combos, ComboOfTenant(source));
      && AllLive(combos, src)
      && var cs := CopyCombos(combos, slots, combos, src, target, m).0;
      && |cs| == |combos| + |src| && Extends(combos, cs)
      && (forall j | 0 <= j < |src| ::
            Matches(combos, src[j], ComboOfTenant(source))
            && cs[|combos| + j] == Some(CopiedCombo(combos[src[j]].value, target)))
  {
    var src := Where(combos, ComboOfTenant(source));
    assert AllLive(combos, src) by {
      forall x | x in src ensures Has(combos, x) {
        var i :| 0 <= i < |src| && src[i] == x;
      }
    }
    CopyCombosCreates(combos, slots, combos, src, target, m);
  }

  /** Combo step, on the database: the slot table gets the slot copies of the source
      combos, combo by combo, each pointing at that combo's copy. */
  lemma CopyDeliverySlots(d: DeliveryDb, source: nat, target: nat)
    ensures var r := CopyDelivery(d, source, target);
      var src := Where(d.combos, ComboOfTenant(source));
      var m := CopyDeliveryCategories(d, source, target).1;
      r.slots == InsertAll(d.slots, AllSlotCopies(d.slots, src, |d.combos|, m))
  {
    var src := Where(d.combos, ComboOfTenant(source));
    var m := CopyDeliveryCategories(d, source, target).1;
    var cc := CopyCombos(d.combos, d.slots, d.combos, src, target, m);
    assert CopyDelivery(d, source, target).slots == cc.1;
    assert AllLive(d.combos, src);
    CopyCombosSlots(d.combos, d.slots, d.combos, src, target, m);
  }

  /** The slots created for the copy `newCombo` of a source combo point at the new combo
      and at the target's category named like the category of one of that combo's
      slots. */
  lemma SlotCopiesSound(d: DeliveryDb, source: nat, target: nat, combo: nat, newCombo: nat)
    ensures var (cats, m) := CopyDeliveryCategories(d, source, target);
      forall s | s in SlotCopies(d.slots, combo, newCombo, m) ::
        s.combo == newCombo && Has(cats, s.allowedCategory) &&
        exists k: nat :: Matches(d.slots, k, SlotOf(combo))
                         && IsCategoryOf(d.categories, d.slots[k].value.allowedCategory, source)
                         && cats[s.allowedCategory].value
                            == DeliveryCategory(target, d.categories[d.slots[k].value.allowedCategory].value.name)
  {
    var (cats, m) := CopyDeliveryCategories(d, source, target);
    var src := RowsWhere(d.slots, SlotOf(combo));
    var r := SlotCopies(d.slots, combo, newCombo, m);
    CopyDeliveryCategoriesMapsByName(d, source, target);
    forall s | s in r
      ensures s.combo == newCombo && Has(cats, s.allowedCategory)
      ensures exists k: nat :: Matches(d.slots, k, SlotOf(combo))
                               && IsCategoryOf(d.categories, d.slots[k].value.allowedCategory, source)
                               && cats[s.allowedCategory].value
                                  == DeliveryCategory(target, d.categories[d.slots[k].value.allowedCategory].value.name)
    {
      var j :| 0 <= j < |r| && r[j] == s;
      CopiesAt(src, SlotMapped(m), CopiedSlot(m, newCombo), j);
      var x :| x in src && SlotMapped(m)(x) && r[j] == CopiedSlot(m, newCombo)(x);
      RowsWhereMember(d.slots, SlotOf(combo), x);
    }
  }

  /** Every slot of a source combo whose category is one of the source's categories has
      its copy among the slots created for the new combo. */
  lemma SlotCopiesComplete(d: DeliveryDb, source: nat, target: nat, combo: nat, newCombo: nat)
    ensures var m := CopyDeliveryCategories(d, source, target).1;
      forall k: nat | Matches(d.slots, k, SlotOf(combo))
                      && IsCategoryOf(d.categories, d.slots[k].value.allowedCategory, source) ::
        d.slots[k].value.allowedCategory in m
        && ComboSlot(newCombo, m[d.slots[k].value.allowedCategory]) in SlotCopies(d.slots, combo, newCombo, m)
  {
    var m := CopyDeliveryCategories(d, source, target).1;
    var src := RowsWhere(d.slots, SlotOf(combo));
    CopyDeliveryCategoriesMapsAll(d, source, target);
    CopiesComplete(src, SlotMapped(m), CopiedSlot(m, newCombo));
    forall k: nat | Matches(d.slots, k, SlotOf(combo)) && IsCategoryOf(d.categories, d.slots[k].value.allowedCategory, source)
      ensures ComboSlot(newCombo, m[d.slots[k].value.allowedCategory]) in SlotCopies(d.slots, combo, newCombo, m)
    {
      RowsWhereHas(d.slots, SlotOf(combo), k);
      assert CopiedSlot(m, newCombo)(d.slots[k].value) == ComboSlot(newCombo, m[d.slots[k].value.allowedCategory]);
    }
  }

  /** Zone step: existing zones are kept with their fee; each zone created carries the
      neighbourhood and fee of a source zone. */
  lemma {:induction false} CopyZonesGrows(zones: Table<DeliveryZone>, src: seq<DeliveryZone>, target: nat)
    ensures var u := CopyZones(zones, src, target);
      && Extends(zones, u)
      && forall k | |zones| <= k < |u| ::
           u[k].Some? && exists z | z in src :: u[k].value == DeliveryZone(target, z.neighborhood, z.fee)
    decreases |src|
  {
    if |src| > 0 {
      var z1 := GetOrCreateZone(zones, target, src[0]);
      CopyZonesGrows(z1, src[1..], target);
      var u := CopyZones(z1, src[1..], target);
      assert u == CopyZones(zones, src, target);
      assert Extends(zones, z1) && |z1| <= |zones| + 1;
      forall k | |zones| <= k < |u|
        ensures u[k].Some? && exists z | z in src :: u[k].value == DeliveryZone(target, z.neighborhood, z.fee)
      {
        if k < |z1| {
          assert u[k] == z1[k] == Some(DeliveryZone(target, src[0].neighborhood, src[0].fee));
          assert src[0] in src;
        } else {
          var z :| z in src[1..] && u[k].value == DeliveryZone(target, z.neighborhood, z.fee);
          assert z in src;
        }
      }
    }
  }

  /** Zone step: a zone is created only for a neighbourhood the target did not have. */
  lemma {:induction false} CopyZonesOnlyNew(zones: Table<DeliveryZone>, src: seq<DeliveryZone>, target: nat)
    ensures var u := CopyZones(zones, src, target);
      forall k | |zones| <= k < |u| :: u[k].Some? && ZoneNamed(zones, target, u[k].value.neighborhood).None?
    decreases |src|
  {
    if |src| > 0 {
      var z1 := GetOrCreateZone(zones, target, src[0]);
      CopyZonesOnlyNew(z1, src[1..], target);
      CopyZonesGrows(z1, src[1..], target);
      var u := CopyZones(z1, src[1..], target);
      forall k | |z1| <= k < |u| ensures ZoneNamed(zones, target, u[k].value.neighborhood).None? {
        assert forall i: nat | Has(zones, i) :: Has(z1, i) && z1[i] == zones[i];
      }
    }
  }

  /** Zone step: afterwards the target has a zone for every source neighbourhood. */
  lemma {:induction false} CopyZonesCovers(zones: Table<DeliveryZone>, src: seq<DeliveryZone>, target: nat)
    ensures var u := CopyZones(zones, src, target);
      forall z | z in src :: ZoneNamed(u, target, z.neighborhood).Some?
    decreases |src|
  {
    if |src| > 0 {
      var z1 := GetOrCreateZone(zones, target, src[0]);
      CopyZonesCovers(z1, src[1..], target);
      CopyZonesGrows(z1, src[1..], target);
      var u := CopyZones(z1, src[1..], target);
      var i := ZoneNamed(z1, target, src[0].neighborhood).value;
      assert Has(u, i) && u[i] == z1[i];
      assert forall z | z in src :: z == src[0] || z in src[1..];
    }
  }

  /** Zone step: neighbourhoods stay unique per tenant. */
  lemma {:induction false} CopyZonesUnique(zones: Table<DeliveryZone>, src: seq<DeliveryZone>, target: nat)
    requires ZonesUnique(zones)
    ensures ZonesUnique(CopyZones(zones, src, target))
    decreases |src|
  {
    if |src| > 0 {
      var z1 := GetOrCreateZone(zones, target, src[0]);
      GetOrCreateZoneUnique(zones, target, src[0]);
      CopyZonesUnique(z1, src[1..], target);
    }
  }

  /** A zone is created only for a neighbourhood the tenant does not have yet. */
  lemma GetOrCreateZoneUnique(zones: Table<DeliveryZone>, target: nat, z: DeliveryZone)
    requires ZonesUnique(zones)
    ensures ZonesUnique(GetOrCreateZone(zones, target, z))
  {
    if ZoneNamed(zones, target, z.neighborhood).None? {
      InsertZoneUnique(zones, DeliveryZone(target, z.neighborhood, z.fee));
    }
  }

  lemma InsertZoneUnique(zones: Table<DeliveryZone>, nz: DeliveryZone)
    requires ZonesUnique(zones)
    requires forall k: nat | Has(zones, k) :: !(zones[k].value.tenant == nz.tenant && zones[k].value.neighborhood == nz.neighborhood)
    ensures ZonesUnique(Insert(zones, nz))
  {
    var u := Insert(zones, nz);
    forall i: nat, j: nat | Has(u, i) && Has(u, j) && i != j
      ensures u[i].value.tenant != u[j].value.tenant || u[i].value.neighborhood != u[j].value.neighborhood
    {
      if i < |zones| && j < |zones| {
        assert u[i] == zones[i] && u[j] == zones[j];
      } else if i < |zones| {
        assert u[i] == zones[i] && Has(zones, i);
      } else {
        assert u[j] == zones[j] && Has(zones, j);
      }
    }
  }

  /** Zone step: when the target already has every source neighbourhood, nothing
      changes. */
  lemma {:induction false} CopyZonesPresent(zones: Table<DeliveryZone>, src: seq<DeliveryZone>, target: nat)
    requires forall z | z in src :: ZoneNamed(zones, target, z.neighborhood).Some?
    ensures CopyZones(zones, src, target) == zones
    decreases |src|
  {
    if |src| > 0 {
      assert src[0] in src;
      assert forall z | z in src[1..] :: z in src;
      CopyZonesPresent(zones, src[1..], target);
    }
  }

  /** Running the copy again without `--clear` creates no category: every category it asks
      for exists after the first run. */
  lemma RerunKeepsCategories(d: DeliveryDb, source: nat, target: nat)
    ensures var d1 := CopyDelivery(d, source, target);
      CopyDelivery(d1, source, target).categories == d1.categories
  {
    var d1 := CopyDelivery(d, source, target);
    var (cats, m) := CopyDeliveryCategories(d, source, target);
    assert d1.categories == cats;
    CopyDeliveryCategoriesMapsAll(d, source, target);
    CopyDeliveryCategoriesMapsByName(d, source, target);
    CopyDeliveryCategoriesCreates(d, source, target);
    var src1 := Where(d1.categories, CategoryOfTenant(source));
    var rows1 := CategoryRequests(d1.categories, src1, target);
    forall i | 0 <= i < |rows1| ensures Present(d1.categories, rows1[i]) {
      var k := src1[i];
      if k < |d.categories| {
        assert d1.categories[k] == d.categories[k];
        assert IsCategoryOf(d.categories, k, source);
        assert Has(d1.categories, m[k]) && d1.categories[m[k]].value == rows1[i];
      } else {
        assert Has(d1.categories, k) && d1.categories[k].value == rows1[i];
      }
    }
    GetOrCreateEachPresent(d1.categories, src1, rows1, map[]);
  }

  /** Running the copy again without `--clear` creates no zone and changes no fee. */
  lemma RerunKeepsZones(d: DeliveryDb, source: nat, target: nat)
    ensures var d1 := CopyDelivery(d, source, target);
      CopyDelivery(d1, source, target).zones == d1.zones
  {
    var d1 := CopyDelivery(d, source, target);
    var src := RowsWhere(d.zones, ZoneOfTenant(source));
    assert d1.zones == CopyZones(d.zones, src, target);
    CopyZonesCovers(d.zones, src, target);
    CopyZonesGrows(d.zones, src, target);
    var src1 := RowsWhere(d1.zones, ZoneOfTenant(source));
    forall z | z in src1 ensures ZoneNamed(d1.zones, target, z.neighborhood).Some? {
      RowsWhereMember(d1.zones, ZoneOfTenant(source), z);
      var k: nat :| Matches(d1.zones, k, ZoneOfTenant(source)) && d1.zones[k].value == z;
      if k < |d.zones| {
        assert d.zones[k] == d1.zones[k];
        RowsWhereHas(d.zones, ZoneOfTenant(source), k);
      } else {
        assert Has(d1.zones, k) && d1.zones[k].value.tenant == target;
      }
    }
    CopyZonesPresent(d1.zones, src1, target);
  }

  /** Running the copy again without `--clear` creates every item again: when the source
      has an item in one of its categories, each run adds items. */
  lemma RerunDuplicatesItems(d: DeliveryDb, source: nat, target: nat, j: nat)
    requires Matches(d.items, j, ItemOfTenant(source))
    requires IsCategoryOf(d.categories, d.items[j].value.category, source)
    ensures var d1 := CopyDelivery(d, source, target);
      |d.items| < |d1.items| < |CopyDelivery(d1, source, target).items|
  {
    RerunKeepsSourceItem(d, source, target, j);
    CopyDeliveryItemsComplete(CopyDelivery(d, source, target), source, target);
  }

  /** The first run adds an item and leaves a source item, and its category, as they
      were. */
  lemma RerunKeepsSourceItem(d: DeliveryDb, source: nat, target: nat, j: nat)
    requires Matches(d.items, j, ItemOfTenant(source))
    requires IsCategoryOf(d.categories, d.items[j].value.category, source)
    ensures var d1 := CopyDelivery(d, source, target);
      && |d.items| < |d1.items|
      && Matches(d1.items, j, ItemOfTenant(source))
      && IsCategoryOf(d1.categories, d1.items[j].value.category, source)
  {
    var d1 := CopyDelivery(d, source, target);
    CopyDeliveryParts(d, source, target);
    CopyDeliveryItemsComplete(d, source, target);
    CopyDeliveryCategoriesCreates(d, source, target);
    assert d1.items[j] == d.items[j];
    var c := d.items[j].value.category;
    assert d1.categories[c] == d.categories[c];
  }

  /** With `--clear`, the target ends with exactly the source's category names: none of
      its earlier categories is left. */
  lemma ClearThenCopyCategories(d: DeliveryDb, source: nat, target: nat)
    requires source != target
    ensures var r := CopyDeliveryData(d, source, target, true);
      forall k: nat | IsCategoryOf(r.categories, k, target) ::
        exists j: nat :: IsCategoryOf(d.categories, j, source) && d.categories[j].value.name == r.categories[k].value.name
  {
    var c := ClearDelivery(d, target);
    var r := CopyDelivery(c, source, target);
    CopyIntoNoCategories(c, source, target);
    assert c.categories == DeleteWhere(d.categories, CategoryOfTenant(target));
    forall k: nat | IsCategoryOf(r.categories, k, target)
      ensures exists j: nat :: IsCategoryOf(d.categories, j, source) && d.categories[j].value.name == r.categories[k].value.name
    {
      var j: nat :| IsCategoryOf(c.categories, j, source) && c.categories[j].value.name == r.categories[k].value.name;
      assert c.categories[j] == d.categories[j];
    }
  }

  /** Copying into a target without categories leaves it with only categories named like
      the source's. */
  lemma CopyIntoNoCategories(c: DeliveryDb, source: nat, target: nat)
    requires forall k: nat | Has(c.categories, k) :: c.categories[k].value.tenant != target
    ensures var r := CopyDelivery(c, source, target);
      forall k: nat | IsCategoryOf(r.categories, k, target) ::
        exists j: nat :: IsCategoryOf(c.categories, j, source) && c.categories[j].value.name == r.categories[k].value.name
  {
    var r := CopyDelivery(c, source, target);
    CopyDeliveryCategoriesCreates(c, source, target);
    CopyDeliveryParts(c, source, target);
    forall k: nat | IsCategoryOf(r.categories, k, target)
      ensures exists j: nat :: IsCategoryOf(c.categories, j, source) && c.categories[j].value.name == r.categories[k].value.name
    {
      assert k >= |c.categories| by {
        assert forall i | 0 <= i < |c.categories| :: r.categories[i] == c.categories[i];
      }
    }
  }

  /** With `--clear`, every zone the target ends with is a copy of a source zone, with the
      source's fee. */
  lemma ClearThenCopyZones(d: DeliveryDb, source: nat, target: nat)
    requires source != target
    ensures var r := CopyDeliveryData(d, source, target, true);
      forall k: nat | Matches(r.zones, k, ZoneOfTenant(target)) ::
        exists j: nat :: Matches(d.zones, j, ZoneOfTenant(source))
                         && d.zones[j].value.neighborhood == r.zones[k].value.neighborhood
                         && d.zones[j].value.fee == r.zones[k].value.fee
  {
    var c := ClearDelivery(d, target);
    var src := RowsWhere(c.zones, ZoneOfTenant(source));
    var r := CopyDelivery(c, source, target);
    assert r.zones == CopyZones(c.zones, src, target);
    CopyZonesGrows(c.zones, src, target);
    forall k: nat | Matches(r.zones, k, ZoneOfTenant(target))
      ensures exists j: nat :: Matches(d.zones, j, ZoneOfTenant(source))
                               && d.zones[j].value.neighborhood == r.zones[k].value.neighborhood
                               && d.zones[j].value.fee == r.zones[k].value.fee
    {
      var z :| z in src && r.zones[k].value == DeliveryZone(target, z.neighborhood, z.fee);
      RowsWhereMember(c.zones, ZoneOfTenant(source), z);
      var j: nat :| Matches(c.zones, j, ZoneOfTenant(source)) && c.zones[j].value == z;
      assert c.zones[j] == d.zones[j];
    }
  }

  // ----- the bar app -----

  function BarCategoryOfTenant(tenant: nat): Bar.BarCategory -> bool {
    (c: Bar.BarCategory) => c.tenant == tenant
  }

  function BarItemOfTenant(tenant: nat): Bar.BarMenuItem -> bool {
    (i: Bar.BarMenuItem) => i.tenant == tenant
  }

  /** The menu items `--clear` deletes: the target's own, and (by the cascade of the
      category delete) any item in one of the target's categories. */
  function BarItemCleared(b: Bar.BarDb, target: nat): Bar.BarMenuItem -> bool {
    (i: Bar.BarMenuItem) => i.tenant == target || Matches(b.categories, i.category, BarCategoryOfTenant(target))
  }

  /** A tab's line survives when its menu item does. */
  function LineKept(b: Bar.BarDb, target: nat): Bar.ComandaItem -> bool {
    (l: Bar.ComandaItem) => !Matches(b.menu, l.item, BarItemCleared(b, target))
  }

  function SameLine(l: Bar.ComandaItem): Bar.ComandaItem {
    l
  }

  /** `--clear` for the bar app: the target's menu items and categories are deleted. The
      deletes cascade to the lines, in any tab, of a deleted item; the tabs' stored totals
      are not recomputed. */
  function ClearBar(b: Bar.BarDb, target: nat): (r: Bar.BarDb)
    ensures |r.categories| == |b.categories| && |r.menu| == |b.menu| && |r.comandas| == |b.comandas|
    ensures forall k: nat | Has(r.categories, k) :: r.categories[k].value.tenant != target
    ensures forall k: nat | Has(r.menu, k) :: r.menu[k].value.tenant != target
    ensures forall k | 0 <= k < |b.categories| && b.categories[k].Some? && b.categories[k].value.tenant != target ::
      r.categories[k] == b.categories[k]
    ensures forall k | 0 <= k < |b.menu| ::
      && (r.menu[k].None? <==> b.menu[k].None? || BarItemCleared(b, target)(b.menu[k].value))
      && (r.menu[k].Some? ==> r.menu[k] == b.menu[k])
    ensures forall k | 0 <= k < |b.comandas| :: r.comandas[k].Some? == b.comandas[k].Some?
    ensures forall k | 0 <= k < |b.comandas| && b.comandas[k].Some? ::
      && r.comandas[k].value.(itens := b.comandas[k].value.itens) == b.comandas[k].value
      && (forall l | l in r.comandas[k].value.itens :: l in b.comandas[k].value.itens && LineKept(b, target)(l))
      && (forall l | l in b.comandas[k].value.itens && LineKept(b, target)(l) :: l in r.comandas[k].value.itens)
    ensures r.nextItem == b.nextItem
  {
    var keep := LineKept(b, target);
    var r := Bar.BarDb(
      DeleteWhere(b.categories, BarCategoryOfTenant(target)),
      DeleteWhere(b.menu, BarItemCleared(b, target)),
      seq(|b.comandas|, k requires 0 <= k < |b.comandas| =>
        if b.comandas[k].Some?
        then Some(b.comandas[k].value.(itens := Copies(b.comandas[k].value.itens, keep, SameLine)))
        else None),
      b.nextItem);
    forall k | 0 <= k < |b.comandas| && b.comandas[k].Some?
      ensures forall l | l in r.comandas[k].value.itens :: l in b.comandas[k].value.itens && keep(l)
      ensures forall l | l in b.comandas[k].value.itens && keep(l) :: l in r.comandas[k].value.itens
    {
      var itens := b.comandas[k].value.itens;
      CopiesComplete(itens, keep, SameLine);
      forall l | l in r.comandas[k].value.itens ensures l in itens && keep(l) {
        var j :| 0 <= j < |r.comandas[k].value.itens| && r.comandas[k].value.itens[j] == l;
        CopiesAt(itens, keep, SameLine, j);
        var x :| x in itens && keep(x) && r.comandas[k].value.itens[j] == SameLine(x);
      }
    }
    r
  }

  /** `--clear` leaves every tab's stored total as it was, even when lines were removed. */
  lemma ClearBarKeepsTotals(b: Bar.BarDb, target: nat, k: nat)
    requires Has(b.comandas, k)
    ensures Has(ClearBar(b, target).comandas, k)
    ensures ClearBar(b, target).comandas[k].value.total == b.comandas[k].value.total
  {
  }

  /** So a tab that was consistent can be left with a total that no longer matches its
      lines: a tab on the target's only item, worth 10.00, keeps its total of 10.00
      while its lines are gone. */
  lemma ClearBarStaleExample()
    ensures var cat := Bar.BarCategory(1, "Cervejas");
      var item := Bar.BarMenuItem(1, 0, "Chopp", 1000, true);
      var line := Bar.ComandaItem(0, 0, 1, 1000, 1000, "");
      var tab := Bar.Comanda(1, 3, Bar.Aberta, 10000, false, [line]);
      var b := Bar.BarDb([Some(cat)], [Some(item)], [Some(tab)], 1);
      var c := ClearBar(b, 1);
      && Bar.ComandaValid(tab, 1)
      && c.comandas[0].value.itens == []
      && c.comandas[0].value.total == 10000
      && !Bar.ComandaValid(c.comandas[0].value, 1)
  {
    var cat := Bar.BarCategory(1, "Cervejas");
    var item := Bar.BarMenuItem(1, 0, "Chopp", 1000, true);
    var line := Bar.ComandaItem(0, 0, 1, 1000, 1000, "");
    var tab := Bar.Comanda(1, 3, Bar.Aberta, 10000, false, [line]);
    var b := Bar.BarDb([Some(cat)], [Some(item)], [Some(tab)], 1);
    assert Bar.Base([line]) == 1000 by {
      assert [line][..0] == [];
    }
    var c := ClearBar(b, 1);
    assert !LineKept(b, 1)(line);
    assert c.comandas[0].value.itens == [];
    assert Bar.CalcularTotal(c.comandas[0].value) == 0;
  }

  function BarCategoryRequests(cats: Table<Bar.BarCategory>, src: seq<nat>, target: nat): (r: seq<Bar.BarCategory>)
    requires AllLive(cats, src)
    ensures |r| == |src|
    ensures forall i | 0 <= i < |src| :: Has(cats, src[i]) && r[i] == Bar.BarCategory(target, cats[src[i]].value.name)
  {
    seq(|src|, i requires 0 <= i < |src| => assert src[i] in src; Bar.BarCategory(target, cats[src[i]].value.name))
  }

  /** Bar step 1: the target's category of the same name for each source category,
      created when missing. */
  function CopyBarCategories(b: Bar.BarDb, source: nat, target: nat): (r: (Table<Bar.BarCategory>, map<nat, nat>)) {
    var src := Where(b.categories, BarCategoryOfTenant(source));
    GetOrCreateEach(b.categories, src, BarCategoryRequests(b.categories, src, target), map[])
  }

  function BarItemMapped(m: map<nat, nat>): Bar.BarMenuItem -> bool {
    (i: Bar.BarMenuItem) => i.category in m
  }

  function CopiedBarItem(m: map<nat, nat>, target: nat): Bar.BarMenuItem -> Bar.BarMenuItem {
    (i: Bar.BarMenuItem) => Bar.BarMenuItem(target, Remap(m, i.category), i.name, i.price, i.isAvailable)
  }

  /** Bar step 2: a copy of each source item whose category was copied. */
  function CopyBarItemsTable(b: Bar.BarDb, m: map<nat, nat>, source: nat, target: nat): Table<Bar.BarMenuItem> {
    InsertAll(b.menu, Copies(RowsWhere(b.menu, BarItemOfTenant(source)), BarItemMapped(m), CopiedBarItem(m, target)))
  }

  /** `_copy_bar_data` without `--clear`: categories, then items; tabs are not touched. */
  function CopyBar(b: Bar.BarDb, source: nat, target: nat): (r: Bar.BarDb)
    ensures r.comandas == b.comandas && r.nextItem == b.nextItem
  {
    var (cats, m) := CopyBarCategories(b, source, target);
    b.(categories := cats, menu := CopyBarItemsTable(b, m, source, target))
  }

  lemma CopyBarParts(b: Bar.BarDb, source: nat, target: nat)
    ensures var (cats, m) := CopyBarCategories(b, source, target);
      var r := CopyBar(b, source, target);
      r.categories == cats && r.menu == CopyBarItemsTable(b, m, source, target)
  {
  }

  /** `_copy_bar_data`. */
  function CopyBarData(b: Bar.BarDb, source: nat, target: nat, clear: bool): (r: Bar.BarDb)
    ensures r.nextItem == b.nextItem
    ensures !clear ==> r.comandas == b.comandas
    ensures |r.comandas| == |b.comandas|
    ensures forall k | 0 <= k < |b.comandas| && b.comandas[k].Some? ::
      r.comandas[k].Some? && r.comandas[k].value.total == b.comandas[k].value.total
  {
    CopyBar(if clear then ClearBar(b, target) else b, source, target)
  }

  predicate IsBarCategoryOf(cats: Table<Bar.BarCategory>, k: nat, tenant: nat) {
    Matches(cats, k, BarCategoryOfTenant(tenant))
  }

  /** Bar category step: every source category is mapped. */
  lemma CopyBarCategoriesMapsAll(b: Bar.BarDb, source: nat, target: nat)
    ensures var m := CopyBarCategories(b, source, target).1;
      forall k: nat | IsBarCategoryOf(b.categories, k, source) :: k in m
  {
    var src := Where(b.categories, BarCategoryOfTenant(source));
    GetOrCreateEachMaps(b.categories, src, BarCategoryRequests(b.categories, src, target), map[]);
    forall k: nat | IsBarCategoryOf(b.categories, k, source) ensures k in src {
    }
  }

  /** Bar category step: only source categories are mapped, each to the target's
      category of the same name. */
  lemma CopyBarCategoriesMapsByName(b: Bar.BarDb, source: nat, target: nat)
    ensures var (cats, m) := CopyBarCategories(b, source, target);
      forall k | k in m :: IsBarCategoryOf(b.categories, k, source) && Has(cats, m[k])
                           && cats[m[k]].value == Bar.BarCategory(target, b.categories[k].value.name)
  {
    var src := Where(b.categories, BarCategoryOfTenant(source));
    var rows := BarCategoryRequests(b.categories, src, target);
    var (cats, m) := CopyBarCategories(b, source, target);
    forall k | k in m
      ensures IsBarCategoryOf(b.categories, k, source) && Has(cats, m[k])
      ensures cats[m[k]].value == Bar.BarCategory(target, b.categories[k].value.name)
    {
      GetOrCreateEachKey(b.categories, src, rows, k);
      var i :| 0 <= i < |src| && src[i] == k && Has(cats, m[k]) && cats[m[k]].value == rows[i];
    }
  }

  /** Bar category step: existing categories are kept, and a category is created only
      for a source name the target did not have. */
  lemma CopyBarCategoriesCreates(b: Bar.BarDb, source: nat, target: nat)
    ensures var cats := CopyBarCategories(b, source, target).0;
      && Extends(b.categories, cats)
      && forall k | |b.categories| <= k < |cats| ::
            && cats[k].Some? && cats[k].value.tenant == target && !Present(b.categories, cats[k].value)
            && exists j: nat :: IsBarCategoryOf(b.categories, j, source) && b.categories[j].value.name == cats[k].value.name
  {
    BarCategoriesCreated(b.categories, source, target);
  }

  lemma BarCategoriesCreated(t: Table<Bar.BarCategory>, source: nat, target: nat)
    ensures var src := Where(t, BarCategoryOfTenant(source));
      var cats := GetOrCreateEach(t, src, BarCategoryRequests(t, src, target), map[]).0;
      && Extends(t, cats)
      && forall k | |t| <= k < |cats| ::
            && cats[k].Some? && cats[k].value.tenant == target && !Present(t, cats[k].value)
            && exists j: nat :: IsBarCategoryOf(t, j, source) && t[j].value.name == cats[k].value.name
  {
    var src := Where(t, BarCategoryOfTenant(source));
    var rows := BarCategoryRequests(t, src, target);
    var cats := GetOrCreateEach(t, src, rows, map[]).0;
    GetOrCreateEachGrows(t, src, rows, map[]);
    forall k | |t| <= k < |cats|
      ensures cats[k].Some? && cats[k].value.tenant == target && !Present(t, cats[k].value)
      ensures exists j: nat :: IsBarCategoryOf(t, j, source) && t[j].value.name == cats[k].value.name
    {
      GetOrCreateEachNew(t, src, rows, map[], k);
      var i :| 0 <= i < |rows| && rows[i] == cats[k].value;
      assert IsBarCategoryOf(t, src[i], source);
    }
  }

  /** Bar category step: category names stay unique per tenant. */
  lemma CopyBarCategoriesUnique(b: Bar.BarDb, source: nat, target: nat)
    requires Bar.BarCategoryNamesUnique(b.categories)
    ensures Bar.BarCategoryNamesUnique(CopyBarCategories(b, source, target).0)
  {
    var src := Where(b.categories, BarCategoryOfTenant(source));
    GetOrCreateEachDistinct(b.categories, src, BarCategoryRequests(b.categories, src, target), map[]);
  }

  /** `copy` is the target's copy of the source bar item `x`. */
  predicate BarItemCopyOf(copy: Bar.BarMenuItem, x: Bar.BarMenuItem, srcCats: Table<Bar.BarCategory>,
                          cats: Table<Bar.BarCategory>, target: nat) {
    && copy.tenant == target && copy.name == x.name && copy.price == x.price && copy.isAvailable == x.isAvailable
    && Has(srcCats, x.category) && Has(cats, copy.category)
    && cats[copy.category].value == Bar.BarCategory(target, srcCats[x.category].value.name)
  }

  /** Bar item step, soundness: existing items are kept, and every one created is the target's
      copy of a source item whose category is one of the source's categories. */
  lemma CopyBarItemsSound(b: Bar.BarDb, source: nat, target: nat)
    ensures var r := CopyBar(b, source, target);
      && Extends(b.menu, r.menu)
      && forall k | |b.menu| <= k < |r.menu| :: r.menu[k].Some? &&
            exists j: nat :: Matches(b.menu, j, BarItemOfTenant(source)) && IsBarCategoryOf(b.categories, b.menu[j].value.category, source)
                             && BarItemCopyOf(r.menu[k].value, b.menu[j].value, b.categories, r.categories, target)
  {
    var (cats, m) := CopyBarCategories(b, source, target);
    var rows := CopyBarItemsTable(b, m, source, target);
    CopyBarParts(b, source, target);
    CopyBarCategoriesMapsByName(b, source, target);
    forall k | |b.menu| <= k < |rows|
      ensures rows[k].Some?
      ensures exists j: nat :: Matches(b.menu, j, BarItemOfTenant(source)) && IsBarCategoryOf(b.categories, b.menu[j].value.category, source)
                               && BarItemCopyOf(rows[k].value, b.menu[j].value, b.categories, cats, target)
    {
      CopyRowsAt(b.menu, BarItemOfTenant(source), BarItemMapped(m), CopiedBarItem(m, target), k);
      var j: nat :| Matches(b.menu, j, BarItemOfTenant(source)) && BarItemMapped(m)(b.menu[j].value)
                    && rows[k].value == CopiedBarItem(m, target)(b.menu[j].value);
      assert BarItemCopyOf(rows[k].value, b.menu[j].value, b.categories, cats, target);
    }
  }

  /** Bar item step, completeness: every source item whose category is one of the source's
      categories has its copy among the items created. */
  lemma CopyBarItemsComplete(b: Bar.BarDb, source: nat, target: nat)
    ensures var r := CopyBar(b, source, target);
      forall j: nat | Matches(b.menu, j, BarItemOfTenant(source)) && IsBarCategoryOf(b.categories, b.menu[j].value.category, source) ::
        exists k | |b.menu| <= k < |r.menu| :: r.menu[k].Some? && BarItemCopyOf(r.menu[k].value, b.menu[j].value, b.categories, r.categories, target)
  {
    var (cats, m) := CopyBarCategories(b, source, target);
    var rows := CopyBarItemsTable(b, m, source, target);
    CopyBarParts(b, source, target);
    CopyBarCategoriesMapsAll(b, source, target);
    CopyBarCategoriesMapsByName(b, source, target);
    forall j: nat | Matches(b.menu, j, BarItemOfTenant(source)) && IsBarCategoryOf(b.categories, b.menu[j].value.category, source)
      ensures exists k | |b.menu| <= k < |rows| :: rows[k].Some? && BarItemCopyOf(rows[k].value, b.menu[j].value, b.categories, cats, target)
    {
      assert BarItemMapped(m)(b.menu[j].value);
      CopyRowsOf(b.menu, BarItemOfTenant(source), BarItemMapped(m), CopiedBarItem(m, target), j);
      var k :| |b.menu| <= k < |rows| && rows[k] == Some(CopiedBarItem(m, target)(b.menu[j].value));
      assert BarItemCopyOf(rows[k].value, b.menu[j].value, b.categories, cats, target);
    }
  }

  /** Running the bar copy again without `--clear` creates no category. */
  lemma RerunKeepsBarCategories(b: Bar.BarDb, source: nat, target: nat)
    ensures var b1 := CopyBar(b, source, target);
      CopyBar(b1, source, target).categories == b1.categories
  {
    var b1 := CopyBar(b, source, target);
    var (cats, m) := CopyBarCategories(b, source, target);
    assert b1.categories == cats;
    CopyBarCategoriesMapsAll(b, source, target);
    CopyBarCategoriesMapsByName(b, source, target);
    CopyBarCategoriesCreates(b, source, target);
    var src1 := Where(b1.categories, BarCategoryOfTenant(source));
    var rows1 := BarCategoryRequests(b1.categories, src1, target);
    forall i | 0 <= i < |rows1| ensures Present(b1.categories, rows1[i]) {
      var k := src1[i];
      if k < |b.categories| {
        assert b1.categories[k] == b.categories[k];
        assert IsBarCategoryOf(b.categories, k, source);
        assert Has(b1.categories, m[k]) && b1.categories[m[k]].value == rows1[i];
      } else {
        assert Has(b1.categories, k) && b1.categories[k].value == rows1[i];
      }
    }
    GetOrCreateEachPresent(b1.categories, src1, rows1, map[]);
  }

  /** ...but it copies the items again: each source item in a source category gets a
      second copy. */
  lemma RerunDuplicatesBarItems(b: Bar.BarDb, source: nat, target: nat, j: nat)
    requires Matches(b.menu, j, BarItemOfTenant(source)) && IsBarCategoryOf(b.categories, b.menu[j].value.category, source)
    ensures var b1 := CopyBar(b, source, target);
      |b.menu| < |b1.menu| < |CopyBar(b1, source, target).menu|
  {
    var b1 := CopyBar(b, source, target);
    CopyBarItemsSound(b, source, target);
    CopyBarItemsComplete(b, source, target);
    CopyBarCategoriesCreates(b, source, target);
    assert b1.menu[j] == b.menu[j];
    var c := b.menu[j].value.category;
    assert b1.categories[c] == b.categories[c];
    CopyBarItemsComplete(b1, source, target);
  }

  // ----- the command -----

  /** The `--app` option. */
  datatype AppChoice = DeliveryApp | BarApp | AllApps

  /** The option as given: absent means `all`; any other word is refused by the argument
      parser before the command runs. */
  function ParseApp(arg: Option<string>): (r: Option<AppChoice>)
    ensures arg.None? ==> r == Some(AllApps)
    ensures r == Some(DeliveryApp) <==> arg == Some("delivery")
    ensures r == Some(BarApp) <==> arg == Some("bar")
    ensures r == Some(AllApps) <==> arg.None? || arg == Some("all")
  {
    match arg
    case None => Some(AllApps)
    case Some(w) =>
      if w == "delivery" then Some(DeliveryApp)
      else if w == "bar" then Some(BarApp)
      else if w == "all" then Some(AllApps)
      else None
  }

  /** The menus the command works on. */
  datatype Menus = Menus(delivery: DeliveryDb, bar: Bar.BarDb)

  datatype HandleResult = Copied(menus: Menus) | SourceNotFound | TargetNotFound

  function SlugIs(slug: string): ShopModels.Tenant -> bool {
    (t: ShopModels.Tenant) => t.slug == slug
  }

  /** `Tenant.objects.get(slug=...)`: slugs are unique, so the first match is the only
      one. */
  function TenantWithSlug(tenants: Table<ShopModels.Tenant>, slug: string): (r: Option<nat>)
    ensures r.Some? ==> Has(tenants, r.value) && tenants[r.value].value.slug == slug
    ensures r.None? ==> forall k: nat | Has(tenants, k) :: tenants[k].value.slug != slug
  {
    var ids := Where(tenants, SlugIs(slug));
    if |ids| == 0 then None else Some(ids[0])
  }

  /** `handle`: both tenants must exist (the source is looked up first); then the chosen
      apps are copied, the delivery app before the bar app. */
  function Handle(tenants: Table<ShopModels.Tenant>, w: Menus, sourceSlug: string, targetSlug: string,
                  app: AppChoice, clear: bool): (r: HandleResult)
    ensures TenantWithSlug(tenants, sourceSlug).None? <==> r == SourceNotFound
    ensures r == TargetNotFound <==>
      TenantWithSlug(tenants, sourceSlug).Some? && TenantWithSlug(tenants, targetSlug).None?
    ensures r.Copied? ==> var s := TenantWithSlug(tenants, sourceSlug).value;
      var t := TenantWithSlug(tenants, targetSlug).value;
      && (app == BarApp ==> r.menus.delivery == w.delivery)
      && (app == DeliveryApp ==> r.menus.bar == w.bar)
      && (app != BarApp ==> r.menus.delivery == CopyDeliveryData(w.delivery, s, t, clear))
      && (app != DeliveryApp ==> r.menus.bar == CopyBarData(w.bar, s, t, clear))
  {
    match TenantWithSlug(tenants, sourceSlug)
    case None => SourceNotFound
    case Some(s) =>
      match TenantWithSlug(tenants, targetSlug)
      case None => TargetNotFound
      case Some(t) =>
        var delivery := if app == DeliveryApp || app == AllApps then CopyDeliveryData(w.delivery, s, t, clear) else w.delivery;
        var bar := if app == BarApp || app == AllApps then CopyBarData(w.bar, s, t, clear) else w.bar;
        Copied(Menus(delivery, bar))
  }
}

=== FILE: copying.dfy ===
/** Copying rows between tenants: `get_or_create` on a whole row, and bulk creation of
    copies, as the menu copy command does them for categories, items, optionals and
    combos. */
module Copying {
  import opened Wrappers
  import opened Tables

  /** A table has a live row equal to `row`. */
  ghost predicate Present<C>(t: Table<C>, row: C) {
    exists k: nat :: Has(t, k) && t[k].value == row
  }

  /** No two live rows are equal (a unique constraint over all the looked-up fields). */
  ghost predicate RowsDistinct<C>(t: Table<C>) {
    forall i: nat, j: nat | Has(t, i) && Has(t, j) && i != j :: t[i].value != t[j].value
  }

  function EqualTo<C(==)>(row: C): C -> bool {
    (c: C) => c == row
  }

  /** `get_or_create` of a row looked up on all its fields: the first equal row, or a new
      one. */
  function GetOrCreate<C(==)>(t: Table<C>, row: C): (r: (Table<C>, nat))
    ensures Has(r.0, r.1) && r.0[r.1].value == row
    ensures Present(t, row) ==> r.0 == t
    ensures !Present(t, row) ==> r == (Insert(t, row), |t|)
  {
    var ids := Where(t, EqualTo(row));
    if |ids| == 0 then (Insert(t, row), |t|)
    else
      assert Has(t, ids[0]) && EqualTo(row)(t[ids[0]].value);
      (t, ids[0])
  }

  /** `get_or_create` of `rows[i]` for each source id `src[i]` in turn, recording in the
      map which row each source id got. */
  function GetOrCreateEach<C(==)>(t: Table<C>, src: seq<nat>, rows: seq<C>, m: map<nat, nat>): (r: (Table<C>, map<nat, nat>))
    requires |src| == |rows|
    decreases |src|
  {
    if |src| == 0 then (t, m)
    else
      var (t2, k) := GetOrCreate(t, rows[0]);
      GetOrCreateEach(t2, src[1..], rows[1..], m[src[0] := k])
  }

  /** The rows created are appended; existing rows stay as they were. */
  ghost predicate Extends<C>(t: Table<C>, u: Table<C>) {
    |u| >= |t| && forall k | 0 <= k < |t| :: u[k] == t[k]
  }

  /** Getting-or-creating keeps the existing rows and creates a row only for a request
      that no existing row met. */
  lemma {:induction false} GetOrCreateEachGrows<C>(t: Table<C>, src: seq<nat>, rows: seq<C>, m: map<nat, nat>)
    requires |src| == |rows|
    ensures var u := GetOrCreateEach(t, src, rows, m).0;
      && Extends(t, u)
      && (forall k | |t| <= k < |u| :: u[k].Some? && !Present(t, u[k].value) && u[k].value in rows)
    decreases |src|
  {
    if |src| > 0 {
      var (t2, k) := GetOrCreate(t, rows[0]);
      GetOrCreateEachGrows(t2, src[1..], rows[1..], m[src[0] := k]);
      var u := GetOrCreateEach(t2, src[1..], rows[1..], m[src[0] := k]).0;
      assert forall x | x in rows[1..] :: x in rows;
    }
  }

  /** Every source id is mapped to a live row equal to the row requested for it; entries
      of the map for other ids are kept, and no other id is added. */
  lemma {:induction false} GetOrCreateEachMaps<C>(t: Table<C>, src: seq<nat>, rows: seq<C>, m: map<nat, nat>)
    requires |src| == |rows|
    requires forall a, b | 0 <= a < b < |src| :: src[a] < src[b]
    ensures var (u, m2) := GetOrCreateEach(t, src, rows, m);
      && (forall i | 0 <= i < |src| :: src[i] in m2 && Has(u, m2[src[i]]) && u[m2[src[i]]].value == rows[i])
      && (forall o | o in m && o !in src :: o in m2 && m2[o] == m[o])
      && (forall o | o in m2 :: o in m || o in src)
    decreases |src|
  {
    if |src| > 0 {
      var (t2, k) := GetOrCreate(t, rows[0]);
      var m1 := m[src[0] := k];
      GetOrCreateEachMaps(t2, src[1..], rows[1..], m1);
      GetOrCreateEachGrows(t2, src[1..], rows[1..], m1);
      var (u, m2) := GetOrCreateEach(t2, src[1..], rows[1..], m1);
      assert src[0] !in src[1..] by {
        forall j | 0 <= j < |src[1..]| ensures src[1..][j] != src[0] {
          assert src[1..][j] == src[j + 1];
        }
      }
      forall i | 0 <= i < |src| ensures src[i] in m2 && Has(u, m2[src[i]]) && u[m2[src[i]]].value == rows[i] {
        if i == 0 {
          assert m2[src[0]] == k && u[k] == t2[k];
        } else {
          assert src[i] == src[1..][i - 1] && rows[i] == rows[1..][i - 1];
        }
      }
      forall o | o in m && o !in src ensures o in m2 && m2[o] == m[o] {
        assert o != src[0] && o !in src[1..];
      }
      forall o | o in m2 ensures o in m || o in src {
        assert o in m1 || o in src[1..];
      }
    }
  }

  /** The id `src[i]` is mapped to a live row equal to the row requested for it. */
  lemma GetOrCreateEachAt<C>(t: Table<C>, src: seq<nat>, rows: seq<C>, i: nat)
    requires |src| == |rows|
    requires forall a, b | 0 <= a < b < |src| :: src[a] < src[b]
    requires i < |src|
    ensures var (u, m2) := GetOrCreateEach(t, src, rows, map[]);
      src[i] in m2 && Has(u, m2[src[i]]) && u[m2[src[i]]].value == rows[i]
  {
    GetOrCreateEachMaps(t, src, rows, map[]);
  }

  /** Starting from an empty map, an id is mapped only when it is one of `src`, and then
      to a live row equal to the row requested for it. */
  lemma GetOrCreateEachKey<C>(t: Table<C>, src: seq<nat>, rows: seq<C>, o: nat)
    requires |src| == |rows|
    requires forall a, b | 0 <= a < b < |src| :: src[a] < src[b]
    requires o in GetOrCreateEach(t, src, rows, map[]).1
    ensures var (u, m2) := GetOrCreateEach(t, src, rows, map[]);
      exists i | 0 <= i < |src| :: src[i] == o && Has(u, m2[o]) && u[m2[o]].value == rows[i]
  {
    GetOrCreateEachMaps(t, src, rows, map[]);
    var i :| 0 <= i < |src| && src[i] == o;
  }

  /** A row past the old rows was created for some request that no old row met. */
  lemma GetOrCreateEachNew<C>(t: Table<C>, src: seq<nat>, rows: seq<C>, m: map<nat, nat>, k: nat)
    requires |src| == |rows|
    requires |t| <= k < |GetOrCreateEach(t, src, rows, m).0|
    ensures var u := GetOrCreateEach(t, src, rows, m).0;
      u[k].Some? && !Present(t, u[k].value) && exists i | 0 <= i < |rows| :: rows[i] == u[k].value
  {
    GetOrCreateEachGrows(t, src, rows, m);
  }

  /** A table without duplicate rows gets none. */
  lemma {:induction false} GetOrCreateEachDistinct<C>(t: Table<C>, src: seq<nat>, rows: seq<C>, m: map<nat, nat>)
    requires |src| == |rows|
    requires RowsDistinct(t)
    ensures RowsDistinct(GetOrCreateEach(t, src, rows, m).0)
    decreases |src|
  {
    if |src| > 0 {
      var (t2, k) := GetOrCreate(t, rows[0]);
      assert RowsDistinct(t2);
      GetOrCreateEachDistinct(t2, src[1..], rows[1..], m[src[0] := k]);
    }
  }

  /** When every requested row is already present, nothing is created: running the copy a
      second time adds no rows. */
  lemma {:induction false} GetOrCreateEachPresent<C>(t: Table<C>, src: seq<nat>, rows: seq<C>, m: map<nat, nat>)
    requires |src| == |rows|
    requires forall i | 0 <= i < |rows| :: Present(t, rows[i])
    ensures GetOrCreateEach(t, src, rows, m).0 == t
    decreases |src|
  {
    if |src| > 0 {
      var (t2, k) := GetOrCreate(t, rows[0]);
      assert t2 == t;
      GetOrCreateEachPresent(t, src[1..], rows[1..], m[src[0] := k]);
    }
  }

  /** Every id of `src` is a live row of `t`. */
  predicate AllLive<T>(t: Table<T>, src: seq<nat>) {
    forall x | x in src :: Has(t, x)
  }

  /** The rows of a table made only of created rows. */
  function Fresh<T>(rows: seq<T>): (r: Table<T>)
    ensures |r| == |rows| && forall j | 0 <= j < |rows| :: r[j] == Some(rows[j])
  {
    seq(|rows|, j requires 0 <= j < |rows| => Some(rows[j]))
  }

  /** Creating each row of `rows` in turn. */
  function InsertAll<T>(t: Table<T>, rows: seq<T>): (r: Table<T>)
    ensures |r| == |t| + |rows|
    ensures Extends(t, r)
    ensures forall j | 0 <= j < |rows| :: r[|t| + j] == Some(rows[j])
  {
    t + Fresh(rows)
  }

  /** Creating `a` and then `b` is creating `a + b`. */
  lemma InsertAllConcat<T>(t: Table<T>, a: seq<T>, b: seq<T>)
    ensures InsertAll(InsertAll(t, a), b) == InsertAll(t, a + b)
  {
    assert Fresh(a + b) == Fresh(a) + Fresh(b);
  }

  /** Filtering created rows that all pass gives them back, in order. */
  lemma {:induction false} RowsWhereFresh<T>(rows: seq<T>, p: T -> bool)
    requires forall x | x in rows :: p(x)
    ensures RowsWhere(Fresh(rows), p) == rows
    decreases |rows|
  {
    if |rows| > 0 {
      var n := |rows| - 1;
      assert Fresh(rows)[..n] == Fresh(rows[..n]);
      assert forall x | x in rows[..n] :: x in rows;
      RowsWhereFresh(rows[..n], p);
      assert rows == rows[..n] + [rows[n]];
    }
  }

  /** Filtering created rows none of which passes gives nothing. */
  lemma {:induction false} RowsWhereFreshNone<T>(rows: seq<T>, p: T -> bool)
    requires forall x | x in rows :: !p(x)
    ensures RowsWhere(Fresh(rows), p) == []
    decreases |rows|
  {
    if |rows| > 0 {
      var n := |rows| - 1;
      assert Fresh(rows)[..n] == Fresh(rows[..n]);
      assert forall x | x in rows[..n] :: x in rows;
      RowsWhereFreshNone(rows[..n], p);
    }
  }

  /** The copies `copy(x)` of the source rows `x` that `keep` accepts, in order (a loop
      over a queryset that creates a copy of each row it can map). */
  function Copies<T, U>(src: seq<T>, keep: T -> bool, copy: T -> U): (r: seq<U>)
    ensures |r| <= |src|
    decreases |src|
  {
    if |src| == 0 then []
    else
      var rest := Copies(src[1..], keep, copy);
      if keep(src[0]) then [copy(src[0])] + rest else rest
  }

  /** `y` is the copy of an accepted row of `src`. */
  ghost predicate CopyOfSome<T, U>(y: U, src: seq<T>, keep: T -> bool, copy: T -> U) {
    exists x | x in src :: keep(x) && y == copy(x)
  }

  /** Every copy is the copy of an accepted source row. */
  lemma {:induction false} CopiesSound<T, U>(src: seq<T>, keep: T -> bool, copy: T -> U)
    ensures forall j | 0 <= j < |Copies(src, keep, copy)| :: CopyOfSome(Copies(src, keep, copy)[j], src, keep, copy)
    decreases |src|
  {
    if |src| > 0 {
      var rest := Copies(src[1..], keep, copy);
      var off := if keep(src[0]) then 1 else 0;
      CopiesSound(src[1..], keep, copy);
      assert Copies(src, keep, copy) == if keep(src[0]) then [copy(src[0])] + rest else rest;
      forall j | 0 <= j < |Copies(src, keep, copy)| ensures CopyOfSome(Copies(src, keep, copy)[j], src, keep, copy) {
        if keep(src[0]) && j == 0 {
          assert src[0] in src && keep(src[0]) && Copies(src, keep, copy)[j] == copy(src[0]);
        } else {
          assert Copies(src, keep, copy)[j] == rest[j - off];
          assert CopyOfSome(rest[j - off], src[1..], keep, copy);
          var x :| x in src[1..] && keep(x) && rest[j - off] == copy(x);
          assert x in src;
        }
      }
    }
  }

  /** Every accepted source row has its copy. */
  lemma {:induction false} CopiesComplete<T, U>(src: seq<T>, keep: T -> bool, copy: T -> U)
    ensures forall x | x in src && keep(x) :: copy(x) in Copies(src, keep, copy)
    decreases |src|
  {
    if |src| > 0 {
      CopiesComplete(src[1..], keep, copy);
      assert src == [src[0]] + src[1..];
      forall x | x in src && keep(x) ensures copy(x) in Copies(src, keep, copy) {
        if x != src[0] {
          assert x in src[1..];
        }
      }
    }
  }

  /** The `j`-th copy is the copy of an accepted source row. */
  lemma CopiesAt<T, U>(src: seq<T>, keep: T -> bool, copy: T -> U, j: nat)
    requires j < |Copies(src, keep, copy)|
    ensures exists x | x in src :: keep(x) && Copies(src, keep, copy)[j] == copy(x)
  {
    CopiesSound(src, keep, copy);
    assert CopyOfSome(Copies(src, keep, copy)[j], src, keep, copy);
  }

  /** The number of copies is the number of accepted source rows. */
  function CountKept<T>(src: seq<T>, keep: T -> bool): nat
    decreases |src|
  {
    if |src| == 0 then 0 else (if keep(src[0]) then 1 else 0) + CountKept(src[1..], keep)
  }

  lemma {:induction false} CopiesCount<T, U>(src: seq<T>, keep: T -> bool, copy: T -> U)
    ensures |Copies(src, keep, copy)| == CountKept(src, keep)
    ensures (forall x | x in src :: keep(x)) ==> |Copies(src, keep, copy)| == |src|
    decreases |src|
  {
    if |src| > 0 {
      CopiesCount(src[1..], keep, copy);
      assert forall x | x in src[1..] :: x in src;
    }
  }

  /** A row created past the old rows is the copy of a live row of `t` that satisfies
      `p` and `keep`. */
  lemma CopyRowsAt<T>(t: Table<T>, p: T -> bool, keep: T -> bool, copy: T -> T, k: nat)
    requires |t| <= k < |InsertAll(t, Copies(RowsWhere(t, p), keep, copy))|
    ensures var u := InsertAll(t, Copies(RowsWhere(t, p), keep, copy));
      u[k].Some? && exists j: nat :: Matches(t, j, p) && keep(t[j].value) && u[k].value == copy(t[j].value)
  {
    var src := RowsWhere(t, p);
    var rows := Copies(src, keep, copy);
    CopiesAt(src, keep, copy, k - |t|);
    assert InsertAll(t, rows)[k] == Some(rows[k - |t|]);
    var x :| x in src && keep(x) && rows[k - |t|] == copy(x);
    RowsWhereMember(t, p, x);
  }

  /** Every live row of `t` that satisfies `p` and `keep` has its copy past the old rows. */
  lemma CopyRowsOf<T>(t: Table<T>, p: T -> bool, keep: T -> bool, copy: T -> T, j: nat)
    requires Matches(t, j, p) && keep(t[j].value)
    ensures exists k | |t| <= k < |InsertAll(t, Copies(RowsWhere(t, p), keep, copy))| ::
      InsertAll(t, Copies(RowsWhere(t, p), keep, copy))[k] == Some(copy(t[j].value))
  {
    var rows := Copies(RowsWhere(t, p), keep, copy);
    RowsWhereHas(t, p, j);
    CopiesComplete(RowsWhere(t, p), keep, copy);
    var i :| 0 <= i < |rows| && rows[i] == copy(t[j].value);
    var u := InsertAll(t, rows);
    assert |t| <= |t| + i < |u| && u[|t| + i] == Some(copy(t[j].value));
  }
}

=== FILE: delivery_cart.dfy ===
/** The delivery session cart: an insertion-ordered dictionary from cart keys to counts.
    A key is `item_<id>` optionally followed by `_<optional id>` pieces, or
    `combo_<id>` optionally followed by `_<chosen item id>` pieces. */
module DeliveryCart {
  import opened Wrappers
  import opened Text

  datatype Entry = Entry(key: string, count: nat)

  /** The dictionary as its entries in insertion order. */
  type SessionCart = seq<Entry>

  predicate KeysDistinct(c: SessionCart) {
    forall i, j | 0 <= i < j < |c| :: c[i].key != c[j].key
  }

  /** The position of `key`, if present. */
  function Find(c: SessionCart, key: string): (r: Option<nat>)
    ensures r.Some? ==> r.value < |c| && c[r.value].key == key
    ensures r.Some? ==> forall i | 0 <= i < r.value :: c[i].key != key
    ensures r.None? ==> forall i | 0 <= i < |c| :: c[i].key != key
    decreases |c|
  {
    if |c| == 0 then None
    else if c[0].key == key then Some(0)
    else match Find(c[1..], key)
      case Some(i) => Some(i + 1)
      case None => None
  }

  /** `cart.get(key, 0)`. */
  function Count(c: SessionCart, key: string): nat {
    match Find(c, key)
    case Some(i) => c[i].count
    case None => 0
  }

  /** `cart[key] = cart.get(key, 0) + 1`: an existing key keeps its place, a new one goes
      at the end. */
  function Bump(c: SessionCart, key: string): (r: SessionCart)
    ensures |c| <= |r| <= |c| + 1
    ensures forall i | 0 <= i < |c| :: r[i].key == c[i].key
    ensures |r| == |c| + 1 ==> r[|c|] == Entry(key, 1)
    ensures KeysDistinct(c) ==> KeysDistinct(r)
    ensures forall i | 0 <= i < |r| :: r[i].key == key || r[i] == c[i]
  {
    match Find(c, key)
    case Some(i) => c[i := Entry(key, c[i].count + 1)]
    case None => c + [Entry(key, 1)]
  }

  /** Bumping a key adds one to its count and leaves every other count as it was. */
  lemma BumpCounts(c: SessionCart, key: string)
    ensures forall k :: Count(Bump(c, key), k) == Count(c, k) + (if k == key then 1 else 0)
  {
    var r := Bump(c, key);
    forall k ensures Count(r, k) == Count(c, k) + (if k == key then 1 else 0) {
      if Find(c, key).None? {
        assert Find(r, k) == (if k == key then Some(|c|) else Find(c, k)) by {
          FindAppend(c, Entry(key, 1), k);
        }
      } else {
        FindSameKeys(c, r, k);
      }
    }
  }

  lemma {:induction false} FindAppend(c: SessionCart, e: Entry, k: string)
    requires forall i | 0 <= i < |c| :: c[i].key != e.key
    ensures Find(c + [e], k) == (if k == e.key then Some(|c|) else Find(c, k))
    decreases |c|
  {
    if |c| > 0 {
      assert (c + [e])[1..] == c[1..] + [e];
      FindAppend(c[1..], e, k);
    }
  }

  /** Only the keys decide where a key is found. */
  lemma {:induction false} FindSameKeys(c: SessionCart, d: SessionCart, k: string)
    requires |c| == |d| && forall i | 0 <= i < |c| :: c[i].key == d[i].key
    ensures Find(c, k) == Find(d, k)
    decreases |c|
  {
    if |c| > 0 {
      FindSameKeys(c[1..], d[1..], k);
    }
  }

  /** `del cart[key]` when the key is present; nothing otherwise. */
  function Remove(c: SessionCart, key: string): (r: SessionCart)
    ensures Find(c, key).None? ==> r == c
    ensures KeysDistinct(c) ==> KeysDistinct(r)
  {
    match Find(c, key)
    case Some(i) => c[..i] + c[i + 1..]
    case None => c
  }

  /** Removing a key drops its count to zero and leaves every other count as it was. */
  lemma RemoveCounts(c: SessionCart, key: string)
    requires KeysDistinct(c)
    ensures forall k :: Count(Remove(c, key), k) == (if k == key then 0 else Count(c, k))
  {
    match Find(c, key)
    case None =>
    case Some(i) =>
      forall k ensures Count(Remove(c, key), k) == (if k == key then 0 else Count(c, k)) {
        RemoveAtCount(c, i, k);
      }
  }

  /** The count of a key after dropping the entry at `i`. */
  lemma RemoveAtCount(c: SessionCart, i: nat, k: string)
    requires KeysDistinct(c) && i < |c|
    ensures Count(c[..i] + c[i + 1..], k) == (if k == c[i].key then 0 else Count(c, k))
  {
    var r := c[..i] + c[i + 1..];
    FindDistinct(c, i);
    assert Remove(c, c[i].key) == r;
    if k == c[i].key {
      forall m | 0 <= m < |r| ensures r[m].key != k {
        assert r[m] == c[if m < i then m else m + 1];
      }
    } else {
      match Find(c, k)
      case None =>
        forall m | 0 <= m < |r| ensures r[m].key != k {
          assert r[m] == c[if m < i then m else m + 1];
        }
      case Some(j) =>
        var m := if j < i then j else j - 1;
        assert r[m] == c[j];
        FindDistinct(r, m);
    }
  }

  /** With distinct keys, a key is found where it is. */
  lemma FindDistinct(c: SessionCart, j: nat)
    requires KeysDistinct(c) && j < |c|
    ensures Find(c, c[j].key) == Some(j)
  {
  }

  /** The number of units in the cart, shown on the floating cart icon: the sum of the
      counts. */
  function ItemCount(c: SessionCart): nat
    decreases |c|
  {
    if |c| == 0 then 0 else ItemCount(c[..|c| - 1]) + c[|c| - 1].count
  }

  lemma {:induction false} ItemCountConcat(a: SessionCart, b: SessionCart)
    ensures ItemCount(a + b) == ItemCount(a) + ItemCount(b)
    decreases |b|
  {
    if |b| == 0 {
      assert a + b == a;
    } else {
      var n := |b| - 1;
      assert (a + b)[..|a + b| - 1] == a + b[..n];
      ItemCountConcat(a, b[..n]);
    }
  }

  lemma ItemCountUpdate(c: SessionCart, i: nat, e: Entry)
    requires i < |c|
    ensures ItemCount(c[i := e]) == ItemCount(c) - c[i].count + e.count
  {
    assert c == c[..i] + [c[i]] + c[i + 1..];
    assert c[i := e] == c[..i] + [e] + c[i + 1..];
    ItemCountConcat(c[..i] + [c[i]], c[i + 1..]);
    ItemCountConcat(c[..i] + [e], c[i + 1..]);
    ItemCountConcat(c[..i], [c[i]]);
    ItemCountConcat(c[..i], [e]);
  }

  /** Every added unit shows on the icon: the count grows by exactly one. */
  lemma ItemCountBump(c: SessionCart, key: string)
    ensures ItemCount(Bump(c, key)) == ItemCount(c) + 1
  {
    match Find(c, key)
    case Some(i) => ItemCountUpdate(c, i, Entry(key, c[i].count + 1));
    case None => ItemCountConcat(c, [Entry(key, 1)]);
  }

  /** Removing a key takes its whole count off the icon. */
  lemma ItemCountRemove(c: SessionCart, key: string)
    ensures ItemCount(Remove(c, key)) == ItemCount(c) - Count(c, key)
  {
    match Find(c, key)
    case None =>
    case Some(i) =>
      assert c == c[..i] + [c[i]] + c[i + 1..];
      ItemCountConcat(c[..i] + [c[i]], c[i + 1..]);
      ItemCountConcat(c[..i], [c[i]]);
      ItemCountConcat(c[..i], c[i + 1..]);
  }

  /** The fields of the JSON body of an add request; blank when absent or empty. */
  datatype AddRequest = AddRequest(itemKey: string, itemId: string, itemType: string)

  /** The key an add request names: the ready-made `item_key`, or one built from the
      item's id and type; blank when there is none. */
  function RequestedKey(req: AddRequest): (key: string)
    ensures req.itemKey != "" ==> key == req.itemKey
    ensures req.itemKey == "" && req.itemId != "" && req.itemType == "item" ==> key == "item_" + req.itemId
    ensures req.itemKey == "" && req.itemId != "" && req.itemType == "combo" ==> key == "combo_" + req.itemId
    ensures req.itemKey == "" && (req.itemId == "" || (req.itemType != "item" && req.itemType != "combo"))
            ==> key == ""
  {
    if req.itemKey != "" then req.itemKey
    else if req.itemId != "" && req.itemType == "item" then "item_" + req.itemId
    else if req.itemId != "" && req.itemType == "combo" then "combo_" + req.itemId
    else ""
  }

  datatype AddReply = Added(cartTotalItems: nat) | StoreClosed | MissingKey | NotPost | BadBody

  /** `add_to_delivery_cart`. A closed store refuses before anything else; a request
      that is not a POST is refused; a body that is not a JSON object makes the view
      fail; a request without a key is refused. */
  function AddToDeliveryCart(c: SessionCart, isOpen: bool, isPost: bool, body: Option<AddRequest>)
    : (r: (SessionCart, AddReply))
    ensures !r.1.Added? ==> r.0 == c
    ensures !isOpen ==> r.1 == StoreClosed
    ensures r.1.Added? ==> r.1.cartTotalItems == ItemCount(r.0)
  {
    if !isOpen then (c, StoreClosed)
    else if !isPost then (c, NotPost)
    else match body
      case None => (c, BadBody)
      case Some(req) =>
        var key := RequestedKey(req);
        if key == "" then (c, MissingKey)
        else
          var c1 := Bump(c, key);
          (c1, Added(ItemCount(c1)))
  }

  /** An accepted add raises the named key's count by exactly one, leaves every other
      key's count and the order of the keys as they were, and reports the new total. */
  lemma AddToDeliveryCartEffect(c: SessionCart, req: AddRequest)
    requires RequestedKey(req) != ""
    ensures var (d, reply) := AddToDeliveryCart(c, true, true, Some(req));
      var key := RequestedKey(req);
      && reply == Added(ItemCount(c) + 1)
      && Count(d, key) == Count(c, key) + 1
      && (forall k | k != key :: Count(d, k) == Count(c, k))
      && (forall i | 0 <= i < |c| :: d[i].key == c[i].key)
  {
    BumpCounts(c, RequestedKey(req));
    ItemCountBump(c, RequestedKey(req));
  }

  /** `remove_from_delivery_cart`. */
  function RemoveFromDeliveryCart(c: SessionCart, key: string): (r: SessionCart)
    ensures Find(c, key).None? ==> r == c
  {
    Remove(c, key)
  }

  /** The texts of a run of ids. */
  function IdTexts(ids: seq<nat>): (r: seq<string>)
    ensures |r| == |ids| && forall i | 0 <= i < |ids| :: r[i] == NatToString(ids[i])
  {
    seq(|ids|, i requires 0 <= i < |ids| => NatToString(ids[i]))
  }

  /** `item_<id>_<optional>...`, as the menu page builds it. */
  function ItemKey(id: nat, optionals: seq<nat>): string {
    Join(["item", NatToString(id)] + IdTexts(optionals), '_')
  }

  /** `combo_<id>_<choice>...`, as the menu page builds it. */
  function ComboKey(id: nat, choices: seq<nat>): string {
    Join(["combo", NatToString(id)] + IdTexts(choices), '_')
  }

  lemma NoSeparatorInIds(ids: seq<nat>)
    ensures forall i | 0 <= i < |ids| :: '_' !in NatToString(ids[i])
  {
    forall i | 0 <= i < |ids| ensures '_' !in NatToString(ids[i]) {
      var s := NatToString(ids[i]);
      assert forall j | 0 <= j < |s| :: IsDigit(s[j]);
    }
  }

  /** Splitting a well-formed key at `_` recovers its type, its id and its extra ids. */
  lemma SplitKey(kind: string, id: nat, extra: seq<nat>)
    requires '_' !in kind
    ensures Split(Join([kind, NatToString(id)] + IdTexts(extra), '_'), '_')
         == [kind, NatToString(id)] + IdTexts(extra)
  {
    var parts := [kind, NatToString(id)] + IdTexts(extra);
    NoSeparatorInIds([id] + extra);
    assert forall i | 1 <= i < |parts| :: parts[i] == NatToString(([id] + extra)[i - 1]);
    SplitJoin(parts, '_');
  }

  /** The key built from an item request is the item key without optionals. */
  lemma RequestedItemKey(id: nat)
    ensures RequestedKey(AddRequest("", NatToString(id), "item")) == ItemKey(id, [])
    ensures RequestedKey(AddRequest("", NatToString(id), "combo")) == ComboKey(id, [])
  {
    PlainKey("item", id);
    PlainKey("combo", id);
  }

  /** A key without optionals or choices is the kind, an underscore and the id. */
  lemma PlainKey(kind: string, id: nat)
    ensures Join([kind, NatToString(id)] + IdTexts([]), '_') == kind + "_" + NatToString(id)
  {
    var t := NatToString(id);
    assert [kind, t] + IdTexts([]) == [kind, t];
    assert [kind, t][1..] == [t];
  }
}

=== FILE: delivery_checkout.dfy ===
/** The delivery checkout (`delivery_checkout_view`) and `repeat_order`.

    Checkout reads every key of the session cart, prices what it can resolve in the
    tenant's menu and skips the rest; a key whose ids are not numbers makes the view
    fail. A valid order form then creates the order and one bought line per priced key,
    each remembering its key, and empties the cart. Repeating an order rebuilds the
    cart from those keys. */
module DeliveryCheckout {
  import opened Wrappers
  import opened Text
  import opened Tables
  import opened DeliveryModels
  import opened DeliveryCart

  /** A priced cart key: the unit price is the item's price plus its optionals, or the
      combo's price. `optionals` are the tenant's optionals named in the key, in id
      order, each once; `choices` are the tenant's items named in a combo key, in key
      order, unknown ones dropped. */
  datatype Line = Line(key: string, name: string, quantity: nat, unitPrice: int, isCombo: bool,
                       optionals: seq<nat>, choices: seq<nat>)

  function Subtotal(l: Line): int {
    l.unitPrice * l.quantity
  }

  datatype Priced = Skipped | Priced(line: Line) | Failed

  /** Reading every piece as a primary key; one bad piece fails the whole lookup. */
  function ParseIds(parts: seq<string>): (r: Option<seq<nat>>)
    ensures r.Some? <==> forall i | 0 <= i < |parts| :: ParseNat(parts[i]).Some?
    ensures r.Some? ==> |r.value| == |parts| && forall i | 0 <= i < |parts| :: ParseNat(parts[i]) == Some(r.value[i])
    decreases |parts|
  {
    if |parts| == 0 then Some([])
    else match (ParseNat(parts[0]), ParseIds(parts[1..]))
      case (Some(n), Some(rest)) => Some([n] + rest)
      case _ => None
  }

  lemma ParseIdTexts(ids: seq<nat>)
    ensures ParseIds(IdTexts(ids)) == Some(ids)
  {
    forall i | 0 <= i < |ids| ensures ParseNat(IdTexts(ids)[i]) == Some(ids[i]) {
      ParseNatToString(ids[i]);
    }
    var r := ParseIds(IdTexts(ids)).value;
    assert r == ids;
  }

  predicate OwnedOptional(optionals: Table<DeliveryOptional>, tenant: nat, k: nat) {
    Has(optionals, k) && optionals[k].value.tenant == tenant
  }

  /** `DeliveryOptional.objects.filter(id__in=ids, tenant=tenant)` over the first `n`
      rows: the tenant's optionals whose id is listed, in id order. */
  function SelectedOptionals(optionals: Table<DeliveryOptional>, tenant: nat, ids: seq<nat>, n: nat): seq<nat>
    decreases n
  {
    if n == 0 then []
    else
      var front := SelectedOptionals(optionals, tenant, ids, n - 1);
      front + (if OwnedOptional(optionals, tenant, n - 1) && n - 1 in ids then [n - 1] else [])
  }

  /** The selection holds exactly the tenant's optionals named by the ids, each once, in
      id order. */
  lemma {:induction false} SelectedOptionalsMembers(optionals: Table<DeliveryOptional>, tenant: nat, ids: seq<nat>, n: nat)
    ensures var r := SelectedOptionals(optionals, tenant, ids, n);
      && (forall i | 0 <= i < |r| :: r[i] < n && OwnedOptional(optionals, tenant, r[i]) && r[i] in ids)
      && (forall k: nat | k < n && OwnedOptional(optionals, tenant, k) && k in ids :: k in r)
      && (forall i, j | 0 <= i < j < |r| :: r[i] < r[j])
    decreases n
  {
    if n > 0 {
      SelectedOptionalsMembers(optionals, tenant, ids, n - 1);
      SelectedStep(optionals, tenant, ids, n, SelectedOptionals(optionals, tenant, ids, n - 1));
    }
  }

  /** One step of `SelectedOptionalsMembers`: from the ids below `n - 1` to those below `n`. */
  lemma SelectedStep(optionals: Table<DeliveryOptional>, tenant: nat, ids: seq<nat>, n: nat, front: seq<nat>)
    requires n > 0
    requires forall i | 0 <= i < |front| :: front[i] < n - 1 && OwnedOptional(optionals, tenant, front[i]) && front[i] in ids
    requires forall k: nat | k < n - 1 && OwnedOptional(optionals, tenant, k) && k in ids :: k in front
    requires forall i, j | 0 <= i < j < |front| :: front[i] < front[j]
    ensures var r := front + (if OwnedOptional(optionals, tenant, n - 1) && n - 1 in ids then [n - 1] else []);
      && (forall i | 0 <= i < |r| :: r[i] < n && OwnedOptional(optionals, tenant, r[i]) && r[i] in ids)
      && (forall k: nat | k < n && OwnedOptional(optionals, tenant, k) && k in ids :: k in r)
      && (forall i, j | 0 <= i < j < |r| :: r[i] < r[j])
  {
    if OwnedOptional(optionals, tenant, n - 1) && n - 1 in ids {
      var r := front + [n - 1];
      assert forall i | 0 <= i < |front| :: r[i] == front[i];
      assert r[|front|] == n - 1;
    }
  }

  function OptionalPrice(optionals: Table<DeliveryOptional>, k: nat): int {
    if Has(optionals, k) then optionals[k].value.price else 0
  }

  /** `sum(opt.price for opt in selected)`. */
  function OptionalsCost(optionals: Table<DeliveryOptional>, sel: seq<nat>): int
    decreases |sel|
  {
    if |sel| == 0 then 0
    else OptionalsCost(optionals, sel[..|sel| - 1]) + OptionalPrice(optionals, sel[|sel| - 1])
  }

  function CostOf(optionals: Table<DeliveryOptional>, tenant: nat, ids: seq<nat>): int {
    OptionalsCost(optionals, SelectedOptionals(optionals, tenant, ids, |optionals|))
  }

  /** Naming one more optional adds its price when it is the tenant's and not yet named,
      and adds nothing when it is named already or is not one of the tenant's. */
  lemma {:induction false} CostAddOne(optionals: Table<DeliveryOptional>, tenant: nat, ids: seq<nat>, x: nat, n: nat)
    requires n <= |optionals|
    ensures OptionalsCost(optionals, SelectedOptionals(optionals, tenant, ids + [x], n))
         == OptionalsCost(optionals, SelectedOptionals(optionals, tenant, ids, n))
            + (if x < n && x !in ids && OwnedOptional(optionals, tenant, x) then OptionalPrice(optionals, x) else 0)
    decreases n
  {
    if n > 0 {
      var m := n - 1;
      CostAddOne(optionals, tenant, ids, x, m);
      var a := SelectedOptionals(optionals, tenant, ids + [x], m);
      var b := SelectedOptionals(optionals, tenant, ids, m);
      var own := OwnedOptional(optionals, tenant, m);
      var ta := if own && m in ids + [x] then [m] else [];
      var tb := if own && m in ids then [m] else [];
      assert SelectedOptionals(optionals, tenant, ids + [x], n) == a + ta;
      assert SelectedOptionals(optionals, tenant, ids, n) == b + tb;
      CostConcat(optionals, a, ta);
      CostConcat(optionals, b, tb);
      if m != x {
        assert (m in ids + [x]) == (m in ids);
      }
    }
  }

  lemma CostConcat(optionals: Table<DeliveryOptional>, a: seq<nat>, t: seq<nat>)
    requires |t| <= 1
    ensures OptionalsCost(optionals, a + t) == OptionalsCost(optionals, a) + (if |t| == 1 then OptionalPrice(optionals, t[0]) else 0)
  {
    if |t| == 1 {
      assert (a + t)[..|a + t| - 1] == a;
    } else {
      assert a + t == a;
    }
  }

  /** An item key without optionals costs nothing extra. */
  lemma CostOfNone(optionals: Table<DeliveryOptional>, tenant: nat)
    ensures CostOf(optionals, tenant, []) == 0
  {
    SelectedNone(optionals, tenant, |optionals|);
  }

  lemma {:induction false} SelectedNone(optionals: Table<DeliveryOptional>, tenant: nat, n: nat)
    requires n <= |optionals|
    ensures SelectedOptionals(optionals, tenant, [], n) == []
    decreases n
  {
    if n > 0 {
      SelectedNone(optionals, tenant, n - 1);
    }
  }

  /** The tenant's items named in a combo key, in key order; unknown ones dropped. */
  function KnownItems(items: Table<MenuItem>, tenant: nat, ids: seq<nat>): (r: seq<nat>)
    ensures forall i | 0 <= i < |r| :: Has(items, r[i]) && items[r[i]].value.tenant == tenant && r[i] in ids
    decreases |ids|
  {
    if |ids| == 0 then []
    else
      (if Has(items, ids[0]) && items[ids[0]].value.tenant == tenant then [ids[0]] else [])
      + KnownItems(items, tenant, ids[1..])
  }

  /** Pricing one session-cart entry. */
  function PriceEntry(db: DeliveryDb, tenant: nat, e: Entry): (r: Priced)
    ensures r.Priced? ==> r.line.key == e.key && r.line.quantity == e.count
    ensures r.Priced? ==> e.key != ""
  {
    var parts := Split(e.key, '_');
    if parts[0] == "item" then
      if |parts| < 2 then Skipped
      else match ParseNat(parts[1])
        case None => Failed
        case Some(id) =>
          if !(Has(db.items, id) && db.items[id].value.tenant == tenant) then Skipped
          else match ParseIds(parts[2..])
            case None => Failed
            case Some(optIds) =>
              var item := db.items[id].value;
              var sel := SelectedOptionals(db.optionals, tenant, optIds, |db.optionals|);
              Priced(Line(e.key, item.name, e.count, item.price + OptionalsCost(db.optionals, sel), false, sel, []))
    else if parts[0] == "combo" then
      if |parts| < 2 then Skipped
      else match ParseNat(parts[1])
        case None => Failed
        case Some(id) =>
          if !(Has(db.combos, id) && db.combos[id].value.tenant == tenant) then Skipped
          else match ParseIds(parts[2..])
            case None => Failed
            case Some(choiceIds) =>
              var combo := db.combos[id].value;
              Priced(Line(e.key, combo.name, e.count, combo.price, true, [], KnownItems(db.items, tenant, choiceIds)))
    else Skipped
  }

  /** An item key is priced at the item's price plus the optionals it names that are the
      tenant's, each counted once, times the count. */
  lemma PriceItemKey(db: DeliveryDb, tenant: nat, id: nat, opts: seq<nat>, count: nat)
    requires Has(db.items, id) && db.items[id].value.tenant == tenant
    ensures var r := PriceEntry(db, tenant, Entry(ItemKey(id, opts), count));
      && r.Priced?
      && r.line.unitPrice == db.items[id].value.price + CostOf(db.optionals, tenant, opts)
      && Subtotal(r.line) == (db.items[id].value.price + CostOf(db.optionals, tenant, opts)) * count
      && !r.line.isCombo && r.line.name == db.items[id].value.name
  {
    var parts := Split(ItemKey(id, opts), '_');
    assert parts == ["item", NatToString(id)] + IdTexts(opts) by {
      SplitKey("item", id, opts);
    }
    assert ParseNat(parts[1]) == Some(id) by {
      ParseNatToString(id);
    }
    assert ParseIds(parts[2..]) == Some(opts) by {
      assert parts[2..] == IdTexts(opts);
      ParseIdTexts(opts);
    }
  }

  /** A combo key is priced at the combo's price times the count, whatever it chose;
      chosen ids that are not the tenant's items are dropped. */
  lemma PriceComboKey(db: DeliveryDb, tenant: nat, id: nat, choices: seq<nat>, count: nat)
    requires Has(db.combos, id) && db.combos[id].value.tenant == tenant
    ensures var r := PriceEntry(db, tenant, Entry(ComboKey(id, choices), count));
      && r.Priced?
      && r.line.unitPrice == db.combos[id].value.price
      && Subtotal(r.line) == db.combos[id].value.price * count
      && r.line.isCombo && r.line.name == db.combos[id].value.name
      && r.line.choices == KnownItems(db.items, tenant, choices)
  {
    var parts := Split(ComboKey(id, choices), '_');
    assert parts == ["combo", NatToString(id)] + IdTexts(choices) by {
      SplitKey("combo", id, choices);
    }
    assert ParseNat(parts[1]) == Some(id) by {
      ParseNatToString(id);
    }
    assert ParseIds(parts[2..]) == Some(choices) by {
      assert parts[2..] == IdTexts(choices);
      ParseIdTexts(choices);
    }
  }

  /** Keys of another type, keys without an id, and ids of records that are not the
      tenant's are skipped. */
  lemma PriceEntrySkips(db: DeliveryDb, tenant: nat, e: Entry)
    ensures var parts := Split(e.key, '_');
      ((parts[0] != "item" && parts[0] != "combo") || |parts| < 2)
        ==> PriceEntry(db, tenant, e) == Skipped
    ensures var parts := Split(e.key, '_');
      (parts[0] == "item" && |parts| >= 2 && ParseNat(parts[1]).Some?
       && !(Has(db.items, ParseNat(parts[1]).value) && db.items[ParseNat(parts[1]).value].value.tenant == tenant))
        ==> PriceEntry(db, tenant, e) == Skipped
    ensures var parts := Split(e.key, '_');
      (parts[0] == "combo" && |parts| >= 2 && ParseNat(parts[1]).Some?
       && !(Has(db.combos, ParseNat(parts[1]).value) && db.combos[ParseNat(parts[1]).value].value.tenant == tenant))
        ==> PriceEntry(db, tenant, e) == Skipped
  {
  }

  /** The pricing of each entry of the cart, in cart order. */
  function PriceEach(db: DeliveryDb, tenant: nat, c: SessionCart): (r: seq<Priced>)
    ensures |r| == |c| && forall i | 0 <= i < |c| :: r[i] == PriceEntry(db, tenant, c[i])
  {
    seq(|c|, i requires 0 <= i < |c| => PriceEntry(db, tenant, c[i]))
  }

  /** The entries of `c` whose pricing in `ps` is a line, in cart order. */
  function Kept(c: SessionCart, ps: seq<Priced>): (r: SessionCart)
    requires |ps| == |c|
    ensures |r| <= |c|
    ensures forall k | 0 <= k < |r| :: r[k] in c
    decreases |c|
  {
    if |c| == 0 then []
    else
      var rest := Kept(c[1..], ps[1..]);
      assert forall k | 0 <= k < |rest| :: rest[k] in c;
      (if ps[0].Priced? then [c[0]] else []) + rest
  }

  /** The entries of the cart that price to a line, in cart order. */
  function PricedEntries(db: DeliveryDb, tenant: nat, c: SessionCart): (r: SessionCart)
    ensures |r| <= |c|
    ensures forall k | 0 <= k < |r| :: r[k] in c
  {
    Kept(c, PriceEach(db, tenant, c))
  }

  function EntryOf(l: Line): Entry {
    Entry(l.key, l.quantity)
  }

  function EntriesOf(lines: seq<Line>): (r: SessionCart)
    ensures |r| == |lines| && forall i | 0 <= i < |lines| :: r[i] == EntryOf(lines[i])
  {
    seq(|lines|, i requires 0 <= i < |lines| => EntryOf(lines[i]))
  }

  /** The lines the loop collects from the pricings: `None` at a failure, otherwise the
      priced lines in order. */
  function CollectLines(ps: seq<Priced>): (r: Option<seq<Line>>)
    ensures r.None? <==> exists i | 0 <= i < |ps| :: ps[i].Failed?
    ensures r.Some? ==> forall k | 0 <= k < |r.value| :: Priced(r.value[k]) in ps
    decreases |ps|
  {
    if |ps| == 0 then Some([])
    else
      var rest := CollectLines(ps[1..]);
      assert forall i | 1 <= i < |ps| :: ps[i] == ps[1..][i - 1];
      match ps[0]
      case Failed => None
      case Skipped => rest
      case Priced(l) =>
        match rest
        case None => None
        case Some(ls) => Some([l] + ls)
  }

  /** The loop over the cart: `None` when some key makes the view fail; otherwise the
      priced lines, which are the priced entries in cart order. */
  function PriceCart(db: DeliveryDb, tenant: nat, c: SessionCart): (r: Option<seq<Line>>)
    ensures r.Some? ==> EntriesOf(r.value) == PricedEntries(db, tenant, c)
    ensures r.None? <==> exists i | 0 <= i < |c| :: PriceEntry(db, tenant, c[i]).Failed?
    ensures r.Some? ==> forall k | 0 <= k < |r.value| ::
      exists i | 0 <= i < |c| :: PriceEntry(db, tenant, c[i]) == Priced(r.value[k])
  {
    var ps := PriceEach(db, tenant, c);
    CollectKept(c, ps);
    var r := CollectLines(ps);
    if r.None? then
      var i :| 0 <= i < |ps| && ps[i].Failed?;
      assert PriceEntry(db, tenant, c[i]).Failed?;
      r
    else
      assert forall k | 0 <= k < |r.value| :: Priced(r.value[k]) in ps;
      r
  }

  /** The collected lines are the kept entries, when each priced line carries its entry. */
  lemma {:induction false} CollectKept(c: SessionCart, ps: seq<Priced>)
    requires |ps| == |c|
    requires forall i | 0 <= i < |c| :: ps[i].Priced? ==> EntryOf(ps[i].line) == c[i]
    ensures CollectLines(ps).Some? ==> EntriesOf(CollectLines(ps).value) == Kept(c, ps)
    decreases |c|
  {
    if |c| > 0 {
      var c1, ps1 := c[1..], ps[1..];
      assert forall i | 0 <= i < |c1| :: ps1[i].Priced? ==> EntryOf(ps1[i].line) == c1[i] by {
        assert forall i | 0 <= i < |c1| :: ps1[i] == ps[i + 1] && c1[i] == c[i + 1];
      }
      CollectKept(c1, ps1);
      CollectKeptStep(c, ps, CollectLines(ps1), Kept(c1, ps1));
    }
  }

  /** One step of `CollectKept`: from the rest of the pricings to all of them. */
  lemma {:induction false} CollectKeptStep(c: SessionCart, ps: seq<Priced>, rest: Option<seq<Line>>, kept: SessionCart)
    requires |ps| == |c| > 0
    requires ps[0].Priced? ==> EntryOf(ps[0].line) == c[0]
    requires rest == CollectLines(ps[1..]) && kept == Kept(c[1..], ps[1..])
    requires rest.Some? ==> EntriesOf(rest.value) == kept
    ensures CollectLines(ps).Some? ==> EntriesOf(CollectLines(ps).value) == Kept(c, ps)
  {
    if ps[0].Priced? && rest.Some? {
      var l, ls := ps[0].line, rest.value;
      assert CollectLines(ps) == Some([l] + ls);
      assert Kept(c, ps) == [c[0]] + kept;
      EntriesOfCons(l, ls);
    } else if ps[0].Skipped? {
      assert CollectLines(ps) == rest;
      assert Kept(c, ps) == kept;
    }
  }

  /** The entries of a line followed by more lines. */
  lemma EntriesOfCons(l: Line, ls: seq<Line>)
    ensures EntriesOf([l] + ls) == [EntryOf(l)] + EntriesOf(ls)
  {
    var a, b := EntriesOf([l] + ls), [EntryOf(l)] + EntriesOf(ls);
    forall i | 0 <= i < |a| ensures a[i] == b[i] {
      if i > 0 {
        assert ([l] + ls)[i] == ls[i - 1];
      }
    }
  }

  /** `items_total`: the sum of the subtotals. */
  function LinesTotal(lines: seq<Line>): int
    decreases |lines|
  {
    if |lines| == 0 then 0 else LinesTotal(lines[..|lines| - 1]) + Subtotal(lines[|lines| - 1])
  }

  /** The checkout form once valid. `zone` is one of the tenant's zones when given. */
  datatype OrderForm = OrderForm(customerName: string, customerWhatsapp: string, address: string,
                                 zone: Option<nat>, paymentMethod: PaymentMethod,
                                 changeFor: Option<int>, observations: string)

  function OptionalName(optionals: Table<DeliveryOptional>, k: nat): string {
    if Has(optionals, k) then optionals[k].value.name else ""
  }

  /** `* <category>: <item>`, one line of a combo's description. */
  function ChoiceText(db: DeliveryDb, k: nat): string {
    if Has(db.items, k) then
      "* " + CategoryName(db.categories, db.items[k].value.category) + ": " + db.items[k].value.name
    else ""
  }

  /** The stored name of a bought line: an item's name followed by its optionals in
      parentheses, or a combo's name followed by one line per choice. */
  function LineName(db: DeliveryDb, l: Line): string {
    if l.isCombo then
      l.name + "\n" + JoinWith(seq(|l.choices|, i requires 0 <= i < |l.choices| => ChoiceText(db, l.choices[i])), "\n")
    else if |l.optionals| > 0 then
      l.name + " (" + JoinWith(seq(|l.optionals|, i requires 0 <= i < |l.optionals| =>
                                 "*" + OptionalName(db.optionals, l.optionals[i])), ", ") + ")"
    else l.name
  }

  /** The bought line for a priced line: `price = subtotal / quantity`, the unit price. */
  function OrderItemOf(db: DeliveryDb, oid: nat, l: Line): DeliveryOrderItem {
    DeliveryOrderItem(oid, LineName(db, l), l.quantity, l.unitPrice, Some(l.key))
  }

  /** The rows a run of bought lines adds to the order-item table. */
  function ItemRows(db: DeliveryDb, oid: nat, lines: seq<Line>): (r: Table<DeliveryOrderItem>)
    ensures |r| == |lines| && forall i | 0 <= i < |lines| :: r[i] == Some(OrderItemOf(db, oid, lines[i]))
  {
    seq(|lines|, i requires 0 <= i < |lines| => Some(OrderItemOf(db, oid, lines[i])))
  }

  /** Every line has a positive count. */
  predicate AllCounted(lines: seq<Line>) {
    forall i | 0 <= i < |lines| :: lines[i].quantity > 0
  }

  /** Creating the bought lines one by one in the order-item table. Dividing the subtotal
      of a line whose count is zero by that count fails, leaving the lines created so far. */
  function SaveItems(t: Table<DeliveryOrderItem>, menu: DeliveryDb, oid: nat, lines: seq<Line>)
    : (r: (Table<DeliveryOrderItem>, bool))
    ensures r.1 <==> AllCounted(lines)
    ensures r.1 ==> r.0 == t + ItemRows(menu, oid, lines)
    ensures |t| <= |r.0| && r.0[..|t|] == t
    decreases |lines|
  {
    if |lines| == 0 then (t, true)
    else if lines[0].quantity == 0 then (t, false)
    else
      var r := SaveItems(Insert(t, OrderItemOf(menu, oid, lines[0])), menu, oid, lines[1..]);
      SaveItemsStep(t, menu, oid, lines, r);
      r
  }

  /** One step of `SaveItems`: from the lines after the first to all of them. */
  lemma {:induction false} SaveItemsStep(t: Table<DeliveryOrderItem>, menu: DeliveryDb, oid: nat, lines: seq<Line>,
                                         r: (Table<DeliveryOrderItem>, bool))
    requires |lines| > 0 && lines[0].quantity > 0
    requires var t1 := Insert(t, OrderItemOf(menu, oid, lines[0]));
      && (r.1 <==> AllCounted(lines[1..]))
      && (r.1 ==> r.0 == t1 + ItemRows(menu, oid, lines[1..]))
      && |t1| <= |r.0| && r.0[..|t1|] == t1
    ensures r.1 <==> AllCounted(lines)
    ensures r.1 ==> r.0 == t + ItemRows(menu, oid, lines)
    ensures |t| <= |r.0| && r.0[..|t|] == t
  {
    ItemRowsCons(menu, oid, lines);
    AppendOne(t, Some(OrderItemOf(menu, oid, lines[0])), ItemRows(menu, oid, lines[1..]), r.0);
    AllCountedCons(lines);
  }

  /** Appending one row and then more is appending both; a table that extends `t + [row]`
      extends `t`. */
  lemma AppendOne<T>(t: seq<T>, row: T, rest: seq<T>, u: seq<T>)
    requires |t| + 1 <= |u| && u[..|t| + 1] == t + [row]
    ensures t + [row] + rest == t + ([row] + rest)
    ensures u[..|t|] == t
  {
    assert u[..|t|] == (t + [row])[..|t|];
  }

  /** A non-empty run of lines is all counted when its first line and the rest are. */
  lemma AllCountedCons(lines: seq<Line>)
    requires |lines| > 0
    ensures AllCounted(lines) <==> lines[0].quantity > 0 && AllCounted(lines[1..])
  {
    if lines[0].quantity > 0 && AllCounted(lines[1..]) {
      forall i | 1 <= i < |lines| ensures lines[i].quantity > 0 {
        assert lines[i] == lines[1..][i - 1];
      }
    }
  }

  /** The rows of a first line followed by the rows of the rest. */
  lemma ItemRowsCons(menu: DeliveryDb, oid: nat, lines: seq<Line>)
    requires |lines| > 0
    ensures ItemRows(menu, oid, lines) == [Some(OrderItemOf(menu, oid, lines[0]))] + ItemRows(menu, oid, lines[1..])
  {
    var a, b := ItemRows(menu, oid, lines), [Some(OrderItemOf(menu, oid, lines[0]))] + ItemRows(menu, oid, lines[1..]);
    forall i | 0 <= i < |a| ensures a[i] == b[i] {
      if i > 0 {
        assert lines[i] == lines[1..][i - 1];
      }
    }
  }

  datatype CheckoutOutcome = EmptyCart | ShowForm | Placed(orderId: nat) | Crashed

  /** `delivery_checkout_view`. `form` is `None` for a GET or an invalid form. */
  function Checkout(db: DeliveryDb, tenant: nat, c: SessionCart, form: Option<OrderForm>)
    : (r: (DeliveryDb, SessionCart, CheckoutOutcome))
    ensures r.2.EmptyCart? <==> |c| == 0
    ensures r.2.EmptyCart? || r.2.ShowForm? ==> r.0 == db && r.1 == c
    ensures r.2.Placed? ==> r.1 == [] && r.2.orderId == |db.orders|
  {
    if |c| == 0 then (db, c, EmptyCart)
    else match PriceCart(db, tenant, c)
      case None => (db, c, Crashed)
      case Some(lines) =>
        match form
        case None => (db, c, ShowForm)
        case Some(f) =>
          var itemsTotal := LinesTotal(lines);
          var fee := FeeFor(db.zones, f.zone);
          var order := DeliveryOrder(tenant, f.customerName, f.customerWhatsapp, f.address, f.zone,
                                     f.paymentMethod, f.changeFor, f.observations,
                                     itemsTotal, fee, itemsTotal + fee, DefaultDeliveryStatus);
          var oid := |db.orders|;
          var (rows, ok) := SaveItems(db.orderItems, db, oid, lines);
          var db2 := db.(orders := Insert(db.orders, order), orderItems := rows);
          if ok then (db2, [], Placed(oid)) else (db2, c, Crashed)
  }

  /** A placed order carries the items total of the priced keys, the fee of the chosen
      zone (zero without one), a final total that is their sum, and status pending. */
  lemma CheckoutTotals(db: DeliveryDb, tenant: nat, c: SessionCart, f: OrderForm)
    ensures var (db2, _, out) := Checkout(db, tenant, c, Some(f));
      out.Placed? ==>
        && PriceCart(db, tenant, c).Some?
        && Has(db2.orders, out.orderId)
        && var o := db2.orders[out.orderId].value;
        && o.itemsTotal == LinesTotal(PriceCart(db, tenant, c).value)
        && o.deliveryFee == FeeFor(db.zones, f.zone)
        && o.finalTotal == o.itemsTotal + o.deliveryFee
        && o.status == Pending && o.tenant == tenant
  {
  }

  /** The bought lines of an order, in creation order. */
  function ForOrder(oid: nat): DeliveryOrderItem -> bool {
    (it: DeliveryOrderItem) => it.order == oid
  }

  function OrderItemsOf(db: DeliveryDb, oid: nat): seq<DeliveryOrderItem> {
    RowsWhere(db.orderItems, ForOrder(oid))
  }

  /** Whether a bought line remembers a cart key; Python's `if item.original_cart_key:`
      is false both for a missing key and for a blank one. */
  predicate RemembersKey(it: DeliveryOrderItem) {
    it.originalCartKey.Some? && it.originalCartKey.value != ""
  }

  /** `new_cart[key] = quantity` over the bought lines that remember a key: the rebuilt
      cart is empty exactly when no line remembers one, and every key in it is a key some
      line remembers. */
  function RebuildCart(items: seq<DeliveryOrderItem>): (r: SessionCart)
    ensures |r| == 0 <==> forall i | 0 <= i < |items| :: !RemembersKey(items[i])
    ensures forall k | 0 <= k < |r| :: r[k].key != "" && exists i | 0 <= i < |items| :: items[i].originalCartKey == Some(r[k].key)
    ensures KeysDistinct(r)
    decreases |items|
  {
    if |items| == 0 then []
    else
      var n := |items| - 1;
      var front := RebuildCart(items[..n]);
      var it := items[n];
      assert forall i | 0 <= i < n :: items[..n][i] == items[i];
      match it.originalCartKey
      case None => front
      case Some(k) =>
        if k == "" then front
        else match Find(front, k)
          case Some(i) => front[i := Entry(k, it.quantity)]
          case None => front + [Entry(k, it.quantity)]
  }

  datatype RepeatOutcome = OrderNotFound | NothingToRepeat | ToCheckout

  /** `repeat_order`: the order must be the tenant's. When none of its lines remembers a
      key the buyer is told so and the cart stays as it was; otherwise the cart is
      replaced by the rebuilt one. */
  function RepeatOrder(db: DeliveryDb, tenant: nat, oid: nat, c: SessionCart): (r: (SessionCart, RepeatOutcome))
    ensures r.1 == OrderNotFound <==> !(Has(db.orders, oid) && db.orders[oid].value.tenant == tenant)
    ensures r.1 == NothingToRepeat <==>
      (Has(db.orders, oid) && db.orders[oid].value.tenant == tenant
       && forall i | 0 <= i < |OrderItemsOf(db, oid)| :: !RemembersKey(OrderItemsOf(db, oid)[i]))
    ensures r.1 != ToCheckout ==> r.0 == c
    ensures r.1 == ToCheckout ==> |r.0| > 0 && KeysDistinct(r.0)
  {
    if !(Has(db.orders, oid) && db.orders[oid].value.tenant == tenant) then (c, OrderNotFound)
    else
      var rebuilt := RebuildCart(OrderItemsOf(db, oid));
      if |rebuilt| == 0 then (c, NothingToRepeat) else (rebuilt, ToCheckout)
  }

  /** An order none of whose lines remembers a non-blank key cannot be repeated. */
  lemma RepeatOrderWithoutKeys(db: DeliveryDb, tenant: nat, oid: nat, c: SessionCart)
    requires Has(db.orders, oid) && db.orders[oid].value.tenant == tenant
    requires forall i | 0 <= i < |OrderItemsOf(db, oid)| ::
      OrderItemsOf(db, oid)[i].originalCartKey in {None, Some("")}
    ensures RepeatOrder(db, tenant, oid, c) == (c, NothingToRepeat)
  {
  }

  /** The order items made from priced lines rebuild those lines' entries. */
  lemma {:induction false} RebuildFromLines(db: DeliveryDb, oid: nat, lines: seq<Line>)
    requires KeysDistinct(EntriesOf(lines))
    requires forall i | 0 <= i < |lines| :: lines[i].key != ""
    ensures RebuildCart(RowsWhere(ItemRows(db, oid, lines), ForOrder(oid))) == EntriesOf(lines)
    decreases |lines|
  {
    if |lines| == 0 {
      assert ItemRows(db, oid, lines) == [];
    } else {
      var n := |lines| - 1;
      var init, l := lines[..n], lines[n];
      var front := EntriesOf(init);
      assert lines == init + [l];
      EntriesOfSnoc(init, l);
      assert KeysDistinct(front) && Find(front, l.key).None? by {
        assert forall i | 0 <= i < n :: front[i] == EntriesOf(lines)[i];
        assert EntriesOf(lines)[n].key == l.key;
      }
      RebuildFromLines(db, oid, init);
      ItemsOfOrderSnoc(db, oid, init, l);
      RebuildSnoc(RowsWhere(ItemRows(db, oid, init), ForOrder(oid)), OrderItemOf(db, oid, l), front);
    }
  }

  /** The bought lines of the order, for one more line. */
  lemma ItemsOfOrderSnoc(db: DeliveryDb, oid: nat, init: seq<Line>, l: Line)
    ensures RowsWhere(ItemRows(db, oid, init + [l]), ForOrder(oid))
         == RowsWhere(ItemRows(db, oid, init), ForOrder(oid)) + [OrderItemOf(db, oid, l)]
  {
    var rows := ItemRows(db, oid, init + [l]);
    assert rows[..|init|] == ItemRows(db, oid, init);
  }

  /** Rebuilding after one more bought line whose key is new appends its entry. */
  lemma RebuildSnoc(items: seq<DeliveryOrderItem>, it: DeliveryOrderItem, front: SessionCart)
    requires RebuildCart(items) == front
    requires RemembersKey(it) && Find(front, it.originalCartKey.value).None?
    ensures RebuildCart(items + [it]) == front + [Entry(it.originalCartKey.value, it.quantity)]
  {
    assert (items + [it])[..|items|] == items;
  }

  /** The entries of lines followed by one more line. */
  lemma EntriesOfSnoc(ls: seq<Line>, l: Line)
    ensures EntriesOf(ls + [l]) == EntriesOf(ls) + [EntryOf(l)]
  {
    var a, b := EntriesOf(ls + [l]), EntriesOf(ls) + [EntryOf(l)];
    forall i | 0 <= i < |a| ensures a[i] == b[i] {
      if i < |ls| {
        assert (ls + [l])[i] == ls[i];
      }
    }
  }

  /** Priced entries of a cart with distinct keys have distinct keys. */
  lemma PricedEntriesDistinct(db: DeliveryDb, tenant: nat, c: SessionCart)
    requires KeysDistinct(c)
    ensures KeysDistinct(PricedEntries(db, tenant, c))
  {
    KeptDistinct(c, PriceEach(db, tenant, c));
  }

  lemma {:induction false} KeptDistinct(c: SessionCart, ps: seq<Priced>)
    requires |ps| == |c| && KeysDistinct(c)
    ensures KeysDistinct(Kept(c, ps))
    decreases |c|
  {
    if |c| > 0 {
      KeptDistinct(c[1..], ps[1..]);
      assert forall e | e in c[1..] :: e.key != c[0].key;
    }
  }

  /** Every stored order line belongs to an existing order. */
  ghost predicate ItemsOwned(db: DeliveryDb) {
    forall k | 0 <= k < |db.orderItems| && db.orderItems[k].Some? :: db.orderItems[k].value.order < |db.orders|
  }

  /** Round trip: repeating an order just placed from a cart gives back that cart,
      restricted to the keys checkout could price, with the same counts and in the same
      order. */
  lemma RepeatAfterCheckout(db: DeliveryDb, tenant: nat, c: SessionCart, f: OrderForm, later: SessionCart)
    requires KeysDistinct(c) && ItemsOwned(db)
    requires Checkout(db, tenant, c, Some(f)).2.Placed?
    ensures var (db2, _, out) := Checkout(db, tenant, c, Some(f));
      var expected := PricedEntries(db, tenant, c);
      RepeatOrder(db2, tenant, out.orderId, later)
        == if |expected| == 0 then (later, NothingToRepeat) else (expected, ToCheckout)
  {
    CheckoutPlaced(db, tenant, c, f);
    var r := Checkout(db, tenant, c, Some(f));
    RepeatPlaced(db, tenant, c, PriceCart(db, tenant, c).value, r.0, later);
  }

  /** Repeating the order just stored for the priced lines of a cart. */
  lemma RepeatPlaced(db: DeliveryDb, tenant: nat, c: SessionCart, lines: seq<Line>, db2: DeliveryDb, later: SessionCart)
    requires KeysDistinct(c) && ItemsOwned(db)
    requires PriceCart(db, tenant, c) == Some(lines)
    requires db2.orderItems == db.orderItems + ItemRows(db, |db.orders|, lines)
    requires Has(db2.orders, |db.orders|) && db2.orders[|db.orders|].value.tenant == tenant
    ensures var expected := PricedEntries(db, tenant, c);
      RepeatOrder(db2, tenant, |db.orders|, later)
        == if |expected| == 0 then (later, NothingToRepeat) else (expected, ToCheckout)
  {
    var oid := |db.orders|;
    NewOrderRows(db, db2.orderItems, oid, lines);
    PricedLinesRebuild(db, tenant, c, lines, oid);
  }

  /** The bought lines of a new order are exactly the rows stored for it. */
  lemma NewOrderRows(db: DeliveryDb, t: Table<DeliveryOrderItem>, oid: nat, lines: seq<Line>)
    requires ItemsOwned(db) && oid == |db.orders|
    requires t == db.orderItems + ItemRows(db, oid, lines)
    ensures RowsWhere(t, ForOrder(oid)) == RowsWhere(ItemRows(db, oid, lines), ForOrder(oid))
  {
    RowsWhereConcat(db.orderItems, ItemRows(db, oid, lines), ForOrder(oid));
    NoRowsOfNewOrder(db, oid);
  }

  /** Rebuilding a cart from the rows stored for the priced lines gives the priced
      entries back. */
  lemma PricedLinesRebuild(db: DeliveryDb, tenant: nat, c: SessionCart, lines: seq<Line>, oid: nat)
    requires KeysDistinct(c)
    requires PriceCart(db, tenant, c) == Some(lines)
    ensures RebuildCart(RowsWhere(ItemRows(db, oid, lines), ForOrder(oid))) == PricedEntries(db, tenant, c)
  {
    PricedEntriesDistinct(db, tenant, c);
    forall k | 0 <= k < |lines| ensures lines[k].key != "" {
      var i :| 0 <= i < |c| && PriceEntry(db, tenant, c[i]) == Priced(lines[k]);
    }
    RebuildFromLines(db, oid, lines);
  }

  /** What a placed order leaves behind: the order, owned by the tenant, at the next id,
      and the bought lines of the priced keys after the existing ones. */
  lemma CheckoutPlaced(db: DeliveryDb, tenant: nat, c: SessionCart, f: OrderForm)
    requires Checkout(db, tenant, c, Some(f)).2.Placed?
    ensures PriceCart(db, tenant, c).Some?
    ensures var r := Checkout(db, tenant, c, Some(f));
      && r.2.orderId == |db.orders|
      && r.0.orderItems == db.orderItems + ItemRows(db, |db.orders|, PriceCart(db, tenant, c).value)
      && Has(r.0.orders, |db.orders|) && r.0.orders[|db.orders|].value.tenant == tenant
  {
  }

  lemma NoRowsOfNewOrder(db: DeliveryDb, oid: nat)
    requires ItemsOwned(db) && oid >= |db.orders|
    ensures RowsWhere(db.orderItems, ForOrder(oid)) == []
  {
    NoRowsMatching(db.orderItems, oid, |db.orders|);
  }

  lemma {:induction false} NoRowsMatching(t: Table<DeliveryOrderItem>, oid: nat, bound: nat)
    requires oid >= bound
    requires forall k | 0 <= k < |t| && t[k].Some? :: t[k].value.order < bound
    ensures RowsWhere(t, ForOrder(oid)) == []
    decreases |t|
  {
    if |t| > 0 {
      NoRowsMatching(t[..|t| - 1], oid, bound);
    }
  }
}

=== FILE: delivery_menu.dfy ===
/** The public delivery menu (`customer_menu_view`): the tenant's available combos in
    display order, and the number of units in the session cart.

    The display order sorts by a key computed from each combo's name: names starting
    with something other than a letter first, then alphabetically ignoring case; a name
    that is blank after stripping is meant to go last. As written, the key of a blank
    name is `('z', '')` while other keys are `(bool, str)`, and Python 3 refuses to
    compare `'z'` with a bool, so the page fails whenever blank and non-blank names are
    both present. `SortCombosAsWritten` models that; `SortCombos` is the ordering the
    code evidently intends, and the one the menu page uses. */
module DeliveryMenu {
  import opened Wrappers
  import opened Text
  import opened Tables
  import opened DeliveryModels
  import opened DeliveryCart

  /** Python's `<` on strings: code-point lexicographic order. */
  predicate StrLess(a: string, b: string)
    decreases |a|
  {
    if |a| == 0 then |b| > 0
    else if |b| == 0 then false
    else if a[0] != b[0] then a[0] < b[0]
    else StrLess(a[1..], b[1..])
  }

  lemma {:induction false} StrLessTrichotomy(a: string, b: string)
    ensures StrLess(a, b) || a == b || StrLess(b, a)
    ensures !(StrLess(a, b) && StrLess(b, a))
    decreases |a|
  {
    if |a| > 0 && |b| > 0 && a[0] == b[0] {
      StrLessTrichotomy(a[1..], b[1..]);
      if a[1..] == b[1..] {
        assert a == [a[0]] + a[1..] && b == [b[0]] + b[1..];
      }
    }
  }

  lemma {:induction false} StrLessTrans(a: string, b: string, c: string)
    requires StrLess(a, b) && StrLess(b, c)
    ensures StrLess(a, c)
    decreases |a|
  {
    if |a| > 0 && a[0] == b[0] && b[0] == c[0] {
      StrLessTrans(a[1..], b[1..], c[1..]);
    }
  }

  /** The value `sort_key` returns: `('z', '')` for a blank name, otherwise whether the
      first character is a letter, and the lower-cased name. */
  datatype SortKey = BlankKey | NamedKey(alpha: bool, lowered: string)

  function SortKeyOf(name: string): (k: SortKey)
    ensures k.BlankKey? <==> Strip(name) == ""
    ensures k.NamedKey? ==> k.alpha == IsAlpha(Strip(name)[0]) && k.lowered == Lower(Strip(name))
  {
    var n := Strip(name);
    if n == "" then BlankKey else NamedKey(IsAlpha(n[0]), Lower(n))
  }

  /** A combo on the menu with the key `sort_key` gives its name. */
  datatype MenuCombo = MenuCombo(id: nat, name: string, key: SortKey)

  function MenuComboOf(id: nat, name: string): (m: MenuCombo)
    ensures m.id == id && m.name == name && m.key == SortKeyOf(name)
  {
    MenuCombo(id, name, SortKeyOf(name))
  }

  /** Python's `<` on two keys as written: `None` where comparing `'z'` with a bool
      raises a TypeError. `False < True`, so names that do not start with a letter come
      first. */
  function AsWrittenLess(a: SortKey, b: SortKey): Option<bool> {
    match (a, b)
    case (BlankKey, BlankKey) => Some(false)
    case (NamedKey(x, s), NamedKey(y, t)) => Some(if x != y then !x && y else StrLess(s, t))
    case _ => None
  }

  /** `sorted(combos, key=sort_key)` as written, by stable insertion: `None` when a
      comparison raises. */
  function SortCombosAsWritten(cs: seq<MenuCombo>): Option<seq<MenuCombo>>
    decreases |cs|
  {
    if |cs| == 0 then Some([])
    else match SortCombosAsWritten(cs[1..])
      case None => None
      case Some(rest) => InsertAsWritten(cs[0], rest)
  }

  function InsertAsWritten(x: MenuCombo, s: seq<MenuCombo>): Option<seq<MenuCombo>>
    decreases |s|
  {
    if |s| == 0 then Some([x])
    else match AsWrittenLess(s[0].key, x.key)
      case None => None
      case Some(false) => Some([x] + s)
      case Some(true) =>
        match InsertAsWritten(x, s[1..])
        case None => None
        case Some(r) => Some([s[0]] + r)
  }

  predicate IsBlank(c: MenuCombo) {
    c.key.BlankKey?
  }

  /** The combos mix blank and non-blank names. */
  predicate Mixed(cs: seq<MenuCombo>) {
    (exists i | 0 <= i < |cs| :: IsBlank(cs[i])) && (exists i | 0 <= i < |cs| :: !IsBlank(cs[i]))
  }

  lemma {:induction false} InsertAsWrittenUniform(x: MenuCombo, s: seq<MenuCombo>)
    requires |s| > 0 && forall i | 0 <= i < |s| :: IsBlank(s[i]) == IsBlank(s[0])
    requires IsBlank(x) != IsBlank(s[0])
    ensures InsertAsWritten(x, s) == None
  {
  }

  /** The failure as written: sorting raises exactly when blank and non-blank names are
      mixed; otherwise every combo is listed once. */
  lemma AsWrittenFailsIffMixed(cs: seq<MenuCombo>)
    ensures SortCombosAsWritten(cs).None? <==> Mixed(cs)
    ensures SortCombosAsWritten(cs).Some? ==> |SortCombosAsWritten(cs).value| == |cs|
    ensures SortCombosAsWritten(cs).Some? ==>
      forall i | 0 <= i < |SortCombosAsWritten(cs).value| :: SortCombosAsWritten(cs).value[i] in cs
  {
    FailsIffMixed(cs);
    if SortCombosAsWritten(cs).Some? {
      var r := SortCombosAsWritten(cs).value;
      AsWrittenPermutes(cs);
      assert |r| == |multiset(r)| == |multiset(cs)| == |cs|;
      forall i | 0 <= i < |r| ensures r[i] in cs {
        assert r[i] in multiset(cs);
      }
    }
  }

  /** All combos have the kind of the first. */
  predicate Uniform(cs: seq<MenuCombo>) {
    forall i | 0 <= i < |cs| :: IsBlank(cs[i]) == IsBlank(cs[0])
  }

  /** Not mixing blank and non-blank names means every name has the kind of the first. */
  lemma UniformIffNotMixed(cs: seq<MenuCombo>)
    ensures Uniform(cs) <==> !Mixed(cs)
  {
    if |cs| > 0 && IsBlank(cs[0]) {
      assert Uniform(cs) <==> forall i | 0 <= i < |cs| :: IsBlank(cs[i]);
    } else if |cs| > 0 {
      assert Uniform(cs) <==> forall i | 0 <= i < |cs| :: !IsBlank(cs[i]);
    }
  }

  lemma {:induction false} FailsIffMixed(cs: seq<MenuCombo>)
    ensures SortCombosAsWritten(cs).None? <==> Mixed(cs)
    decreases |cs|
  {
    if |cs| > 0 {
      var tail := cs[1..];
      FailsIffMixed(tail);
      UniformIffNotMixed(tail);
      UniformIffNotMixed(cs);
      var sorted := SortCombosAsWritten(tail);
      if sorted.None? {
        var a :| 0 <= a < |tail| && IsBlank(tail[a]);
        var b :| 0 <= b < |tail| && !IsBlank(tail[b]);
        assert IsBlank(cs[a + 1]) && !IsBlank(cs[b + 1]);
      } else {
        var rest := sorted.value;
        AsWrittenPermutes(tail);
        assert |rest| == |tail| by {
          assert |multiset(rest)| == |multiset(tail)|;
        }
        if |tail| > 0 && IsBlank(cs[0]) != IsBlank(tail[0]) {
          SameKindAfterPermutation(tail, rest, IsBlank(tail[0]));
          InsertAsWrittenUniform(cs[0], rest);
          assert !Uniform(cs) by {
            assert cs[1] == tail[0];
          }
        } else {
          SameKindAfterPermutation(tail, rest, IsBlank(cs[0]));
          InsertUniformSucceeds(cs[0], rest);
          assert Uniform(cs) by {
            forall i | 0 <= i < |cs| ensures IsBlank(cs[i]) == IsBlank(cs[0]) {
              if i > 0 {
                assert cs[i] == tail[i - 1];
              }
            }
          }
        }
      }
    }
  }

  /** Inserting into a list of the same kind succeeds and keeps every element. */
  lemma {:induction false} InsertUniformSucceeds(x: MenuCombo, s: seq<MenuCombo>)
    requires forall i | 0 <= i < |s| :: IsBlank(s[i]) == IsBlank(x)
    ensures InsertAsWritten(x, s).Some?
    ensures |InsertAsWritten(x, s).value| == |s| + 1
    ensures forall i | 0 <= i < |InsertAsWritten(x, s).value| ::
      InsertAsWritten(x, s).value[i] == x || InsertAsWritten(x, s).value[i] in s
    ensures multiset(InsertAsWritten(x, s).value) == multiset(s) + multiset{x}
    decreases |s|
  {
    if |s| > 0 {
      if AsWrittenLess(s[0].key, x.key) == Some(true) {
        InsertUniformSucceeds(x, s[1..]);
        assert s == [s[0]] + s[1..];
      }
    }
  }

  /** Whatever succeeds as written is a permutation of the input. */
  lemma {:induction false} AsWrittenPermutes(cs: seq<MenuCombo>)
    requires SortCombosAsWritten(cs).Some?
    ensures multiset(SortCombosAsWritten(cs).value) == multiset(cs)
    decreases |cs|
  {
    if |cs| > 0 {
      AsWrittenPermutes(cs[1..]);
      var rest := SortCombosAsWritten(cs[1..]).value;
      InsertPermutes(cs[0], rest);
      assert cs == [cs[0]] + cs[1..];
    }
  }

  lemma {:induction false} InsertPermutes(x: MenuCombo, s: seq<MenuCombo>)
    requires InsertAsWritten(x, s).Some?
    ensures multiset(InsertAsWritten(x, s).value) == multiset(s) + multiset{x}
    decreases |s|
  {
    if |s| > 0 && AsWrittenLess(s[0].key, x.key) == Some(true) {
      InsertPermutes(x, s[1..]);
      assert s == [s[0]] + s[1..];
    }
  }

  /** A concrete failing input: a combo named with spaces only next to one named
      "Pizza". */
  lemma AsWrittenCounterexample()
    ensures SortCombosAsWritten([MenuComboOf(1, " "), MenuComboOf(2, "Pizza")]) == None
  {
    BlankName();
    PlainName();
    BlankBeforeNamedFails(MenuComboOf(1, " "), MenuComboOf(2, "Pizza"));
  }

  lemma BlankName()
    ensures Strip(" ") == ""
  {
    assert StripLeft(" ") == "";
  }

  lemma PlainName()
    ensures Strip("Pizza") != ""
  {
    assert StripLeft("Pizza") == "Pizza";
    assert StripRight("Pizza") == "Pizza";
  }

  /** A blank name listed before a non-blank one makes the comparison raise. */
  lemma BlankBeforeNamedFails(y: MenuCombo, x: MenuCombo)
    requires IsBlank(y) && !IsBlank(x)
    ensures SortCombosAsWritten([y, x]) == None
  {
    assert [y, x][1..] == [x];
    assert SortCombosAsWritten([x]) == Some([x]);
  }

  /** The intended order as a total one: non-blank names first, then names not starting
      with a letter, then by lower-cased name. */
  predicate KeyLess(a: SortKey, b: SortKey) {
    match (a, b)
    case (BlankKey, _) => false
    case (NamedKey(_, _), BlankKey) => true
    case (NamedKey(x, s), NamedKey(y, t)) => if x != y then !x && y else StrLess(s, t)
  }

  predicate ComboLe(a: MenuCombo, b: MenuCombo) {
    !KeyLess(b.key, a.key)
  }

  lemma KeyAsym(a: SortKey, b: SortKey)
    ensures KeyLess(a, b) ==> !KeyLess(b, a)
  {
    if a.NamedKey? && b.NamedKey? {
      StrLessTrichotomy(a.lowered, b.lowered);
    }
  }

  /** "Not after" is transitive. */
  lemma KeyLeTrans(a: SortKey, b: SortKey, c: SortKey)
    requires !KeyLess(b, a) && !KeyLess(c, b)
    ensures !KeyLess(c, a)
  {
    if a.NamedKey? && b.NamedKey? && c.NamedKey? && a.alpha == b.alpha && b.alpha == c.alpha {
      var s, t, u := a.lowered, b.lowered, c.lowered;
      StrLessTrichotomy(s, t);
      StrLessTrichotomy(t, u);
      StrLessTrichotomy(s, u);
      if StrLess(s, t) && StrLess(t, u) {
        StrLessTrans(s, t, u);
      }
    }
  }

  predicate SortedCombos(s: seq<MenuCombo>) {
    forall i, j | 0 <= i < j < |s| :: ComboLe(s[i], s[j])
  }

  function InsertCombo(x: MenuCombo, s: seq<MenuCombo>): (r: seq<MenuCombo>)
    requires SortedCombos(s)
    ensures SortedCombos(r)
    ensures multiset(r) == multiset(s) + multiset{x}
    ensures forall i | 0 <= i < |r| :: r[i] == x || r[i] in s
    decreases |s|
  {
    if |s| == 0 then [x]
    else if !KeyLess(s[0].key, x.key) then
      assert forall i | 0 <= i < |s| :: ComboLe(x, s[i]) by {
        forall i | 0 <= i < |s| ensures ComboLe(x, s[i]) {
          if i > 0 {
            KeyLeTrans(x.key, s[0].key, s[i].key);
          }
        }
      }
      [x] + s
    else
      var rest := InsertCombo(x, s[1..]);
      KeyAsym(s[0].key, x.key);
      ConsSorted(s[0], s[1..], x, rest);
      assert s == [s[0]] + s[1..];
      [s[0]] + rest
  }

  /** Putting `y` in front of a sorted list whose elements are `x` or come after `y` in
      `s` keeps it sorted. */
  lemma ConsSorted(y: MenuCombo, s: seq<MenuCombo>, x: MenuCombo, rest: seq<MenuCombo>)
    requires SortedCombos(rest) && ComboLe(y, x)
    requires forall i | 0 <= i < |s| :: ComboLe(y, s[i])
    requires forall i | 0 <= i < |rest| :: rest[i] == x || rest[i] in s
    ensures SortedCombos([y] + rest)
  {
    var r := [y] + rest;
    forall i, j | 0 <= i < j < |r| ensures ComboLe(r[i], r[j]) {
      if i == 0 {
        assert r[j] == rest[j - 1];
      } else {
        assert r[i] == rest[i - 1] && r[j] == rest[j - 1];
      }
    }
  }

  /** The intended display order: a stable sort by the intended key. */
  function SortCombos(cs: seq<MenuCombo>): (r: seq<MenuCombo>)
    ensures SortedCombos(r)
    ensures multiset(r) == multiset(cs)
    decreases |cs|
  {
    if |cs| == 0 then []
    else
      assert cs == [cs[0]] + cs[1..];
      InsertCombo(cs[0], SortCombos(cs[1..]))
  }

  /** What the intended order promises: blank names last, then among the others names
      not starting with a letter before those that do, then alphabetical by the
      lower-cased name. */
  lemma SortCombosOrder(cs: seq<MenuCombo>)
    ensures var r := SortCombos(cs);
      forall i, j | 0 <= i < j < |r| ::
        && (IsBlank(r[i]) ==> IsBlank(r[j]))
        && (!IsBlank(r[i]) && !IsBlank(r[j]) ==>
              var ki := r[i].key;
              var kj := r[j].key;
              && (ki.alpha ==> kj.alpha)
              && (ki.alpha == kj.alpha ==> !StrLess(kj.lowered, ki.lowered)))
  {
  }

  /** Where the code as written works, the intended order is what it produces. */
  lemma {:induction false} SortCombosAgrees(cs: seq<MenuCombo>)
    requires !Mixed(cs)
    ensures SortCombosAsWritten(cs) == Some(SortCombos(cs))
    decreases |cs|
  {
    if |cs| > 0 {
      var tail := cs[1..];
      UniformIffNotMixed(cs);
      assert forall i | 0 <= i < |tail| :: IsBlank(tail[i]) == IsBlank(cs[0]) by {
        assert forall i | 0 <= i < |tail| :: tail[i] == cs[i + 1];
      }
      UniformIffNotMixed(tail);
      SortCombosAgrees(tail);
      var rest := SortCombos(tail);
      SameKindAfterPermutation(tail, rest, IsBlank(cs[0]));
      InsertAgrees(cs[0], rest);
      assert SortCombosAsWritten(cs) == InsertAsWritten(cs[0], rest);
    }
  }

  /** A permutation of combos of one kind is of that kind. */
  lemma SameKindAfterPermutation(a: seq<MenuCombo>, b: seq<MenuCombo>, blank: bool)
    requires multiset(a) == multiset(b)
    requires forall i | 0 <= i < |a| :: IsBlank(a[i]) == blank
    ensures forall i | 0 <= i < |b| :: IsBlank(b[i]) == blank
  {
    forall i | 0 <= i < |b| ensures IsBlank(b[i]) == blank {
      assert b[i] in multiset(a);
      var k :| 0 <= k < |a| && a[k] == b[i];
    }
  }

  lemma {:induction false} InsertAgrees(x: MenuCombo, s: seq<MenuCombo>)
    requires SortedCombos(s)
    requires forall i | 0 <= i < |s| :: IsBlank(s[i]) == IsBlank(x)
    ensures InsertAsWritten(x, s) == Some(InsertCombo(x, s))
    decreases |s|
  {
    if |s| > 0 {
      InsertAgrees(x, s[1..]);
    }
  }

  function AvailableOf(tenant: nat): Combo -> bool {
    (c: Combo) => c.tenant == tenant && c.isAvailable
  }

  /** The tenant's available combos, in id order. */
  function AvailableCombos(db: DeliveryDb, tenant: nat): (r: seq<MenuCombo>)
    ensures forall i | 0 <= i < |r| ::
      Has(db.combos, r[i].id) && db.combos[r[i].id].value.tenant == tenant
      && db.combos[r[i].id].value.isAvailable && r[i].name == db.combos[r[i].id].value.name
      && r[i].key == SortKeyOf(r[i].name)
  {
    var ids := Where(db.combos, AvailableOf(tenant));
    seq(|ids|, i requires 0 <= i < |ids| => MenuComboOf(ids[i], db.combos[ids[i]].value.name))
  }

  /** The menu page: the combos in display order and the cart's unit count. */
  datatype MenuPage = MenuPage(combos: seq<MenuCombo>, cartTotalItems: nat)

  /** `customer_menu_view` with the intended combo order. */
  function CustomerMenu(db: DeliveryDb, tenant: nat, c: SessionCart): (r: MenuPage)
    ensures multiset(r.combos) == multiset(AvailableCombos(db, tenant))
    ensures SortedCombos(r.combos)
  {
    MenuPage(SortCombos(AvailableCombos(db, tenant)), ItemCount(c))
  }

  /** The unit count on the menu page agrees with the count an add reports. */
  lemma MenuCountAfterAdd(db: DeliveryDb, tenant: nat, c: SessionCart, req: AddRequest)
    requires RequestedKey(req) != ""
    ensures var (d, reply) := AddToDeliveryCart(c, true, true, Some(req));
      CustomerMenu(db, tenant, d).cartTotalItems == reply.cartTotalItems
      && reply.cartTotalItems == CustomerMenu(db, tenant, c).cartTotalItems + 1
  {
    AddToDeliveryCartEffect(c, req);
  }
}

=== FILE: delivery_models.dfy ===
/** The delivery app's records: a tenant's menu (categories, items, optionals, combos
    and their slots), its delivery zones, and the orders placed through the public
    checkout. Money is in integer cents. */
module DeliveryModels {
  import opened Wrappers
  import opened Tables

  datatype DeliveryCategory = DeliveryCategory(tenant: nat, name: string)

  datatype MenuItem = MenuItem(tenant: nat, category: nat, name: string, price: int, isAvailable: bool)

  /** An extra that can be added to an item, priced on top of it. */
  datatype DeliveryOptional = DeliveryOptional(tenant: nat, category: nat, name: string, price: int)

  datatype DeliveryZone = DeliveryZone(tenant: nat, neighborhood: string, fee: int)

  datatype Combo = Combo(tenant: nat, name: string, price: int, isAvailable: bool)

  /** One choice of a combo: the buyer picks an item of `allowedCategory`. */
  datatype ComboSlot = ComboSlot(combo: nat, allowedCategory: nat)

  datatype PaymentMethod = Dinheiro | Cartao | Pix

  datatype DeliveryStatus = Pending | Confirmed | OnTheWay | Delivered | Cancelled

  /** The status a new order gets. */
  const DefaultDeliveryStatus: DeliveryStatus := Pending

  /** The delivery fee an order gets when none is set. */
  const DefaultDeliveryFee: int := 0

  /** The stored code of a payment method. */
  function PaymentCode(m: PaymentMethod): string {
    match m
    case Dinheiro => "dinheiro"
    case Cartao => "cartao"
    case Pix => "pix"
  }

  /** The choice a stored payment code stands for; any other text is not a choice. */
  function ParsePaymentMethod(code: string): (r: Option<PaymentMethod>)
    ensures r.Some? ==> PaymentCode(r.value) == code
  {
    if code == "dinheiro" then Some(Dinheiro)
    else if code == "cartao" then Some(Cartao)
    else if code == "pix" then Some(Pix)
    else None
  }

  /** Every payment method is stored under a code of its own. */
  lemma PaymentCodeRoundTrip(m: PaymentMethod)
    ensures ParsePaymentMethod(PaymentCode(m)) == Some(m)
  {
  }

  function StatusCode(st: DeliveryStatus): string {
    match st
    case Pending => "pending"
    case Confirmed => "confirmed"
    case OnTheWay => "on_the_way"
    case Delivered => "delivered"
    case Cancelled => "cancelled"
  }

  function ParseStatus(code: string): (r: Option<DeliveryStatus>)
    ensures r.Some? ==> StatusCode(r.value) == code
  {
    if code == "pending" then Some(Pending)
    else if code == "confirmed" then Some(Confirmed)
    else if code == "on_the_way" then Some(OnTheWay)
    else if code == "delivered" then Some(Delivered)
    else if code == "cancelled" then Some(Cancelled)
    else None
  }

  /** Every order status is stored under a code of its own, and the default is `pending`. */
  lemma StatusCodeRoundTrip(st: DeliveryStatus)
    ensures ParseStatus(StatusCode(st)) == Some(st)
    ensures StatusCode(DefaultDeliveryStatus) == "pending"
  {
  }

  /** A placed order. `zone` is the chosen neighbourhood, if any; `changeFor` is the
      cash the buyer will pay with, if given. */
  datatype DeliveryOrder = DeliveryOrder(
    tenant: nat, customerName: string, customerWhatsapp: string, address: string,
    zone: Option<nat>, paymentMethod: PaymentMethod, changeFor: Option<int>, observations: string,
    itemsTotal: int, deliveryFee: int, finalTotal: int, status: DeliveryStatus)

  /** A bought line: name and unit price stored by value, and the session-cart key it
      came from, so that the order can be repeated; the key is absent on lines that were
      not made from a cart. */
  datatype DeliveryOrderItem = DeliveryOrderItem(order: nat, itemName: string, quantity: nat,
                                                 price: int, originalCartKey: Option<string>)

  datatype DeliveryDb = DeliveryDb(
    categories: Table<DeliveryCategory>, items: Table<MenuItem>, optionals: Table<DeliveryOptional>,
    zones: Table<DeliveryZone>, combos: Table<Combo>, slots: Table<ComboSlot>,
    orders: Table<DeliveryOrder>, orderItems: Table<DeliveryOrderItem>)

  /** The tenant's category called `name`, if any (`DeliveryCategory.objects.get(...)`). */
  function CategoryNamed(cats: Table<DeliveryCategory>, tenant: nat, name: string): (r: Option<nat>)
    ensures r.Some? ==> Has(cats, r.value) && cats[r.value].value == DeliveryCategory(tenant, name)
    ensures r.None? ==> forall k: nat | Has(cats, k) :: cats[k].value != DeliveryCategory(tenant, name)
  {
    var ids := Where(cats, (c: DeliveryCategory) => c == DeliveryCategory(tenant, name));
    if |ids| == 0 then None else Some(ids[0])
  }

  /** Category names are unique per tenant (a unique constraint on tenant and name). */
  ghost predicate CategoryNamesUnique(cats: Table<DeliveryCategory>) {
    forall i: nat, j: nat | Has(cats, i) && Has(cats, j) && i != j :: cats[i].value != cats[j].value
  }

  /** Under the constraint the category found by name is the only one with that name. */
  lemma CategoryNamedUnique(cats: Table<DeliveryCategory>, tenant: nat, name: string, k: nat)
    requires CategoryNamesUnique(cats)
    requires Has(cats, k) && cats[k].value.tenant == tenant && cats[k].value.name == name
    ensures CategoryNamed(cats, tenant, name) == Some(k)
  {
  }

  function ZoneIs(tenant: nat, neighborhood: string): DeliveryZone -> bool {
    (z: DeliveryZone) => z.tenant == tenant && z.neighborhood == neighborhood
  }

  /** The tenant's zone for a neighbourhood, if any. */
  function ZoneNamed(zones: Table<DeliveryZone>, tenant: nat, neighborhood: string): (r: Option<nat>)
    ensures r.Some? ==> Has(zones, r.value) && zones[r.value].value.tenant == tenant
                        && zones[r.value].value.neighborhood == neighborhood
    ensures r.None? ==> forall k: nat | Has(zones, k) ::
      !(zones[k].value.tenant == tenant && zones[k].value.neighborhood == neighborhood)
  {
    var ids := Where(zones, ZoneIs(tenant, neighborhood));
    if |ids| == 0 then None else Some(ids[0])
  }

  /** Neighbourhoods are unique per tenant (a unique constraint on tenant and neighbourhood). */
  ghost predicate ZonesUnique(zones: Table<DeliveryZone>) {
    forall i: nat, j: nat | Has(zones, i) && Has(zones, j) && i != j ::
      zones[i].value.tenant != zones[j].value.tenant || zones[i].value.neighborhood != zones[j].value.neighborhood
  }

  /** Under the constraint a tenant's neighbourhood determines one zone, so it determines
      the delivery fee. */
  lemma ZoneFeeDetermined(zones: Table<DeliveryZone>, i: nat, j: nat)
    requires ZonesUnique(zones) && Has(zones, i) && Has(zones, j)
    requires zones[i].value.tenant == zones[j].value.tenant
    requires zones[i].value.neighborhood == zones[j].value.neighborhood
    ensures i == j && zones[i].value.fee == zones[j].value.fee
    ensures ZoneNamed(zones, zones[i].value.tenant, zones[i].value.neighborhood) == Some(i)
  {
  }

  /** The delivery fee of an order: the chosen zone's fee, or the default when no zone was
      chosen. */
  function FeeFor(zones: Table<DeliveryZone>, zone: Option<nat>): (fee: int)
    ensures zone.None? ==> fee == DefaultDeliveryFee
    ensures zone.Some? && Has(zones, zone.value) ==> fee == zones[zone.value].value.fee
  {
    match zone
    case Some(z) => if Has(zones, z) then zones[z].value.fee else DefaultDeliveryFee
    case None => DefaultDeliveryFee
  }

  /** The name of a category, blank for a missing one (a deleted category deletes its
      items, so an item never points at a missing one in practice). */
  function CategoryName(cats: Table<DeliveryCategory>, id: nat): string {
    if Has(cats, id) then cats[id].value.name else ""
  }
}

=== FILE: shop_cart.dfy ===
/** The guest-cart views of the storefront: add a product, change a line's quantity,
    remove a line. Each view takes the store and the request's inputs and returns the
    new store with the response it sends. The buyer is identified by the phone number
    kept in the session; a blank one sends the buyer to the phone form. */
module ShopCart {
  import opened Wrappers
  import opened Tables
  import opened ShopModels

  datatype CartResponse = RedirectLogin | RedirectCart | NotFound | ServerError

  /** The position of the first line that `p` accepts, if any. */
  function FirstLine(lines: seq<CartLine>, p: CartLine -> bool): (r: Option<nat>)
    ensures r.Some? ==> r.value < |lines| && p(lines[r.value])
    ensures r.Some? ==> forall i | 0 <= i < r.value :: !p(lines[i])
    ensures r.None? ==> forall i | 0 <= i < |lines| :: !p(lines[i])
    decreases |lines|
  {
    if |lines| == 0 then None
    else if p(lines[0]) then Some(0)
    else match FirstLine(lines[1..], p)
      case Some(i) => Some(i + 1)
      case None => None
  }

  /** The position of the line for `product` (`CartItem.objects.get(cart=..., product=...)`). */
  function LineFor(lines: seq<CartLine>, product: nat): (r: Option<nat>)
    ensures r.Some? ==> r.value < |lines| && lines[r.value].product == product
    ensures r.None? ==> forall i | 0 <= i < |lines| :: lines[i].product != product
  {
    FirstLine(lines, (l: CartLine) => l.product == product)
  }

  /** The position of the line whose id is `id` (`CartItem.objects.get(id=..., cart=...)`).
      It is the same search as `LineFor` on another column; the two stay apart because
      the add view looks lines up by product and the update and remove views by id. */
  function LineById(lines: seq<CartLine>, id: nat): (r: Option<nat>)
    ensures r.Some? ==> r.value < |lines| && lines[r.value].id == id
    ensures r.None? ==> forall i | 0 <= i < |lines| :: lines[i].id != id
  {
    FirstLine(lines, (l: CartLine) => l.id == id)
  }

  /** `Cart.objects.get_or_create(phone_number=phone)`. */
  function GetOrCreateCart(s: Store, phone: string): (r: (Store, nat))
    ensures CartByPhone(r.0.carts, phone) == Some(r.1)
    ensures r.0.(carts := s.carts) == s
    ensures |s.carts| <= |r.0.carts|
    ensures forall k: nat | Has(s.carts, k) :: r.0.carts[k] == s.carts[k]
    ensures forall k: nat | Has(r.0.carts, k) && k != r.1 :: Has(s.carts, k)
    ensures forall ph | ph != phone :: CartByPhone(r.0.carts, ph) == CartByPhone(s.carts, ph)
    ensures CartByPhone(s.carts, phone).Some? ==> r == (s, CartByPhone(s.carts, phone).value)
    ensures CartByPhone(s.carts, phone).None? ==> r.0.carts[r.1] == Some(Cart(phone, []))
  {
    match CartByPhone(s.carts, phone)
    case Some(cid) => (s, cid)
    case None =>
      var carts := Insert(s.carts, Cart(phone, []));
      WhereInsert(s.carts, Cart(phone, []), PhoneIs(phone));
      InsertOtherPhones(s.carts, Cart(phone, []));
      (s.(carts := carts), |s.carts|)
  }

  lemma InsertOtherPhones(carts: Table<Cart>, c: Cart)
    ensures forall ph | ph != c.phone :: CartByPhone(Insert(carts, c), ph) == CartByPhone(carts, ph)
  {
    forall ph | ph != c.phone ensures CartByPhone(Insert(carts, c), ph) == CartByPhone(carts, ph) {
      WhereInsert(carts, c, PhoneIs(ph));
    }
  }

  /** The quantity `add_to_cart_view` adds: the submitted integer, or 1 when the field
      is missing or is not an integer. */
  function AddAmount(qty: FormInt): int {
    match qty
    case Int(n) => n
    case _ => 1
  }

  /** The line for `product`, created with quantity 0 when the cart has none
      (`get_or_create(..., defaults={'quantity': 0})`); returns the lines, the line's
      position and the next free line id. */
  function EnsureLine(lines: seq<CartLine>, product: nat, nextLine: nat): (r: (seq<CartLine>, nat, nat))
    ensures r.1 < |r.0| && r.0[r.1].product == product
    ensures forall p :: QtySum(r.0, p) == QtySum(lines, p)
  {
    match LineFor(lines, product)
    case Some(i) => (lines, i, nextLine)
    case None =>
      QtySumAppendEmpty(lines, CartLine(nextLine, product, 0));
      (lines + [CartLine(nextLine, product, 0)], |lines|, nextLine + 1)
  }

  lemma QtySumAppendEmpty(lines: seq<CartLine>, l: CartLine)
    requires l.quantity == 0
    ensures forall p :: QtySum(lines + [l], p) == QtySum(lines, p)
  {
    forall p ensures QtySum(lines + [l], p) == QtySum(lines, p) {
      QtySumAppend(lines, l, p);
    }
  }

  /** Creating the cart only when the phone has none keeps one cart per phone. */
  lemma GetOrCreateKeepsValid(s: Store, phone: string)
    requires Valid(s)
    ensures Valid(GetOrCreateCart(s, phone).0)
  {
    if CartByPhone(s.carts, phone).None? {
      var t := GetOrCreateCart(s, phone).0;
      assert t.carts == Insert(s.carts, Cart(phone, []));
      assert PhonesUnique(t.carts) by {
        forall i: nat, j: nat | Has(t.carts, i) && Has(t.carts, j) && i != j
          ensures t.carts[i].value.phone != t.carts[j].value.phone
        {
          if i < |s.carts| && j < |s.carts| {
            assert Has(s.carts, i) && Has(s.carts, j);
          }
        }
      }
      forall k: nat | Has(t.carts, k) ensures CartValid(t.products, t.nextLine, t.carts[k].value) {
        if k < |s.carts| {
          assert Has(s.carts, k);
        }
      }
    }
  }

  /** The quantity held for each product, read through the phone's cart before the view. */
  lemma GetOrCreateQuantity(s: Store, phone: string)
    ensures var (s1, cid) := GetOrCreateCart(s, phone);
      forall p :: Quantity(s, phone, p) == QtySum(s1.carts[cid].value.lines, p)
  {
  }

  /** `add_to_cart_view`. The cart is fetched or created first, then the product is looked
      up (in any tenant's catalogue), then the amount is added to its line. */
  function AddToCart(s: Store, phone: string, productId: nat, qty: FormInt): (r: (Store, CartResponse))
    ensures phone == "" ==> r == (s, RedirectLogin)
    ensures r.0.products == s.products && r.0.orders == s.orders && r.0.tenants == s.tenants
    ensures phone != "" && !Has(s.products, productId) ==> r.1 == NotFound
  {
    if phone == "" then (s, RedirectLogin)
    else
      var (s1, cid) := GetOrCreateCart(s, phone);
      if !Has(s1.products, productId) then (s1, NotFound)
      else AddToLine(s1, cid, productId, AddAmount(qty))
  }

  /** The line for the product is fetched or created at quantity 0 and `amount` is added.
      A negative result violates the positive-integer column, so the save fails: the
      response is a server error and the created line remains at 0. */
  function AddToLine(s: Store, cid: nat, productId: nat, amount: int): (r: (Store, CartResponse))
    requires Has(s.carts, cid)
    ensures r.1 == RedirectCart || r.1 == ServerError
    ensures r.0.(carts := s.carts, nextLine := s.nextLine) == s && s.nextLine <= r.0.nextLine
    ensures SamePhones(r.0.carts, s.carts)
    ensures forall k | 0 <= k < |s.carts| && k != cid :: r.0.carts[k] == s.carts[k]
  {
    var cart := s.carts[cid].value;
    var (lines, i, next) := EnsureLine(cart.lines, productId, s.nextLine);
    var s2 := s.(carts := Put(s.carts, cid, Cart(cart.phone, lines)), nextLine := next);
    var quantity := lines[i].quantity + amount;
    if quantity < 0 then (s2, ServerError)
    else (s2.(carts := Put(s2.carts, cid, Cart(cart.phone, lines[i := lines[i].(quantity := quantity)]))),
          RedirectCart)
  }

  /** On one cart, adding changes the held quantity of that product alone, by `amount`,
      and fails exactly when the product's line would go negative. */
  lemma AddToLineQuantities(s: Store, cid: nat, productId: nat, amount: int)
    requires Has(s.carts, cid) && CartValid(s.products, s.nextLine, s.carts[cid].value)
    ensures var r := AddToLine(s, cid, productId, amount);
      var before := s.carts[cid].value.lines;
      var after := r.0.carts[cid].value.lines;
      && (r.1 == RedirectCart <==> QtySum(before, productId) + amount >= 0)
      && (r.1 == RedirectCart ==> QtySum(after, productId) == QtySum(before, productId) + amount)
      && (r.1 == ServerError ==> QtySum(after, productId) == QtySum(before, productId))
      && (forall p | p != productId :: QtySum(after, p) == QtySum(before, p))
  {
    var cart := s.carts[cid].value;
    var (lines, i, next) := EnsureLine(cart.lines, productId, s.nextLine);
    EnsureLineDistinct(cart.lines, productId, s.nextLine);
    var quantity := lines[i].quantity + amount;
    var r := AddToLine(s, cid, productId, amount);
    var after := r.0.carts[cid].value.lines;
    QtySumOfLine(lines, i);
    if quantity >= 0 {
      assert after == lines[i := lines[i].(quantity := quantity)];
      SetQuantitySums(lines, i, quantity);
    } else {
      assert after == lines;
    }
  }

  /** The line `EnsureLine` finds or creates is the only one for its product. */
  lemma EnsureLineDistinct(lines: seq<CartLine>, product: nat, nextLine: nat)
    requires forall a, b | 0 <= a < b < |lines| :: lines[a].product != lines[b].product
    ensures var r := EnsureLine(lines, product, nextLine).0;
      forall a, b | 0 <= a < b < |r| :: r[a].product != r[b].product
  {
  }

  /** Setting the quantity of line `i` changes the held quantity of its product alone. */
  lemma SetQuantitySums(lines: seq<CartLine>, i: nat, q: nat)
    requires i < |lines|
    ensures QtySum(lines[i := lines[i].(quantity := q)], lines[i].product)
         == QtySum(lines, lines[i].product) - lines[i].quantity + q
    ensures forall p | p != lines[i].product :: QtySum(lines[i := lines[i].(quantity := q)], p) == QtySum(lines, p)
  {
    var l := lines[i].(quantity := q);
    forall p ensures QtySum(lines[i := l], p)
        == QtySum(lines, p) - (if lines[i].product == p then lines[i].quantity else 0)
           + (if l.product == p then l.quantity else 0) {
      QtySumUpdate(lines, i, l, p);
    }
  }

  /** On one cart, adding keeps the store invariant when the product exists. */
  lemma AddToLineKeepsValid(s: Store, cid: nat, productId: nat, amount: int)
    requires Valid(s) && Has(s.carts, cid) && Has(s.products, productId)
    ensures Valid(AddToLine(s, cid, productId, amount).0)
  {
    var cart := s.carts[cid].value;
    assert CartValid(s.products, s.nextLine, cart);
    EnsureLineValid(s.products, s.nextLine, cart, productId);
    var (lines, i, next) := EnsureLine(cart.lines, productId, s.nextLine);
    var quantity := lines[i].quantity + amount;
    if quantity >= 0 {
      SetLineQuantityValid(s.products, next, Cart(cart.phone, lines), i, quantity);
    }
    ValidFrame(s, AddToLine(s, cid, productId, amount).0, cid);
  }

  lemma EnsureLineValid(products: Table<Product>, nextLine: nat, cart: Cart, productId: nat)
    requires CartValid(products, nextLine, cart) && Has(products, productId)
    ensures var (lines, _, next) := EnsureLine(cart.lines, productId, nextLine);
      nextLine <= next && CartValid(products, next, Cart(cart.phone, lines))
  {
  }

  /** Changing one line's quantity keeps a cart valid. */
  lemma SetLineQuantityValid(products: Table<Product>, nextLine: nat, cart: Cart, i: nat, q: nat)
    requires CartValid(products, nextLine, cart) && i < |cart.lines|
    ensures CartValid(products, nextLine, cart.(lines := cart.lines[i := cart.lines[i].(quantity := q)]))
  {
  }

  /** Adding changes the quantity of exactly one product in exactly one cart: the
      product's quantity in the buyer's cart grows by the submitted amount (1 when the
      amount is missing or unreadable), and the view fails instead when that would make
      the quantity negative. */
  lemma AddToCartQuantities(s: Store, phone: string, productId: nat, qty: FormInt)
    requires Valid(s) && phone != "" && Has(s.products, productId)
    ensures var r := AddToCart(s, phone, productId, qty);
      && (r.1 == RedirectCart <==> Quantity(s, phone, productId) + AddAmount(qty) >= 0)
      && (r.1 != RedirectCart ==> r.1 == ServerError)
      && (r.1 == RedirectCart ==>
            Quantity(r.0, phone, productId) == Quantity(s, phone, productId) + AddAmount(qty))
      && (r.1 == ServerError ==> Quantity(r.0, phone, productId) == Quantity(s, phone, productId))
      && (forall p | p != productId :: Quantity(r.0, phone, p) == Quantity(s, phone, p))
      && (forall ph, p | ph != phone :: Quantity(r.0, ph, p) == Quantity(s, ph, p))
  {
    AddToCartOwnCart(s, phone, productId, qty);
    AddToCartOtherPhones(s, phone, productId, qty);
  }

  /** The buyer's own cart after adding. */
  lemma AddToCartOwnCart(s: Store, phone: string, productId: nat, qty: FormInt)
    requires Valid(s) && phone != "" && Has(s.products, productId)
    ensures var r := AddToCart(s, phone, productId, qty);
      && (r.1 == RedirectCart <==> Quantity(s, phone, productId) + AddAmount(qty) >= 0)
      && (r.1 != RedirectCart ==> r.1 == ServerError)
      && (r.1 == RedirectCart ==>
            Quantity(r.0, phone, productId) == Quantity(s, phone, productId) + AddAmount(qty))
      && (r.1 == ServerError ==> Quantity(r.0, phone, productId) == Quantity(s, phone, productId))
      && (forall p | p != productId :: Quantity(r.0, phone, p) == Quantity(s, phone, p))
  {
    var (s1, cid) := GetOrCreateCart(s, phone);
    GetOrCreateQuantity(s, phone);
    assert CartValid(s1.products, s1.nextLine, s1.carts[cid].value) by {
      if CartByPhone(s.carts, phone).None? {
        assert s1.carts[cid].value == Cart(phone, []);
      }
    }
    AddToLineQuantities(s1, cid, productId, AddAmount(qty));
    var t := AddToLine(s1, cid, productId, AddAmount(qty)).0;
    CartByPhoneSamePhones(t.carts, s1.carts);
  }

  /** The carts of other phones after adding. */
  lemma AddToCartOtherPhones(s: Store, phone: string, productId: nat, qty: FormInt)
    requires phone != "" && Has(s.products, productId)
    ensures var r := AddToCart(s, phone, productId, qty);
      forall ph, p | ph != phone :: Quantity(r.0, ph, p) == Quantity(s, ph, p)
  {
    var (s1, cid) := GetOrCreateCart(s, phone);
    var t := AddToLine(s1, cid, productId, AddAmount(qty)).0;
    CartByPhoneSamePhones(t.carts, s1.carts);
    forall ph, p | ph != phone ensures Quantity(t, ph, p) == Quantity(s, ph, p) {
      match CartByPhone(s.carts, ph)
      case None =>
      case Some(k) =>
        assert k != cid;
    }
  }

  /** Adding keeps the store invariant: one cart per phone, one line per product, fresh
      line ids, lines pointing at existing products. */
  lemma AddToCartKeepsValid(s: Store, phone: string, productId: nat, qty: FormInt)
    requires Valid(s)
    ensures Valid(AddToCart(s, phone, productId, qty).0)
  {
    if phone != "" {
      var (s1, cid) := GetOrCreateCart(s, phone);
      GetOrCreateKeepsValid(s, phone);
      if Has(s1.products, productId) {
        AddToLineKeepsValid(s1, cid, productId, AddAmount(qty));
      }
    }
  }

  /** The lines other than those with id `id`, in order. */
  function WithoutLine(lines: seq<CartLine>, id: nat): (r: seq<CartLine>)
    decreases |lines|
  {
    if |lines| == 0 then []
    else (if lines[0].id == id then [] else [lines[0]]) + WithoutLine(lines[1..], id)
  }

  lemma {:induction false} WithoutAbsentLine(lines: seq<CartLine>, id: nat)
    requires forall i | 0 <= i < |lines| :: lines[i].id != id
    ensures WithoutLine(lines, id) == lines
    decreases |lines|
  {
    if |lines| > 0 {
      WithoutAbsentLine(lines[1..], id);
    }
  }

  /** With distinct ids, cutting out the line at `i` is filtering out its id. */
  lemma {:induction false} CutIsWithoutLine(lines: seq<CartLine>, i: nat)
    requires i < |lines|
    requires forall a, b | 0 <= a < b < |lines| :: lines[a].id != lines[b].id
    ensures lines[..i] + lines[i + 1..] == WithoutLine(lines, lines[i].id)
    decreases i
  {
    if i == 0 {
      WithoutAbsentLine(lines[1..], lines[0].id);
    } else {
      CutIsWithoutLine(lines[1..], i - 1);
      assert lines[..i] == [lines[0]] + lines[1..][..i - 1];
      assert lines[i + 1..] == lines[1..][i..];
    }
  }

  /** `remove_from_cart_view`: the line must belong to the buyer's own cart; a missing
      cart or line is not an error. */
  function RemoveFromCart(s: Store, phone: string, itemId: nat): (r: (Store, CartResponse))
    ensures phone == "" ==> r == (s, RedirectLogin)
    ensures phone != "" ==> r.1 == RedirectCart
  {
    if phone == "" then (s, RedirectLogin)
    else match CartByPhone(s.carts, phone)
      case None => (s, RedirectCart)
      case Some(cid) =>
        var cart := s.carts[cid].value;
        match LineById(cart.lines, itemId)
        case None => (s, RedirectCart)
        case Some(i) =>
          (s.(carts := Put(s.carts, cid, cart.(lines := cart.lines[..i] + cart.lines[i + 1..]))), RedirectCart)
  }

  /** Removing drops exactly the line with that id from the buyer's cart and touches
      nothing else; an id that is not in the buyer's cart (or no cart) changes nothing. */
  lemma RemoveFromCartEffect(s: Store, phone: string, itemId: nat)
    requires Valid(s) && phone != ""
    ensures var t := RemoveFromCart(s, phone, itemId).0;
      match CartByPhone(s.carts, phone)
      case None => t == s
      case Some(cid) =>
        && t.(carts := s.carts) == s
        && |t.carts| == |s.carts|
        && (forall k | 0 <= k < |s.carts| && k != cid :: t.carts[k] == s.carts[k])
        && t.carts[cid] == Some(Cart(phone, WithoutLine(s.carts[cid].value.lines, itemId)))
        && ((forall i | 0 <= i < |s.carts[cid].value.lines| :: s.carts[cid].value.lines[i].id != itemId)
              ==> t == s)
  {
    match CartByPhone(s.carts, phone)
    case None =>
    case Some(cid) =>
      var cart := s.carts[cid].value;
      match LineById(cart.lines, itemId)
      case None =>
        WithoutAbsentLine(cart.lines, itemId);
        assert s.carts[cid] == Some(Cart(phone, cart.lines));
      case Some(i) =>
        CutIsWithoutLine(cart.lines, i);
  }

  /** Removing keeps the store invariant. */
  lemma RemoveFromCartKeepsValid(s: Store, phone: string, itemId: nat)
    requires Valid(s)
    ensures Valid(RemoveFromCart(s, phone, itemId).0)
  {
    if phone != "" {
      match CartByPhone(s.carts, phone)
      case None =>
      case Some(cid) =>
        var cart := s.carts[cid].value;
        match LineById(cart.lines, itemId)
        case None =>
        case Some(i) =>
          CutLineValid(s.products, s.nextLine, cart, i);
          PutCartValid(s, cid, cart.(lines := cart.lines[..i] + cart.lines[i + 1..]));
    }
  }

  /** Dropping one line keeps a cart valid. */
  lemma CutLineValid(products: Table<Product>, nextLine: nat, cart: Cart, i: nat)
    requires CartValid(products, nextLine, cart) && i < |cart.lines|
    ensures CartValid(products, nextLine, cart.(lines := cart.lines[..i] + cart.lines[i + 1..]))
  {
    var lines := cart.lines[..i] + cart.lines[i + 1..];
    assert forall a | 0 <= a < |lines| :: lines[a] == cart.lines[if a < i then a else a + 1];
  }

  /** Replacing a cart by a valid one with the same phone keeps the store invariant. */
  lemma PutCartValid(s: Store, cid: nat, cart: Cart)
    requires Valid(s) && Has(s.carts, cid) && cart.phone == s.carts[cid].value.phone
    requires CartValid(s.products, s.nextLine, cart)
    ensures Valid(s.(carts := Put(s.carts, cid, cart)))
  {
    var t := Put(s.carts, cid, cart);
    forall k: nat | Has(t, k) ensures t[k].value.phone == s.carts[k].value.phone {
    }
  }

  /** The lines with the quantity of line `id` set to `n`. */
  function SetQuantity(lines: seq<CartLine>, id: nat, n: nat): (r: seq<CartLine>)
    ensures |r| == |lines|
  {
    seq(|lines|, i requires 0 <= i < |lines| =>
      if lines[i].id == id then lines[i].(quantity := n) else lines[i])
  }

  /** `update_cart_item_view`. Only a POST does anything. The line must be in the
      buyer's cart; a missing quantity field reads as 1, text that is not an integer
      is ignored, and a quantity of 0 or less is ignored too. */
  function UpdateCartItem(s: Store, phone: string, itemId: nat, qty: FormInt, isPost: bool): (r: (Store, CartResponse))
    ensures !isPost ==> r == (s, RedirectCart)
    ensures isPost && phone == "" ==> r == (s, RedirectLogin)
  {
    if !isPost then (s, RedirectCart)
    else if phone == "" then (s, RedirectLogin)
    else match CartByPhone(s.carts, phone)
      case None => (s, RedirectCart)
      case Some(cid) =>
        var cart := s.carts[cid].value;
        match LineById(cart.lines, itemId)
        case None => (s, RedirectCart)
        case Some(i) =>
          var n := match qty case Absent => 1 case Int(k) => k case Garbage => 0;
          if n > 0 then
            (s.(carts := Put(s.carts, cid, cart.(lines := cart.lines[i := cart.lines[i].(quantity := n)]))),
             RedirectCart)
          else (s, RedirectCart)
  }

  /** A positive quantity (1 when the field is missing) becomes the line's quantity and
      nothing else changes; zero, a negative number or unreadable text changes nothing. */
  lemma UpdateCartItemEffect(s: Store, phone: string, itemId: nat, qty: FormInt)
    requires Valid(s) && phone != ""
    ensures var t := UpdateCartItem(s, phone, itemId, qty, true).0;
      && (qty.Garbage? || (qty.Int? && qty.n <= 0) ==> t == s)
      && (qty.Absent? || (qty.Int? && qty.n > 0) ==>
            var n := if qty.Absent? then 1 else qty.n;
            match CartByPhone(s.carts, phone)
            case None => t == s
            case Some(cid) =>
              && t.(carts := s.carts) == s
              && |t.carts| == |s.carts|
              && (forall k | 0 <= k < |s.carts| && k != cid :: t.carts[k] == s.carts[k])
              && t.carts[cid] == Some(Cart(phone, SetQuantity(s.carts[cid].value.lines, itemId, n))))
  {
    if qty.Absent? || (qty.Int? && qty.n > 0) {
      var n := if qty.Absent? then 1 else qty.n;
      match CartByPhone(s.carts, phone)
      case None =>
      case Some(cid) =>
        var cart := s.carts[cid].value;
        match LineById(cart.lines, itemId)
        case None =>
          assert SetQuantity(cart.lines, itemId, n) == cart.lines;
          assert s.carts[cid] == Some(Cart(phone, cart.lines));
        case Some(i) =>
          assert SetQuantity(cart.lines, itemId, n) == cart.lines[i := cart.lines[i].(quantity := n)];
    }
  }

  /** Updating keeps the store invariant. */
  lemma UpdateCartItemKeepsValid(s: Store, phone: string, itemId: nat, qty: FormInt, isPost: bool)
    requires Valid(s)
    ensures Valid(UpdateCartItem(s, phone, itemId, qty, isPost).0)
  {
    if isPost && phone != "" {
      match CartByPhone(s.carts, phone)
      case None =>
      case Some(cid) =>
        var cart := s.carts[cid].value;
        match LineById(cart.lines, itemId)
        case None =>
        case Some(i) =>
          var n := match qty case Absent => 1 case Int(k) => k case Garbage => 0;
          if n > 0 {
            SetLineQuantityValid(s.products, s.nextLine, cart, i, n);
            PutCartValid(s, cid, cart.(lines := cart.lines[i := cart.lines[i].(quantity := n)]));
          }
    }
  }
}

=== FILE: shop_models.dfy ===
/** The storefront's records: tenants, products, guest carts and paid orders.

    Money is counted in integer cents (the columns are decimals with two places). A cart
    holds its lines, as the `items` relation of a cart does; line ids come from one
    counter shared by every cart, as the primary key of the cart-item table does. */
module ShopModels {
  import opened Wrappers
  import opened Tables

  /** A merchant. `mercadopagoKey` is the gateway credential, blank when not configured;
      `promotionCategory` is the category shown first on the storefront; `displayOrder`
      is the storefront ordering preference; `isOpen` tells whether the store takes
      orders; `numeroMesas` is the number of tables of a bar. */
  datatype Tenant = Tenant(name: string, slug: string, mercadopagoKey: string,
                           promotionCategory: Option<nat>, displayOrder: string,
                           isOpen: bool, numeroMesas: nat)

  /** The ordering preference a new tenant gets. */
  const DefaultDisplayOrder: string := "newest"

  /** The number of tables a new tenant gets. */
  const DefaultNumeroMesas: nat := 10

  /** `Tenant.save`: a blank slug is generated from the name (`slugified` is what the
      slug generator made of it); a slug that is already set is never replaced. */
  function SaveTenant(t: Tenant, slugified: string): (r: Tenant)
    ensures t.slug != "" ==> r.slug == t.slug
    ensures t.slug == "" ==> r.slug == slugified
    ensures r.(slug := t.slug) == t
  {
    if t.slug == "" then t.(slug := slugified) else t
  }

  /** Once a save has produced a non-blank slug, saving again keeps it, whatever the
      generator would now make of the name. */
  lemma SaveTenantKeepsSlug(t: Tenant, first: string, later: string)
    requires SaveTenant(t, first).slug != ""
    ensures SaveTenant(SaveTenant(t, first), later) == SaveTenant(t, first)
  {
  }

  datatype Product = Product(tenant: nat, category: nat, name: string, price: int)

  /** The product a line points at. Deleting a product deletes the cart lines that point
      at it, so a dangling reference (answered with a zero-priced placeholder) does not
      occur in a `Valid` store. */
  function ProductOf(products: Table<Product>, id: nat): Product {
    if Has(products, id) then products[id].value else Product(0, 0, "", 0)
  }

  datatype CartLine = CartLine(id: nat, product: nat, quantity: nat)

  /** A guest cart, identified by the buyer's phone number. */
  datatype Cart = Cart(phone: string, lines: seq<CartLine>)

  datatype OrderStatus = Pending | Paid | Shipped | Cancelled

  /** The status an order gets when none is given. */
  const DefaultOrderStatus: OrderStatus := Pending

  /** A bought line, stored by value: it does not point at the product, so later changes
      to the catalogue cannot alter it. */
  datatype OrderItem = OrderItem(productName: string, quantity: nat, price: int)

  datatype Order = Order(tenant: nat, customerPhone: string, totalAmount: int,
                         status: OrderStatus, items: seq<OrderItem>)

  datatype Store = Store(tenants: Table<Tenant>, products: Table<Product>,
                         carts: Table<Cart>, orders: Table<Order>, nextLine: nat)

  /** `CartItem.subtotal`: the live product price times the quantity. */
  function Subtotal(products: Table<Product>, line: CartLine): int {
    ProductOf(products, line.product).price * line.quantity
  }

  /** `Cart.total`: the sum of the line subtotals, so a cart without lines totals zero and
      one whose subtotals are all at least zero totals at least zero. */
  function Total(products: Table<Product>, lines: seq<CartLine>): (r: int)
    ensures |lines| == 0 ==> r == 0
    ensures (forall i | 0 <= i < |lines| :: Subtotal(products, lines[i]) >= 0) ==> r >= 0
    decreases |lines|
  {
    if |lines| == 0 then 0
    else
      var n := |lines| - 1;
      assert forall i | 0 <= i < n :: lines[..n][i] == lines[i];
      Total(products, lines[..n]) + Subtotal(products, lines[n])
  }

  /** The total of two runs of lines is the sum of their totals, so the total does not
      depend on how the lines are grouped and an empty cart totals zero. */
  lemma {:induction false} TotalConcat(products: Table<Product>, a: seq<CartLine>, b: seq<CartLine>)
    ensures Total(products, a + b) == Total(products, a) + Total(products, b)
    ensures Total(products, []) == 0
    decreases |b|
  {
    if |b| > 0 {
      var n := |b| - 1;
      assert (a + b)[..|a + b| - 1] == a + b[..n];
      TotalConcat(products, a, b[..n]);
    } else {
      assert a + b == a;
    }
  }

  /** The worked example: two of a 10.00 product and one of a 5.50 product cost 25.50. */
  lemma TotalExample(products: Table<Product>, a: nat, b: nat)
    requires Has(products, a) && products[a].value.price == 1000
    requires Has(products, b) && products[b].value.price == 550
    ensures Total(products, [CartLine(1, a, 2), CartLine(2, b, 1)]) == 2550
  {
    var lines := [CartLine(1, a, 2), CartLine(2, b, 1)];
    assert lines[..1] == [CartLine(1, a, 2)];
    assert lines[..1][..0] == [];
    assert Total(products, lines[..1]) == 2000;
  }

  /** The sum of price times quantity over the bought lines of an order. */
  function ItemsTotal(items: seq<OrderItem>): int
    decreases |items|
  {
    if |items| == 0 then 0
    else ItemsTotal(items[..|items| - 1]) + items[|items| - 1].price * items[|items| - 1].quantity
  }

  /** The bought line for one cart line: the product's name and price of the moment, and
      the line's quantity. */
  function BoughtLine(products: Table<Product>, line: CartLine): OrderItem {
    OrderItem(ProductOf(products, line.product).name, line.quantity, ProductOf(products, line.product).price)
  }

  /** One more bought line adds its price times its quantity. */
  lemma ItemsTotalSnoc(front: seq<OrderItem>, last: OrderItem)
    ensures ItemsTotal(front + [last]) == ItemsTotal(front) + last.price * last.quantity
  {
    assert (front + [last])[..|front|] == front;
  }

  /** The order lines copied from cart lines, one per cart line in the same order; they
      add up, on their own, to the cart total they were copied from. */
  function Snapshot(products: Table<Product>, lines: seq<CartLine>): (items: seq<OrderItem>)
    ensures |items| == |lines|
    ensures forall i | 0 <= i < |lines| :: items[i] == BoughtLine(products, lines[i])
    ensures ItemsTotal(items) == Total(products, lines)
    decreases |lines|
  {
    if |lines| == 0 then []
    else
      var n := |lines| - 1;
      var front := Snapshot(products, lines[..n]);
      var last := BoughtLine(products, lines[n]);
      ItemsTotalSnoc(front, last);
      front + [last]
  }

  /** The bought lines alone add up to the cart total they were copied from. */
  lemma SnapshotTotal(products: Table<Product>, lines: seq<CartLine>)
    ensures ItemsTotal(Snapshot(products, lines)) == Total(products, lines)
  {
  }

  /** The quantity of `product` held in a run of lines. */
  function QtySum(lines: seq<CartLine>, product: nat): nat
    decreases |lines|
  {
    if |lines| == 0 then 0
    else
      var last := lines[|lines| - 1];
      QtySum(lines[..|lines| - 1], product) + (if last.product == product then last.quantity else 0)
  }

  lemma QtySumAppend(lines: seq<CartLine>, l: CartLine, product: nat)
    ensures QtySum(lines + [l], product)
         == QtySum(lines, product) + (if l.product == product then l.quantity else 0)
  {
    assert (lines + [l])[..|lines|] == lines;
  }

  /** Replacing one line changes the held quantity by the difference of the two lines. */
  lemma {:induction false} QtySumUpdate(lines: seq<CartLine>, i: nat, l: CartLine, product: nat)
    requires i < |lines|
    ensures QtySum(lines[i := l], product)
         == QtySum(lines, product)
            - (if lines[i].product == product then lines[i].quantity else 0)
            + (if l.product == product then l.quantity else 0)
    decreases |lines|
  {
    var n := |lines| - 1;
    if i < n {
      assert lines[i := l][..n] == lines[..n][i := l];
      QtySumUpdate(lines[..n], i, l, product);
    } else {
      assert lines[i := l][..n] == lines[..n];
    }
  }

  /** The guest cart of a phone number (`Cart.objects.get(phone_number=...)`). */
  function CartByPhone(carts: Table<Cart>, phone: string): (r: Option<nat>)
    ensures r.Some? ==> Has(carts, r.value) && carts[r.value].value.phone == phone
    ensures r.None? ==> forall k: nat | Has(carts, k) :: carts[k].value.phone != phone
  {
    var ids := Where(carts, PhoneIs(phone));
    if |ids| == 0 then None else Some(ids[0])
  }

  function PhoneIs(phone: string): Cart -> bool {
    (c: Cart) => c.phone == phone
  }

  /** Two states of the cart table with the same live rows under the same phones. */
  predicate SamePhones(t: Table<Cart>, u: Table<Cart>) {
    && |t| == |u|
    && forall k | 0 <= k < |t| ::
         t[k].Some? == u[k].Some? && (t[k].Some? ==> t[k].value.phone == u[k].value.phone)
  }

  /** Changing carts' lines without changing their phones leaves every phone's cart where it was. */
  lemma CartByPhoneSamePhones(t: Table<Cart>, u: Table<Cart>)
    requires SamePhones(t, u)
    ensures forall ph :: CartByPhone(t, ph) == CartByPhone(u, ph)
  {
    forall ph ensures CartByPhone(t, ph) == CartByPhone(u, ph) {
      WhereSame(t, u, PhoneIs(ph));
    }
  }

  /** Deleting a cart leaves the carts of the other phones where they were. */
  lemma CartByPhoneAfterDelete(carts: Table<Cart>, cid: nat)
    requires Has(carts, cid)
    ensures forall ph | ph != carts[cid].value.phone ::
      CartByPhone(Delete(carts, cid), ph) == CartByPhone(carts, ph)
  {
    forall ph | ph != carts[cid].value.phone
      ensures CartByPhone(Delete(carts, cid), ph) == CartByPhone(carts, ph)
    {
      WhereSame(Delete(carts, cid), carts, PhoneIs(ph));
    }
  }

  /** How many of `product` the cart of `phone` holds; zero when there is no cart. */
  function Quantity(s: Store, phone: string, product: nat): nat {
    match CartByPhone(s.carts, phone)
    case Some(cid) => QtySum(s.carts[cid].value.lines, product)
    case None => 0
  }

  /** The phone number column is unique: at most one cart per phone. */
  ghost predicate PhonesUnique(carts: Table<Cart>) {
    forall i: nat, j: nat | Has(carts, i) && Has(carts, j) && i != j ::
      carts[i].value.phone != carts[j].value.phone
  }

  /** One line per product, line ids ascending (the lines are listed in primary-key
      order, as an unordered `cart.items` query returns them) and below the id counter,
      and every line pointing at an existing product. */
  predicate CartValid(products: Table<Product>, nextLine: nat, cart: Cart) {
    && (forall i, j | 0 <= i < j < |cart.lines| ::
          cart.lines[i].product != cart.lines[j].product && cart.lines[i].id < cart.lines[j].id)
    && (forall i | 0 <= i < |cart.lines| ::
          cart.lines[i].id < nextLine && Has(products, cart.lines[i].product))
  }

  /** The store invariant every cart operation keeps. */
  ghost predicate Valid(s: Store) {
    && PhonesUnique(s.carts)
    && (forall k: nat | Has(s.carts, k) :: CartValid(s.products, s.nextLine, s.carts[k].value))
  }

  /** A change confined to the lines of cart `cid` keeps the invariant when that cart's
      new lines are valid and the id counter does not go back. */
  lemma ValidFrame(s: Store, t: Store, cid: nat)
    requires Valid(s)
    requires SamePhones(t.carts, s.carts) && t.products == s.products && s.nextLine <= t.nextLine
    requires forall k | 0 <= k < |s.carts| && k != cid :: t.carts[k] == s.carts[k]
    requires Has(t.carts, cid) ==> CartValid(t.products, t.nextLine, t.carts[cid].value)
    ensures Valid(t)
  {
    forall k: nat | Has(t.carts, k) ensures CartValid(t.products, t.nextLine, t.carts[k].value) {
      if k != cid {
        assert CartValid(s.products, s.nextLine, s.carts[k].value);
      }
    }
  }

  /** With one line per product, the held quantity is the quantity of that line. */
  lemma {:induction false} QtySumOfLine(lines: seq<CartLine>, i: nat)
    requires i < |lines|
    requires forall a, b | 0 <= a < b < |lines| :: lines[a].product != lines[b].product
    ensures QtySum(lines, lines[i].product) == lines[i].quantity
    decreases |lines|
  {
    var n := |lines| - 1;
    if i < n {
      QtySumOfLine(lines[..n], i);
    } else {
      QtySumAbsent(lines[..n], lines[i].product);
    }
  }

  lemma {:induction false} QtySumAbsent(lines: seq<CartLine>, product: nat)
    requires forall a | 0 <= a < |lines| :: lines[a].product != product
    ensures QtySum(lines, product) == 0
    decreases |lines|
  {
    if |lines| > 0 {
      QtySumAbsent(lines[..|lines| - 1], product);
    }
  }
}

=== FILE: shop_payment.dfy ===
/** Turning a paid cart into an order, and the two gateway callbacks that do it: the
    buyer's redirect back to the store and the gateway's server-to-server notification.
    The gateway's payment lookup is a parameter: a function from a payment id to the
    reply it would give, `None` when the call itself fails. */
module ShopPayment {
  import opened Wrappers
  import opened Text
  import opened Tables
  import opened ShopModels

  datatype Materialised = Created(orderId: nat) | CartGone | Crashed

  /** `_create_order_from_cart` on the cart `cid`, preceded by `Cart.objects.get(id=...)`.
      A missing cart is reported as gone and nothing changes. An empty cart has no first
      line to take the tenant from, so the step fails before writing anything. Otherwise
      the order is created as paid with the cart's phone and total and one bought line
      per cart line, and the cart (with its lines) is deleted. */
  function Materialise(s: Store, cid: nat): (r: (Store, Materialised))
    ensures r.1.CartGone? <==> !Has(s.carts, cid)
    ensures !r.1.Created? ==> r.0 == s
    ensures r.1.Created? ==>
      && r.1.orderId == |s.orders|
      && |r.0.orders| == |s.orders| + 1
      && r.0.orders[..|s.orders|] == s.orders
      && r.0 == s.(orders := r.0.orders, carts := Delete(s.carts, cid))
  {
    if !Has(s.carts, cid) then (s, CartGone)
    else
      var cart := s.carts[cid].value;
      if |cart.lines| == 0 then (s, Crashed)
      else
        var tenant := ProductOf(s.products, cart.lines[0].product).tenant;
        var order := Order(tenant, cart.phone, Total(s.products, cart.lines), Paid,
                           Snapshot(s.products, cart.lines));
        (s.(orders := Insert(s.orders, order), carts := Delete(s.carts, cid)), Created(|s.orders|))
  }

  /** The created order is a faithful copy of the cart: the buyer's phone, status paid,
      the tenant of the first product, one bought line per cart line carrying that
      product's name, the quantity and the price of the moment, and a total equal both
      to the cart total and to the sum over the bought lines. */
  lemma MaterialiseSnapshot(s: Store, cid: nat)
    requires Has(s.carts, cid) && |s.carts[cid].value.lines| > 0
    ensures var (t, m) := Materialise(s, cid);
      var cart := s.carts[cid].value;
      && m.Created?
      && Has(t.orders, m.orderId)
      && var o := t.orders[m.orderId].value;
      && o.status == Paid
      && o.customerPhone == cart.phone
      && o.tenant == ProductOf(s.products, cart.lines[0].product).tenant
      && o.totalAmount == Total(s.products, cart.lines)
      && o.totalAmount == ItemsTotal(o.items)
      && |o.items| == |cart.lines|
      && (forall i | 0 <= i < |cart.lines| ::
            && o.items[i].productName == ProductOf(s.products, cart.lines[i].product).name
            && o.items[i].quantity == cart.lines[i].quantity
            && o.items[i].price == ProductOf(s.products, cart.lines[i].product).price)
      && !Has(t.carts, cid)
  {
    SnapshotTotal(s.products, s.carts[cid].value.lines);
  }

  /** Bought lines are values: once the order exists, changing the catalogue (a product's
      name or price, or deleting it) leaves the order's lines and total as they were. */
  lemma OrderIndependentOfCatalogue(s: Store, cid: nat, products: Table<Product>)
    requires Has(s.carts, cid) && |s.carts[cid].value.lines| > 0
    ensures var (t, m) := Materialise(s, cid);
      t.(products := products).orders[m.orderId] == t.orders[m.orderId]
  {
  }

  /** Materialising the same cart twice creates one order: the second call finds no cart
      and changes nothing. */
  lemma MaterialiseTwice(s: Store, cid: nat)
    ensures var (t, m) := Materialise(s, cid);
      Materialise(t, cid) == (t, if m.Crashed? then Crashed else CartGone)
  {
  }

  /** Deleting a cart keeps the store invariant. */
  lemma MaterialiseKeepsValid(s: Store, cid: nat)
    requires Valid(s)
    ensures Valid(Materialise(s, cid).0)
  {
    var t := Materialise(s, cid).0;
    forall k: nat | Has(t.carts, k) ensures CartValid(t.products, t.nextLine, t.carts[k].value) {
      assert Has(s.carts, k);
    }
    assert PhonesUnique(t.carts) by {
      forall i: nat, j: nat | Has(t.carts, i) && Has(t.carts, j) && i != j
        ensures t.carts[i].value.phone != t.carts[j].value.phone
      {
        assert Has(s.carts, i) && Has(s.carts, j);
      }
    }
  }

  datatype Page = ErrorPage | SuccessPage

  /** The payment status of the redirect: `collection_status`, or `status` when that is
      missing or blank. Missing query parameters are blank strings here. */
  function RedirectStatus(collectionStatus: string, status: string): string {
    if collectionStatus != "" then collectionStatus else status
  }

  /** The redirect only acts on an approved payment that names a cart. */
  predicate RedirectApproved(externalRef: string, collectionStatus: string, status: string) {
    externalRef != "" && RedirectStatus(collectionStatus, status) == "approved"
  }

  /** `payment_success_view`. Without a cart reference or an approved status the buyer sees
      the error page and nothing changes. Otherwise the buyer sees the success page
      whatever happens next: a reference that is not a key, a cart already gone (the
      notification got there first) and an empty cart are all swallowed. */
  function PaymentSuccess(s: Store, externalRef: string, collectionStatus: string, status: string): (r: (Store, Page))
    ensures r.1 == SuccessPage <==> RedirectApproved(externalRef, collectionStatus, status)
    ensures r.0 != s ==> RedirectApproved(externalRef, collectionStatus, status)
    ensures r.0 != s ==> ParseNat(externalRef).Some? && Has(s.carts, ParseNat(externalRef).value)
  {
    if !RedirectApproved(externalRef, collectionStatus, status) then (s, ErrorPage)
    else match ParseNat(externalRef)
      case None => (s, SuccessPage)
      case Some(cid) => (Materialise(s, cid).0, SuccessPage)
  }

  /** An approved redirect for an existing, non-empty cart does create the order. */
  lemma PaymentSuccessCreates(s: Store, cid: nat, collectionStatus: string, status: string)
    requires RedirectApproved(NatToString(cid), collectionStatus, status)
    requires Has(s.carts, cid) && |s.carts[cid].value.lines| > 0
    ensures PaymentSuccess(s, NatToString(cid), collectionStatus, status).0 == Materialise(s, cid).0
    ensures Materialise(s, cid).1.Created?
  {
    ParseNatToString(cid);
  }

  /** The fields of a notification body that the webhook reads; blank when absent. */
  datatype Notification = Notification(kind: string, dataId: string, topic: string, resource: string)

  /** The query string of the notification request; blank when absent. */
  datatype Query = Query(topic: string, id: string)

  /** Where the webhook finds the payment id, before any URL is cut down: the new-style
      `type == "payment"` notification carries it in `data.id`; the old-style
      `topic == "payment"` one in `resource`, or in the query's `id` when that is blank;
      failing both, a query `topic == "payment"` gives the query's `id`. */
  function RawPaymentId(n: Notification, q: Query): (id: string)
    ensures n.kind == "payment" && n.dataId != "" ==> id == n.dataId
    ensures n.kind != "payment" && n.topic == "payment" && n.resource != "" ==> id == n.resource
    ensures n.kind != "payment" && n.topic == "payment" && n.resource == "" && q.id != "" ==> id == q.id
    ensures id != "" ==> id in {n.dataId, n.resource, q.id}
    ensures id == "" <==>
      ((n.kind == "payment" && n.dataId == "") || (n.kind != "payment" && (n.topic != "payment" || n.resource == "")))
      && (q.topic != "payment" || q.id == "")
      && (n.kind != "payment" && n.topic == "payment" ==> q.id == "")
  {
    var first :=
      if n.kind == "payment" then n.dataId
      else if n.topic == "payment" then (if n.resource != "" then n.resource else q.id)
      else "";
    if first == "" && q.topic == "payment" then q.id else first
  }

  /** The last `/`-separated piece of a text (`s.split('/')[-1]`). */
  function LastSegment(s: string): (r: string)
    ensures '/' !in r
  {
    var parts := Split(s, '/');
    parts[|parts| - 1]
  }

  /** An id given as a URL is cut down to its last path segment; anything else is kept. */
  function PaymentId(n: Notification, q: Query): (r: string)
    ensures RawPaymentId(n, q) == "" ==> r == ""
    ensures StartsWith(RawPaymentId(n, q), "http") ==> '/' !in r
    ensures !StartsWith(RawPaymentId(n, q), "http") ==> r == RawPaymentId(n, q)
  {
    var id := RawPaymentId(n, q);
    if StartsWith(id, "http") then LastSegment(id) else id
  }

  /** A resource URL ending in `/<id>` yields the id. */
  lemma LastSegmentOfUrl(base: string, id: string)
    requires '/' !in id
    ensures LastSegment(base + ['/'] + id) == id
  {
    SplitAtSep(base, id, '/');
    SplitWithoutSep(id, '/');
  }

  /** For an old-style notification whose resource is the payment's URL, the id read is
      the URL's last segment; an id that is not a URL is passed on unchanged. */
  lemma PaymentIdFromResourceUrl(n: Notification, q: Query, base: string, id: string)
    requires n.kind != "payment" && n.topic == "payment"
    requires StartsWith(base, "http") && '/' !in id && n.resource == base + ['/'] + id
    ensures PaymentId(n, q) == id
  {
    assert (base + ['/'] + id)[..4] == base[..4];
    LastSegmentOfUrl(base, id);
  }

  lemma PaymentIdPlain(n: Notification, q: Query)
    requires !StartsWith(RawPaymentId(n, q), "http")
    ensures PaymentId(n, q) == RawPaymentId(n, q)
  {
  }

  /** A resource URL ending in `/` is a payment id that is present but cuts down to the
      empty text: the id is read, and the gateway is then asked about `""`. */
  lemma PaymentIdTrailingSlash(n: Notification, q: Query, base: string)
    requires n.kind != "payment" && n.topic == "payment"
    requires StartsWith(base, "http") && n.resource == base + ['/']
    ensures RawPaymentId(n, q) == n.resource != ""
    ensures PaymentId(n, q) == ""
  {
    assert (base + ['/'])[..4] == base[..4];
    LastSegmentOfUrl(base, "");
    assert base + ['/'] + "" == base + ['/'];
  }

  /** What the gateway says about a payment: the HTTP status of the lookup and, for a
      successful one, the payment's status and external reference (blank when absent). */
  datatype GatewayReply = GatewayReply(httpStatus: int, status: string, externalRef: string)

  datatype HookStatus = Ok200 | BadRequest400 | Error500

  /** The tenant exists and has a gateway key. */
  predicate HasKey(s: Store, tenantId: nat) {
    Has(s.tenants, tenantId) && s.tenants[tenantId].value.mercadopagoKey != ""
  }

  /** A successful lookup of an approved payment that names a reference. */
  predicate Approved(reply: GatewayReply) {
    reply.httpStatus == 200 && reply.status == "approved" && reply.externalRef != ""
  }

  /** `mercadopago_webhook_view`. `body` is `None` when the request body is not a JSON
      object. Any exception inside the view (unknown tenant, bad body, failing gateway
      call, a reference that is not a key, an empty cart) answers 500; a tenant without a
      gateway key answers 400; everything else answers 200, including a notification
      without a payment id, a payment that is not approved and a cart already gone. */
  function Webhook(s: Store, tenantId: nat, body: Option<Notification>, q: Query,
                   gateway: string -> Option<GatewayReply>): (r: (Store, HookStatus))
    ensures r.0 != s ==> r.1 == Ok200
    ensures !Has(s.tenants, tenantId) ==> r == (s, Error500)
    ensures Has(s.tenants, tenantId) && s.tenants[tenantId].value.mercadopagoKey == "" ==> r == (s, BadRequest400)
    ensures HasKey(s, tenantId) && body.None? ==> r == (s, Error500)
    ensures HasKey(s, tenantId) && body.Some? && RawPaymentId(body.value, q) == "" ==> r == (s, Ok200)
    ensures (HasKey(s, tenantId) && body.Some? && RawPaymentId(body.value, q) != ""
             && gateway(PaymentId(body.value, q)).None?) ==> r == (s, Error500)
    ensures (HasKey(s, tenantId) && body.Some? && RawPaymentId(body.value, q) != ""
             && gateway(PaymentId(body.value, q)).Some? && !Approved(gateway(PaymentId(body.value, q)).value))
      ==> r == (s, Ok200)
    ensures (HasKey(s, tenantId) && body.Some? && RawPaymentId(body.value, q) != ""
             && gateway(PaymentId(body.value, q)).Some? && Approved(gateway(PaymentId(body.value, q)).value))
      ==> var ref := gateway(PaymentId(body.value, q)).value.externalRef;
          match ParseNat(ref)
          case None => r == (s, Error500)
          case Some(cid) => r == (if Materialise(s, cid).1.Crashed? then (s, Error500) else (Materialise(s, cid).0, Ok200))
  {
    if !Has(s.tenants, tenantId) then (s, Error500)
    else if s.tenants[tenantId].value.mercadopagoKey == "" then (s, BadRequest400)
    else match body
      case None => (s, Error500)
      case Some(n) =>
        if RawPaymentId(n, q) == "" then (s, Ok200)
        else match gateway(PaymentId(n, q))
          case None => (s, Error500)
          case Some(reply) =>
            if !Approved(reply) then (s, Ok200)
            else match ParseNat(reply.externalRef)
              case None => (s, Error500)
              case Some(cid) =>
                var (t, m) := Materialise(s, cid);
                if m.Crashed? then (s, Error500) else (t, Ok200)
  }

  /** A notification whose resource URL ends in `/` still reaches the gateway, with the
      empty id: when that lookup fails the answer is 500, and an approved reply for a cart
      materialises it. */
  lemma WebhookTrailingSlash(s: Store, tenantId: nat, n: Notification, q: Query, base: string,
                             gateway: string -> Option<GatewayReply>)
    requires HasKey(s, tenantId)
    requires n.kind != "payment" && n.topic == "payment"
    requires StartsWith(base, "http") && n.resource == base + ['/']
    ensures gateway("").None? ==> Webhook(s, tenantId, Some(n), q, gateway) == (s, Error500)
    ensures gateway("").Some? && Approved(gateway("").value) && ParseNat(gateway("").value.externalRef).Some?
      && !Materialise(s, ParseNat(gateway("").value.externalRef).value).1.Crashed?
      ==> Webhook(s, tenantId, Some(n), q, gateway).0 == Materialise(s, ParseNat(gateway("").value.externalRef).value).0
  {
    PaymentIdTrailingSlash(n, q, base);
  }

  /** The two ways a payment is reported back to the store. */
  datatype Callback =
    | Redirect(externalRef: string, collectionStatus: string, status: string)
    | Hook(tenantId: nat, body: Option<Notification>, q: Query)

  function Deliver(s: Store, c: Callback, gateway: string -> Option<GatewayReply>): Store {
    match c
    case Redirect(ref, cs, st) => PaymentSuccess(s, ref, cs, st).0
    case Hook(tid, body, q) => Webhook(s, tid, body, q, gateway).0
  }

  /** The callback reports the approved payment of cart `cid` and will act on it. */
  predicate Reports(s: Store, c: Callback, cid: nat, gateway: string -> Option<GatewayReply>) {
    match c
    case Redirect(ref, cs, st) => RedirectApproved(ref, cs, st) && ParseNat(ref) == Some(cid)
    case Hook(tid, body, q) =>
      && Has(s.tenants, tid) && s.tenants[tid].value.mercadopagoKey != ""
      && body.Some? && RawPaymentId(body.value, q) != ""
      && var reply := gateway(PaymentId(body.value, q));
      && reply.Some? && reply.value.httpStatus == 200 && reply.value.status == "approved"
      && ParseNat(reply.value.externalRef) == Some(cid)
  }

  /** A callback that reports cart `cid` does exactly what materialising `cid` does. */
  lemma DeliverReported(s: Store, c: Callback, cid: nat, gateway: string -> Option<GatewayReply>)
    requires Reports(s, c, cid, gateway)
    ensures Deliver(s, c, gateway) == Materialise(s, cid).0
  {
  }

  /** Whichever of the redirect and the notification arrives first, and even when both
      are of the same kind, a paid cart becomes exactly one order: the first callback
      creates it and deletes the cart, the second finds no cart and changes nothing. */
  lemma ReconcileOnce(s: Store, first: Callback, second: Callback, cid: nat,
                      gateway: string -> Option<GatewayReply>)
    requires Has(s.carts, cid) && |s.carts[cid].value.lines| > 0
    requires Reports(s, first, cid, gateway) && Reports(s, second, cid, gateway)
    ensures var t := Deliver(s, first, gateway);
      && |t.orders| == |s.orders| + 1
      && t.orders[..|s.orders|] == s.orders
      && !Has(t.carts, cid)
      && Deliver(t, second, gateway) == t
  {
    DeliverReported(s, first, cid, gateway);
    var t := Deliver(s, first, gateway);
    assert Reports(t, second, cid, gateway);
    DeliverReported(t, second, cid, gateway);
    MaterialiseTwice(s, cid);
  }

  /** Callbacks keep the store invariant. */
  lemma DeliverKeepsValid(s: Store, c: Callback, gateway: string -> Option<GatewayReply>)
    requires Valid(s)
    ensures Valid(Deliver(s, c, gateway))
  {
    match c
    case Redirect(ref, cs, st) =>
      if RedirectApproved(ref, cs, st) && ParseNat(ref).Some? {
        MaterialiseKeepsValid(s, ParseNat(ref).value);
      }
    case Hook(tid, body, q) =>
      var t := Webhook(s, tid, body, q, gateway).0;
      if t != s {
        var reply := gateway(PaymentId(body.value, q)).value;
        MaterialiseKeepsValid(s, ParseNat(reply.externalRef).value);
      }
  }
}

=== FILE: storefront.dfy ===
/** The product list of a tenant's storefront (`sales_view`) under the default
    ordering: the products of the promotion category first, then categories whose
    newest product is newer first, then newer products first. */
module Storefront {
  import opened Wrappers
  import opened Tables
  import opened ShopModels

  /** A product as the storefront sorts it: its id, its category and whether it belongs
      to the tenant's promotion category. */
  datatype Listing = Listing(id: nat, category: nat, promo: bool)

  /** The category filter of the query string: an integer selects one category; a
      missing or blank parameter, or one that is not an integer, selects all. */
  predicate Selected(selected: FormInt, category: nat) {
    match selected
    case Int(n) => category == n
    case _ => true
  }

  function Shown(tenantId: nat, selected: FormInt): Product -> bool {
    (p: Product) => p.tenant == tenantId && Selected(selected, p.category)
  }

  /** The tenant's products that pass the filter, in id order. */
  function Listings(s: Store, tenantId: nat, selected: FormInt): (r: seq<Listing>)
    requires Has(s.tenants, tenantId)
    ensures forall i | 0 <= i < |r| ::
      && Has(s.products, r[i].id)
      && s.products[r[i].id].value.tenant == tenantId
      && Selected(selected, s.products[r[i].id].value.category)
      && r[i].category == s.products[r[i].id].value.category
      && r[i].promo == (s.tenants[tenantId].value.promotionCategory == Some(r[i].category))
    ensures forall k: nat | Has(s.products, k) && s.products[k].value.tenant == tenantId
                            && Selected(selected, s.products[k].value.category) ::
      exists i | 0 <= i < |r| :: r[i].id == k
    ensures forall i, j | 0 <= i < j < |r| :: r[i].id < r[j].id
  {
    var ids := Where(s.products, Shown(tenantId, selected));
    var promo := s.tenants[tenantId].value.promotionCategory;
    var r := seq(|ids|, i requires 0 <= i < |ids| =>
      var c := s.products[ids[i]].value.category;
      Listing(ids[i], c, promo == Some(c)));
    assert forall i | 0 <= i < |ids| :: r[i].id == ids[i];
    r
  }

  /** The newest (largest) product id of category `c` among the listed products, 0 when
      none is listed. */
  function CatMax(ls: seq<Listing>, c: nat): (m: nat)
    ensures forall i | 0 <= i < |ls| && ls[i].category == c :: ls[i].id <= m
    ensures m == 0 || exists i | 0 <= i < |ls| :: ls[i].category == c && ls[i].id == m
    decreases |ls|
  {
    if |ls| == 0 then 0
    else
      var rest := CatMax(ls[1..], c);
      if ls[0].category == c && ls[0].id > rest then ls[0].id else rest
  }

  /** The sort key of a listing: promotion first, newest category first, newest product
      first, as ascending components. */
  datatype Key = Key(promo: int, newest: int, id: int)

  function KeyOf(l: Listing, all: seq<Listing>): Key {
    Key(if l.promo then -1 else 0, -(CatMax(all, l.category) as int), -(l.id as int))
  }

  /** Lexicographic order of keys. */
  predicate KeyLe(a: Key, b: Key) {
    a.promo < b.promo || (a.promo == b.promo && (a.newest < b.newest || (a.newest == b.newest && a.id <= b.id)))
  }

  predicate Sorted(s: seq<Listing>, key: Listing -> Key) {
    forall i, j | 0 <= i < j < |s| :: KeyLe(key(s[i]), key(s[j]))
  }

  function InsertSorted(x: Listing, s: seq<Listing>, key: Listing -> Key): (r: seq<Listing>)
    requires Sorted(s, key)
    ensures Sorted(r, key)
    ensures multiset(r) == multiset(s) + multiset{x}
    ensures forall i | 0 <= i < |r| :: r[i] == x || r[i] in s
    decreases |s|
  {
    if |s| == 0 then [x]
    else if KeyLe(key(x), key(s[0])) then [x] + s
    else
      var rest := InsertSorted(x, s[1..], key);
      InsertStep(x, s, key, rest);
      [s[0]] + rest
  }

  /** Inserting after the head: the head goes before the list the rest became. */
  lemma InsertStep(x: Listing, s: seq<Listing>, key: Listing -> Key, rest: seq<Listing>)
    requires Sorted(s, key) && |s| > 0 && !KeyLe(key(x), key(s[0]))
    requires Sorted(rest, key)
    requires multiset(rest) == multiset(s[1..]) + multiset{x}
    requires forall i | 0 <= i < |rest| :: rest[i] == x || rest[i] in s[1..]
    ensures Sorted([s[0]] + rest, key)
    ensures multiset([s[0]] + rest) == multiset(s) + multiset{x}
    ensures forall i | 0 <= i < |[s[0]] + rest| :: ([s[0]] + rest)[i] == x || ([s[0]] + rest)[i] in s
  {
    assert s == [s[0]] + s[1..];
    forall i | 0 <= i < |rest| ensures KeyLe(key(s[0]), key(rest[i])) {
      if rest[i] != x {
        var j :| 0 <= j < |s[1..]| && s[1..][j] == rest[i];
        assert s[1..][j] == s[j + 1];
      }
    }
    ConsSorted(s[0], rest, key);
    var r := [s[0]] + rest;
    forall i | 0 <= i < |r| ensures r[i] == x || r[i] in s {
      if i > 0 {
        assert r[i] == rest[i - 1];
      }
    }
  }

  lemma ConsSorted(y: Listing, rest: seq<Listing>, key: Listing -> Key)
    requires Sorted(rest, key)
    requires forall i | 0 <= i < |rest| :: KeyLe(key(y), key(rest[i]))
    ensures Sorted([y] + rest, key)
  {
    var r := [y] + rest;
    forall i, j | 0 <= i < j < |r| ensures KeyLe(key(r[i]), key(r[j])) {
      assert r[j] == rest[j - 1];
      if i > 0 {
        assert r[i] == rest[i - 1];
      }
    }
  }

  /** Python's `list.sort` with a key: a sorted permutation. */
  function SortListings(s: seq<Listing>, key: Listing -> Key): (r: seq<Listing>)
    ensures Sorted(r, key)
    ensures multiset(r) == multiset(s)
    decreases |s|
  {
    if |s| == 0 then []
    else
      assert s == [s[0]] + s[1..];
      InsertSorted(s[0], SortListings(s[1..], key), key)
  }

  function StorefrontKey(all: seq<Listing>): Listing -> Key {
    (l: Listing) => KeyOf(l, all)
  }

  /** The storefront list under the default ordering. Any preference other than the two
      price orderings, including the `"newest"` a tenant gets by default, uses it. */
  function SalesView(s: Store, tenantId: nat, selected: FormInt): (r: seq<Listing>)
    requires Has(s.tenants, tenantId)
    ensures multiset(r) == multiset(Listings(s, tenantId, selected))
  {
    var ls := Listings(s, tenantId, selected);
    SortListings(ls, StorefrontKey(ls))
  }

  predicate UsesDefaultOrder(t: Tenant) {
    t.displayOrder != "price_asc" && t.displayOrder != "price_desc"
  }

  lemma DefaultPreferenceUsesDefaultOrder(t: Tenant)
    requires t.displayOrder == DefaultDisplayOrder
    ensures UsesDefaultOrder(t)
  {
  }

  /** The list holds each listed product exactly once: every product of the tenant that
      passes the filter, and nothing else. */
  lemma SalesViewContents(s: Store, tenantId: nat, selected: FormInt)
    requires Has(s.tenants, tenantId)
    ensures var r := SalesView(s, tenantId, selected);
      && multiset(r) == multiset(Listings(s, tenantId, selected))
      && (forall i | 0 <= i < |r| ::
            Has(s.products, r[i].id) && s.products[r[i].id].value.tenant == tenantId
            && Selected(selected, s.products[r[i].id].value.category))
      && (forall k: nat | Has(s.products, k) && s.products[k].value.tenant == tenantId
                          && Selected(selected, s.products[k].value.category) ::
            exists i | 0 <= i < |r| :: r[i].id == k)
      && (forall i, j | 0 <= i < j < |r| :: r[i].id != r[j].id)
  {
    var ls := Listings(s, tenantId, selected);
    var r := SalesView(s, tenantId, selected);
    SameElements(ls, r);
    DistinctAfterPermutation(ls, r);
  }

  /** Two permutations of each other hold the same elements. */
  lemma SameElements(a: seq<Listing>, b: seq<Listing>)
    requires multiset(a) == multiset(b)
    ensures forall i | 0 <= i < |b| :: b[i] in a
    ensures forall i | 0 <= i < |a| :: exists j | 0 <= j < |b| :: b[j] == a[i]
  {
    forall i | 0 <= i < |b| ensures b[i] in a {
      assert b[i] in multiset(b);
    }
    forall i | 0 <= i < |a| ensures exists j | 0 <= j < |b| :: b[j] == a[i] {
      assert a[i] in multiset(b);
    }
  }

  /** A permutation of a list with distinct ids has distinct ids. */
  lemma DistinctAfterPermutation(a: seq<Listing>, b: seq<Listing>)
    requires forall x, y | 0 <= x < y < |a| :: a[x].id < a[y].id
    requires multiset(a) == multiset(b)
    ensures forall i, j | 0 <= i < j < |b| :: b[i].id != b[j].id
  {
    forall i, j | 0 <= i < j < |b| ensures b[i].id != b[j].id {
      assert b[i] in multiset(a) && b[j] in multiset(a);
      var x :| 0 <= x < |a| && a[x] == b[i];
      var y :| 0 <= y < |a| && a[y] == b[j];
      AtMostOnce(a, x);
      CountTwoPlaces(b, i, j);
    }
  }

  lemma {:induction false} AtMostOnce(a: seq<Listing>, x: nat)
    requires forall p, q | 0 <= p < q < |a| :: a[p].id < a[q].id
    requires x < |a|
    ensures multiset(a)[a[x]] == 1
    decreases |a|
  {
    var n := |a| - 1;
    assert a == a[..n] + [a[n]];
    if x < n {
      AtMostOnce(a[..n], x);
      assert a[n] != a[x];
    } else {
      assert a[x] !in a[..n];
    }
  }

  /** An element at two places of a list is counted at least twice. */
  lemma CountTwoPlaces(b: seq<Listing>, i: nat, j: nat)
    requires i < j < |b|
    ensures multiset(b)[b[i]] >= 1 + (if b[j] == b[i] then 1 else 0)
  {
    assert b == b[..j] + b[j..];
    assert multiset(b) == multiset(b[..j]) + multiset(b[j..]);
    assert b[..j][i] == b[i] && b[j..][0] == b[j];
    assert b[i] in multiset(b[..j]) && b[j] in multiset(b[j..]);
  }

  /** The order of the list: every promotion product comes before every other product;
      among products of equal standing, those of the category with the newer newest
      product come first; within a category, newer products come first. */
  lemma SalesViewOrder(s: Store, tenantId: nat, selected: FormInt)
    requires Has(s.tenants, tenantId)
    ensures var ls := Listings(s, tenantId, selected);
      var r := SalesView(s, tenantId, selected);
      forall i, j | 0 <= i < j < |r| ::
        && (r[j].promo ==> r[i].promo)
        && (r[i].promo == r[j].promo ==> CatMax(ls, r[i].category) >= CatMax(ls, r[j].category))
        && ((r[i].promo == r[j].promo && CatMax(ls, r[i].category) == CatMax(ls, r[j].category))
            ==> r[i].id > r[j].id)
  {
    SalesViewContents(s, tenantId, selected);
  }
}

=== FILE: tables.dfy ===
/** Database tables as immutable values.

    A table is a sequence indexed by primary key: the row whose id is `id` sits at index
    `id`, and a deleted row leaves `None` behind. Creating a row appends it, so ids are
    handed out in increasing order and never reused, as an auto-increment key does. */
module Tables {
  import opened Wrappers

  type Table<T> = seq<Option<T>>

  /** The table has a live row with this primary key. */
  predicate Has<T>(t: Table<T>, id: nat) {
    id < |t| && t[id].Some?
  }

  /** `Model.objects.create(...)`: the new row gets id `|t|`; every existing row keeps its id. */
  function Insert<T>(t: Table<T>, row: T): (r: Table<T>)
    ensures |r| == |t| + 1 && r[|t|] == Some(row)
    ensures forall id | 0 <= id < |t| :: r[id] == t[id]
  {
    t + [Some(row)]
  }

  /** `row.save()` on the row `id`; a missing row stays missing. */
  function Put<T>(t: Table<T>, id: nat, row: T): (r: Table<T>)
    ensures |r| == |t|
    ensures Has(t, id) ==> r[id] == Some(row)
    ensures forall k | 0 <= k < |t| && k != id :: r[k] == t[k]
    ensures !Has(t, id) ==> r == t
  {
    if Has(t, id) then t[id := Some(row)] else t
  }

  /** `row.delete()`: the row disappears, every other row keeps its id and contents. */
  function Delete<T>(t: Table<T>, id: nat): (r: Table<T>)
    ensures |r| == |t|
    ensures !Has(r, id)
    ensures forall k | 0 <= k < |t| && k != id :: r[k] == t[k]
  {
    if id < |t| then t[id := None] else t
  }

  /** The primary keys of the live rows satisfying `p`, in ascending order: the rows an
      unordered `filter(...)` returns, in the order the database hands them out. */
  function Where<T>(t: Table<T>, p: T -> bool): (ids: seq<nat>)
    ensures forall i | 0 <= i < |ids| :: Has(t, ids[i]) && p(t[ids[i]].value)
    ensures forall k: nat | Has(t, k) && p(t[k].value) :: k in ids
    ensures forall i, j | 0 <= i < j < |ids| :: ids[i] < ids[j]
    decreases |t|
  {
    if |t| == 0 then []
    else
      var n := |t| - 1;
      var front := Where(t[..n], p);
      WhereStep(t, p, front);
      front + (if t[n].Some? && p(t[n].value) then [n] else [])
  }

  /** The step of `Where`: the ids found in all rows but the last, then the last row's. */
  lemma WhereStep<T>(t: Table<T>, p: T -> bool, front: seq<nat>)
    requires |t| > 0
    requires forall i | 0 <= i < |front| :: Has(t[..|t| - 1], front[i]) && p(t[..|t| - 1][front[i]].value)
    requires forall k: nat | Has(t[..|t| - 1], k) && p(t[..|t| - 1][k].value) :: k in front
    requires forall i, j | 0 <= i < j < |front| :: front[i] < front[j]
    ensures var ids := front + (if t[|t| - 1].Some? && p(t[|t| - 1].value) then [|t| - 1] else []);
      && (forall i | 0 <= i < |ids| :: Has(t, ids[i]) && p(t[ids[i]].value))
      && (forall k: nat | Has(t, k) && p(t[k].value) :: k in ids)
      && (forall i, j | 0 <= i < j < |ids| :: ids[i] < ids[j])
  {
    var n := |t| - 1;
    var init := t[..n];
    assert forall i | 0 <= i < |front| :: front[i] < n && t[front[i]] == init[front[i]];
    forall k: nat | Has(t, k) && p(t[k].value) && k < n ensures k in front {
      assert Has(init, k) && init[k] == t[k];
    }
    if t[n].Some? && p(t[n].value) {
      var ids := front + [n];
      assert forall i | 0 <= i < |front| :: ids[i] == front[i];
      assert ids[|front|] == n;
    }
  }

  /** Deleting every row that satisfies `p` (a queryset's `.delete()`). */
  function DeleteWhere<T>(t: Table<T>, p: T -> bool): (r: Table<T>)
    ensures |r| == |t|
    ensures forall k | 0 <= k < |t| :: r[k] == (if t[k].Some? && p(t[k].value) then None else t[k])
  {
    seq(|t|, k requires 0 <= k < |t| => if t[k].Some? && p(t[k].value) then None else t[k])
  }

  /** Row `k` is live and satisfies `p`. */
  predicate Matches<T>(t: Table<T>, k: nat, p: T -> bool) {
    k < |t| && t[k].Some? && p(t[k].value)
  }

  /** `Where` only looks at which rows match: two tables of the same size whose rows
      match at the same keys give the same answer. */
  lemma {:induction false} WhereSame<T>(t: Table<T>, u: Table<T>, p: T -> bool)
    requires |t| == |u|
    requires forall k: nat | k < |t| :: Matches(t, k, p) == Matches(u, k, p)
    ensures Where(t, p) == Where(u, p)
    decreases |t|
  {
    if |t| > 0 {
      var n := |t| - 1;
      assert forall k: nat | k < n :: Matches(t[..n], k, p) == Matches(t, k, p);
      assert forall k: nat | k < n :: Matches(u[..n], k, p) == Matches(u, k, p);
      WhereSame(t[..n], u[..n], p);
      assert Matches(t, n, p) == Matches(u, n, p);
    }
  }

  /** A created row is found after all the older ones, when it matches. */
  lemma WhereInsert<T>(t: Table<T>, row: T, p: T -> bool)
    ensures Where(Insert(t, row), p) == Where(t, p) + (if p(row) then [|t|] else [])
  {
    assert Insert(t, row)[..|t|] == t;
  }

  /** The live rows satisfying `p`, in primary-key order (the rows of an unordered
      `filter(...)`). */
  function RowsWhere<T>(t: Table<T>, p: T -> bool): (r: seq<T>)
    ensures forall i | 0 <= i < |r| :: p(r[i])
    decreases |t|
  {
    if |t| == 0 then []
    else
      var n := |t| - 1;
      RowsWhere(t[..n], p) + (if t[n].Some? && p(t[n].value) then [t[n].value] else [])
  }

  /** Rows created later are listed after the older ones. */
  lemma {:induction false} RowsWhereConcat<T>(a: Table<T>, b: Table<T>, p: T -> bool)
    ensures RowsWhere(a + b, p) == RowsWhere(a, p) + RowsWhere(b, p)
    decreases |b|
  {
    if |b| == 0 {
      assert a + b == a;
    } else {
      var n := |b| - 1;
      assert (a + b)[..|a + b| - 1] == a + b[..n];
      RowsWhereConcat(a, b[..n], p);
    }
  }

  /** A filtered row is a live row that satisfies `p`. */
  lemma {:induction false} RowsWhereMember<T>(t: Table<T>, p: T -> bool, x: T)
    requires x in RowsWhere(t, p)
    ensures exists k: nat :: Matches(t, k, p) && t[k].value == x
    decreases |t|
  {
    var n := |t| - 1;
    if x in RowsWhere(t[..n], p) {
      RowsWhereMember(t[..n], p, x);
      var k: nat :| Matches(t[..n], k, p) && t[..n][k].value == x;
      assert Matches(t, k, p) && t[k].value == x;
    } else {
      assert Matches(t, n, p) && t[n].value == x;
    }
  }

  /** Every live row that satisfies `p` is among the filtered rows. */
  lemma {:induction false} RowsWhereHas<T>(t: Table<T>, p: T -> bool, k: nat)
    requires Matches(t, k, p)
    ensures t[k].value in RowsWhere(t, p)
    decreases |t|
  {
    var n := |t| - 1;
    if k < n {
      assert Matches(t[..n], k, p) && t[..n][k] == t[k];
      RowsWhereHas(t[..n], p, k);
    }
  }

  /** No live row satisfies `p`: the filtered rows are none. */
  lemma {:induction false} RowsWhereNone<T>(t: Table<T>, p: T -> bool)
    requires forall k: nat | k < |t| :: !Matches(t, k, p)
    ensures RowsWhere(t, p) == []
    decreases |t|
  {
    if |t| > 0 {
      var n := |t| - 1;
      assert forall k: nat | k < n :: Matches(t[..n], k, p) == Matches(t, k, p);
      RowsWhereNone(t[..n], p);
      assert !Matches(t, n, p);
    }
  }

  /** No live row satisfies `p`: the filter is empty. */
  lemma WhereNone<T>(t: Table<T>, p: T -> bool)
    requires forall k: nat | k < |t| :: !Matches(t, k, p)
    ensures Where(t, p) == []
  {
    var ids := Where(t, p);
    if |ids| > 0 {
      assert Matches(t, ids[0], p);
    }
  }

  /** When no two live rows satisfy `p`, the filter finds at most one (a `get` cannot
      find several). */
  lemma {:induction false} WhereAtMostOne<T>(t: Table<T>, p: T -> bool)
    requires forall a: nat, b: nat | Matches(t, a, p) && Matches(t, b, p) :: a == b
    ensures |Where(t, p)| <= 1
    decreases |t|
  {
    if |t| > 0 {
      var n := |t| - 1;
      assert forall k: nat | k < n :: Matches(t[..n], k, p) == Matches(t, k, p);
      if Matches(t, n, p) {
        assert forall k: nat | k < n :: !Matches(t[..n], k, p);
        WhereNone(t[..n], p);
      } else {
        WhereAtMostOne(t[..n], p);
      }
    }
  }
}

=== FILE: text.dfy ===
/** The few string operations of Python that the views rely on: `str.split` on one
    separator character, reading a primary key out of text, `str.strip`, `str.lower`,
    `str.isalpha` and `str.startswith`. */
module Text {
  import opened Wrappers

  predicate IsDigit(c: char) {
    '0' <= c <= '9'
  }

  predicate AllDigits(s: string) {
    forall i | 0 <= i < |s| :: IsDigit(s[i])
  }

  function DigitChar(d: nat): (c: char)
    requires d < 10
    ensures IsDigit(c)
  {
    (48 + d) as char
  }

  function DigitValue(c: char): (d: nat)
    requires IsDigit(c)
    ensures d < 10
  {
    (c as int) - 48
  }

  /** `str(n)` for a natural number: decimal digits, most significant first. */
  function NatToString(n: nat): (s: string)
    ensures |s| >= 1
    ensures AllDigits(s)
    decreases n
  {
    if n < 10 then [DigitChar(n)] else NatToString(n / 10) + [DigitChar(n % 10)]
  }

  /** The decimal value of a string of digits. */
  function DigitsValue(s: string): nat
    requires AllDigits(s)
    decreases |s|
  {
    if |s| == 0 then 0 else DigitsValue(s[..|s| - 1]) * 10 + DigitValue(s[|s| - 1])
  }

  /** How the ORM reads an integer primary key out of text: a non-empty run of ASCII
      digits is a key, anything else makes the query raise a ValueError. */
  function ParseNat(s: string): (r: Option<nat>)
    ensures r.Some? <==> |s| > 0 && AllDigits(s)
  {
    if |s| > 0 && AllDigits(s) then Some(DigitsValue(s)) else None
  }

  /** Reading back the text of a key gives the key. */
  lemma {:induction false} ParseNatToString(n: nat)
    ensures ParseNat(NatToString(n)) == Some(n)
  {
    DigitsOfNat(n);
  }

  lemma {:induction false} DigitsOfNat(n: nat)
    ensures DigitsValue(NatToString(n)) == n
    decreases n
  {
    if n >= 10 {
      var s := NatToString(n);
      assert s[..|s| - 1] == NatToString(n / 10);
      DigitsOfNat(n / 10);
    }
  }

  /** Python's `s.split(sep)`: the pieces between the occurrences of `sep`, in order;
      never empty (`"".split("_") == [""]`). */
  function Split(s: string, sep: char): (parts: seq<string>)
    ensures |parts| >= 1
    ensures forall i | 0 <= i < |parts| :: sep !in parts[i]
    decreases |s|
  {
    if |s| == 0 then [""]
    else
      var rest := Split(s[1..], sep);
      if s[0] == sep then [""] + rest
      else [[s[0]] + rest[0]] + rest[1..]
  }

  /** Python's `sep.join(parts)`. */
  function Join(parts: seq<string>, sep: char): string
    decreases |parts|
  {
    if |parts| == 0 then ""
    else if |parts| == 1 then parts[0]
    else parts[0] + [sep] + Join(parts[1..], sep)
  }

  /** Splitting and joining again gives back the original text. */
  lemma {:induction false} JoinSplit(s: string, sep: char)
    ensures Join(Split(s, sep), sep) == s
    decreases |s|
  {
    if |s| > 0 {
      var rest := Split(s[1..], sep);
      JoinSplit(s[1..], sep);
      if s[0] == sep {
        assert Split(s, sep) == [""] + rest;
        assert ([""] + rest)[1..] == rest;
      } else if |rest| == 1 {
        assert Split(s, sep) == [[s[0]] + rest[0]];
      } else {
        assert Join(rest, sep) == rest[0] + [sep] + Join(rest[1..], sep);
        var parts := [[s[0]] + rest[0]] + rest[1..];
        assert parts[1..] == rest[1..];
      }
    }
  }

  lemma {:induction false} SplitWithoutSep(a: string, sep: char)
    requires sep !in a
    ensures Split(a, sep) == [a]
    decreases |a|
  {
    if |a| > 0 {
      SplitWithoutSep(a[1..], sep);
      assert [a[0]] + a[1..] == a;
    }
  }

  lemma {:induction false} SplitAtSep(a: string, b: string, sep: char)
    ensures Split(a + [sep] + b, sep) == Split(a, sep) + Split(b, sep)
    decreases |a|
  {
    var s := a + [sep] + b;
    if |a| == 0 {
      assert s == [sep] + b;
      assert s[1..] == b;
    } else {
      assert s[1..] == a[1..] + [sep] + b;
      SplitAtSep(a[1..], b, sep);
    }
  }

  /** Joining pieces that do not contain the separator and splitting again gives the
      pieces back: this is what makes a cart key self-describing. */
  lemma {:induction false} SplitJoin(parts: seq<string>, sep: char)
    requires |parts| >= 1
    requires forall i | 0 <= i < |parts| :: sep !in parts[i]
    ensures Split(Join(parts, sep), sep) == parts
    decreases |parts|
  {
    if |parts| == 1 {
      SplitWithoutSep(parts[0], sep);
    } else {
      SplitJoin(parts[1..], sep);
      SplitWithoutSep(parts[0], sep);
      SplitAtSep(parts[0], Join(parts[1..], sep), sep);
      assert [parts[0]] + parts[1..] == parts;
    }
  }

  /** Python's `s.startswith(prefix)`. */
  predicate StartsWith(s: string, prefix: string) {
    |prefix| <= |s| && s[..|prefix|] == prefix
  }

  /** The characters Python's `str.isspace` accepts, which `str.strip()` removes. */
  predicate IsSpace(c: char) {
    || ('\t' <= c <= '\r')
    || ('\U{1c}' <= c <= ' ')
    || c == '\U{85}' || c == '\U{a0}' || c == '\U{1680}'
    || ('\U{2000}' <= c <= '\U{200a}')
    || c == '\U{2028}' || c == '\U{2029}' || c == '\U{202f}' || c == '\U{205f}' || c == '\U{3000}'
  }

  function StripLeft(s: string): (r: string)
    ensures |r| <= |s| && r == s[|s| - |r|..]
    ensures |r| > 0 ==> !IsSpace(r[0])
    decreases |s|
  {
    if |s| > 0 && IsSpace(s[0]) then StripLeft(s[1..]) else s
  }

  function StripRight(s: string): (r: string)
    ensures |r| <= |s| && r == s[..|r|]
    ensures |r| > 0 ==> !IsSpace(r[|r| - 1])
    decreases |s|
  {
    if |s| > 0 && IsSpace(s[|s| - 1]) then StripRight(s[..|s| - 1]) else s
  }

  /** Python's `s.strip()`. */
  function Strip(s: string): (r: string)
    ensures |r| > 0 ==> !IsSpace(r[0]) && !IsSpace(r[|r| - 1])
  {
    var l := StripLeft(s);
    var r := StripRight(l);
    assert |r| > 0 ==> r[0] == l[0];
    r
  }

  /** Python's `c.isalpha()` on the Latin-1 range: ASCII letters and the accented
      letters of Western European alphabets. */
  predicate IsAlpha(c: char) {
    || ('A' <= c <= 'Z') || ('a' <= c <= 'z')
    || c == '\U{aa}' || c == '\U{b5}' || c == '\U{ba}'
    || ('\U{c0}' <= c <= '\U{d6}') || ('\U{d8}' <= c <= '\U{f6}') || ('\U{f8}' <= c <= '\U{ff}')
  }

  /** Python's `c.lower()` on the Latin-1 range. */
  function LowerChar(c: char): char {
    if ('A' <= c <= 'Z') || ('\U{c0}' <= c <= '\U{de}' && c != '\U{d7}') then
      (c as int + 32) as char
    else c
  }

  function Lower(s: string): (r: string)
    ensures |r| == |s|
    ensures forall i | 0 <= i < |s| :: r[i] == LowerChar(s[i])
  {
    seq(|s|, i requires 0 <= i < |s| => LowerChar(s[i]))
  }

  /** Python's `sep.join(parts)` for a separator of any length. */
  function JoinWith(parts: seq<string>, sep: string): string
    decreases |parts|
  {
    if |parts| == 0 then ""
    else if |parts| == 1 then parts[0]
    else parts[0] + sep + JoinWith(parts[1..], sep)
  }
}

=== FILE: wrappers.dfy ===
/** Optional values, used for nullable columns, missing form fields and failed lookups. */
module Wrappers {

  /** The conventional Some/None datatype, standing in for Python's `None`. */
  datatype Option<+T> = None | Some(value: T) {

    /** The value, or `default` when there is none (Python's `x or default` on an optional). */
    function GetOr(default: T): T {
      match this
      case Some(v) => v
      case None => default
    }
  }

  /** An integer read from a submitted form with `int(...)`: the field may be missing,
      hold an integer, or hold text that `int` rejects with a ValueError. */
  datatype FormInt = Absent | Int(n: int) | Garbage
}
